=== FILE: README.md ===
# liwq core, modelled in Dafny

liwq is a small 2D engine for XNA, built on parts of cocos2d-xna. This
project models its core and proves properties of the model:

- the value types `Point`, `Size` and `Rect`;
- the scene graph of `Node`, with its z-ordered child lists;
- drawing of nodes and sprites;
- the sprite and texture caches;
- the XML attribute readers;
- the application object: its scene stack, drawing gate, back-buffer
  orientation and touch bookkeeping;
- a handful of cocos2d actions: frame animation (`CCAnimate`), the
  back-in-out and bounce-in eases, `CCAccelDeccelAmplitude`, `CCFollow`
  and `CCToggleVisibility`.

Modelling choices:

- Single-precision floats are `real`. A C# `(int)` cast of a float
  truncates toward zero (`Base.Trunc`) and, for a value outside the
  32-bit range, gives `int.MinValue`, as the .NET Framework does on x86
  and x64 (`Base.CastToInt`).
- A null reference is `Option.None`. The few arguments taken to be
  non-null are listed under Left out.
- An exception is a `Result.Err`. When the call has already changed state
  before it throws, it returns an `Outcome`, which carries the state
  reached along with the value returned or the exception thrown.
- Mutable objects that are shared between containers live in maps from
  references to records:
  - nodes in `Scene.Arena`;
  - touches in the heap of `Touches.Touches`.
- Code the model cannot see becomes a function parameter:
  - the `Math.Pow`, `bounceTime`, `clampf` and `int.Parse` helpers;
  - an action's `Reverse` and `copy`;
  - whether a sprite shows a frame;
  - whether a node is running.
- The graphics device's viewport, the director's design size and the
  touch panel's state are parameters as well.
- Drawing yields the list of `SpriteBatch.Draw` calls it would issue.

The scene-graph recursions (`Dispose`, `Draw`) overflow the stack on a
cyclic child graph, and the source does not prevent such a graph. The
model therefore asks for a `Ranked` arena, in which every child ranks
below its parent.

Six places where the code departs from what it evidently intends are
modelled as written:

- `Rect.Center` takes the low-y edge instead of the middle of the y range.
- `Rect.Intersection` gets a zero high edge when the two rectangles share
  one.
- `Node.RemoveAllChildren` removes children inside a `foreach` over the
  same list, so the enumerator throws after the first removal.
- The back-in-out ease omits a factor in its second branch.
- `CCFollow` assigns its left bound twice and never its top bound.
- `Node.Draw` with `Sprite.Draw` skip only the children of a hidden
  sprite, not the sprite itself.

All six are listed under Findings below, each with a corrected definition.

## Model

| member | source | states |
|---|---|---|
| Base.Trunc | liwq/cocos2d-xna/_liwq/Application.cs:185 | the `(int)` cast used by the viewport test truncates toward zero: the result is within one of the value, on the side of zero |
| Base.CastToInt | liwq/cocos2d-xna/_liwq/Application.cs:185 | the `(int)` cast always yields a 32-bit value |
| Base.CastToIntRange | liwq/cocos2d-xna/actions/action_intervals/CCAnimate.cs:155 | the cast truncates exactly the values strictly between -2^31 - 1 and 2^31; from 2^31 up it gives `int.MinValue`; below 2^31 a non-negative value lies in the unit slot above its cast |
| Points.Div | liwq/source/sturcts/Point.cs:606-612 | dividing a point by a non-zero factor is undone by multiplying back |
| Points.Equal | liwq/source/sturcts/Point.cs:41-44 | the component test `Equal`/`Equals`/`==` holds exactly for equal points |
| Points.NotEqual | liwq/source/sturcts/Point.cs:537-540 | `!=`, written separately as a disjunction, is exactly the negation of `==` |
| Points.AddSubInverse | liwq/source/sturcts/Point.cs:550-580 | subtracting undoes adding and vice versa; `Offset` is adding; adding the negation is subtracting |
| Points.SizeOperatorsInverse | liwq/source/sturcts/Point.cs:542-573 | `p + size - size == p`, and unary minus is an involution |
| Points.LengthSq | liwq/source/sturcts/Point.cs:89-92 | the squared length is never negative |
| Points.PerpCcw | liwq/source/sturcts/Point.cs:465-471 | the counter-clockwise perpendicular is orthogonal to the vector and lies to its left (cross product not negative) |
| Points.PerpCw | liwq/source/sturcts/Point.cs:478-484 | the clockwise perpendicular is orthogonal to the vector and lies to its right |
| Points.PerpendicularFacts | liwq/source/sturcts/Point.cs:408-484 | `Perp` is the counter-clockwise perpendicular; the two perpendiculars undo each other and are negations of each other; their cross product with the vector is plus or minus its squared length |
| Points.ProductSymmetries | liwq/source/sturcts/Point.cs:416-458 | the dot product is symmetric, the cross product antisymmetric, and a vector crossed with itself is 0 |
| Points.UnrotateUndoesRotate | liwq/source/sturcts/Point.cs:508-527 | unrotating by `u` undoes rotating by `u` up to the factor `|u|^2`, so the two are inverse for a unit vector |
| Points.Lerp | liwq/source/sturcts/Point.cs:177-180 | interpolation gives `a` at 0 and `b` at 1, stays between the two on each axis for alpha in [0, 1], and is `a` moved alpha of the way to `b` |
| Points.Midpoint | liwq/source/sturcts/Point.cs:437-443 | the midpoint is equally far from both points |
| Points.MidpointIsHalfLerp | liwq/source/sturcts/Point.cs:437-443 | the midpoint is the interpolation at one half |
| Points.FuzzyEqualFacts | liwq/source/sturcts/Point.cs:186-192 | fuzzy equality is symmetric, reflexive for a non-negative variance, and with variance 0 it is equality |
| Points.Clamp | liwq/source/sturcts/Point.cs:362-371 | the scalar clamp lands within the two bounds taken in either order, keeps a value already inside, and sends a value outside to the nearer bound |
| Points.ClampPoint | liwq/source/sturcts/Point.cs:376-383 | the point clamp lands in the box spanned by the two corners, keeps each coordinate already inside it, and moves each coordinate outside it to the nearer bound on that axis |
| Points.ClampPointIdempotent | liwq/source/sturcts/Point.cs:376-383 | clamping twice is clamping once, and the order of the two corners does not matter |
| Points.LineIntersect | liwq/source/sturcts/Point.cs:264-304 | a degenerate line fails and leaves S and T untouched; parallel lines keep the raw numerators and succeed only if one is 0; otherwise S and T name the same point on both lines |
| Points.HitParametersUnique | liwq/source/sturcts/Point.cs:264-304 | for non-parallel lines, any parameters naming a common point are the ones `LineIntersect` computes |
| Points.SegmentIntersectMeansCommonPoint | liwq/source/sturcts/Point.cs:310-318 | for non-parallel lines, `SegmentIntersect` holds exactly when some point lies on both segments |
| Points.IntersectPoint | liwq/source/sturcts/Point.cs:324-336 | the result is `Zero` when the line test fails and otherwise the point at parameter S on line AB; for non-parallel lines it is also the point at parameter T on line CD |
| Points.IntersectPointIsCommonPoint | liwq/source/sturcts/Point.cs:324-336 | for non-parallel lines the result lies on both lines, and every point on both lines is the result |
| Points.IntersectPointParallel | liwq/source/sturcts/Point.cs:324-336 | for parallel lines the test succeeds exactly when A lies on line CD (the lines are one), and the result is then A; otherwise it is `Zero` |
| Sizes.Clamp | liwq/source/sturcts/Size.cs:19-24 | each dimension is cut down to the corresponding maximum |
| Sizes.ClampFacts | liwq/source/sturcts/Size.cs:19-24 | clamping is idempotent, never grows a dimension, never exceeds the maximum, and leaves a size within the maximum unchanged |
| Sizes.Inverted | liwq/source/sturcts/Size.cs:41-44 | width and height trade places |
| Sizes.InvertedInvolution | liwq/source/sturcts/Size.cs:41-44 | inverting twice gives the size back; a size is its own inversion exactly when it is square |
| Sizes.Equal | liwq/source/sturcts/Size.cs:46-49 | the component test holds exactly for equal sizes |
| Sizes.NotEqual | liwq/source/sturcts/Size.cs:81-84 | `!=` is exactly inequality |
| Sizes.Center | liwq/source/sturcts/Size.cs:66-69 | the centre is halfway along each dimension |
| Sizes.AsRect | liwq/source/sturcts/Size.cs:119-122 | a rectangle of this size at the origin |
| Sizes.Div | liwq/source/sturcts/Size.cs:91-94 | dividing by a non-zero factor is undone by multiplying back |
| Sizes.OperatorsInverse | liwq/source/sturcts/Size.cs:86-109 | `+ f` and `- f` undo each other, the size sum is commutative, `+ f` adds the square size `(f, f)`, and `/ f` undoes `* f` |
| Sizes.FromPoint | liwq/source/sturcts/Size.cs:111-117 | the explicit conversion reads x as width and y as height |
| Rects.FromSize | liwq/source/sturcts/Rect.cs:13-17 | `new Rect(size)` sits at the origin with that size |
| Rects.InvertedSize | liwq/source/sturcts/Rect.cs:27-30 | the origin is kept and the two sides trade places |
| Rects.InvertedSizeInvolution | liwq/source/sturcts/Rect.cs:27-30 | inverting twice gives the rectangle back |
| Rects.Equal | liwq/source/sturcts/Rect.cs:96-99 | the component test holds exactly for equal rectangles |
| Rects.NotEqual | liwq/source/sturcts/Rect.cs:106-109 | `!=` is exactly inequality |
| Rects.ContainsPoint | liwq/source/sturcts/Rect.cs:91-94 | the point test is the coordinate test on the point's coordinates |
| Rects.ContainsCorners | liwq/source/sturcts/Rect.cs:87-90 | with inclusive edges a rectangle of non-negative size contains its corners and its middle, and one of negative size contains no point |
| Rects.CenterAsWritten | liwq/source/sturcts/Rect.cs:40 | as written, `Center` is the middle of the x range at the low-y edge (`MinY`) |
| Rects.Center | liwq/source/sturcts/Rect.cs:40 | corrected: halfway between the low and high edges on both axes |
| Rects.CenterDiscrepancy | liwq/source/sturcts/Rect.cs:40 | the two agree exactly on rectangles of zero height; on the 2 x 2 square they give (1, 0) and (1, 1) |
| Rects.Union | liwq/source/sturcts/Rect.cs:42-49 | the union's edges are the outermost edges of the two rectangles |
| Rects.UnionBounds | liwq/source/sturcts/Rect.cs:42-49 | the union contains every point of either rectangle, is symmetric and idempotent, keeps non-negative sizes, and lies inside any rectangle that covers both |
| Rects.IntersectsMeansCommonPoint | liwq/source/sturcts/Rect.cs:83-86 | for rectangles of non-negative size, the test is symmetric and holds exactly when some point lies in both |
| Rects.IntersectionAsWritten | liwq/source/sturcts/Rect.cs:51-81 | as written: `Zero` for separate rectangles, and the overlap when the argument lies strictly inside the receiver on an axis |
| Rects.IntersectionSelfCounterexample | liwq/source/sturcts/Rect.cs:72-73 | as written, the unit square at (1, 1) intersected with itself has size (-1, -1), while the corrected intersection gives the square back |
| Rects.Intersection | liwq/source/sturcts/Rect.cs:51-81 | corrected: `Zero` for separate rectangles, otherwise the larger low edge and the smaller high edge on each axis |
| Rects.IntersectionContainsCommonPoints | liwq/source/sturcts/Rect.cs:51-81 | for overlapping rectangles of non-negative size, the corrected intersection has non-negative size, contains exactly the common points, is symmetric, and gives a rectangle intersected with itself back |
| Rects.IntersectionAgreesAwayFromSharedEdges | liwq/source/sturcts/Rect.cs:70-79 | where no edge of the argument meets the receiver's high edge, the code as written computes the corrected intersection |
| Scene.NewNode | liwq/source/Node.cs:47-51 | a new node is visible, has scale 1 on both axes, and has no parent and no child list |
| Scene.AccessorRoundTrips | liwq/source/Node.cs:15-35 | reading a setter back gives the value set; setting what was read changes nothing; a second set overrides the first; `Scale` sets both axes but reads only x |
| Scene.ChildById | liwq/source/Node.cs:75-89 | the indexer finds the first child in list order with that id, and returns null exactly when no child has it |
| Scene.InternalAddChild | liwq/source/Node.cs:91-114 | the child is inserted at the insertion index and takes the new z order; no other field of any node changes |
| Scene.InsertIndex | liwq/source/Node.cs:95-111 | on a sorted list, the insertion index comes after every child of order at most `z` and before every child of higher order |
| Scene.InsertKeepsSorted | liwq/source/Node.cs:91-114 | on a sorted list without the child, insertion keeps the list sorted, puts the child after the nodes of order at most `z` and before the higher ones, and keeps the old list around it |
| Scene.AddChild | liwq/source/Node.cs:124-130 | throws, changing nothing, exactly when the child has a parent; otherwise inserts it once into the parent's list, sets its z order, id and parent and no other field of it, changes no other field of the parent, and leaves every other node alone |
| Scene.AddChildKeepsClosed | liwq/source/Node.cs:124-130 | adding keeps every stored reference inside the arena |
| Scene.RemoveFirst | liwq/source/Node.cs:121 | `List.Remove` drops exactly one copy of the element when there is one: the multiset loses that element and nothing else |
| Scene.RemoveKeepsSorted | liwq/source/Node.cs:121 | removing keeps a sorted list sorted, and removes the only copy from a list without duplicates |
| Scene.DisposeNode | liwq/source/Node.cs:55-68 | `Dispose` nulls the parent of exactly the nodes below the node and changes nothing else |
| Scene.DisposeIdempotent | liwq/source/Node.cs:55-68 | disposing twice is disposing once, and disposal leaves the node's own parent and every child list alone |
| Scene.RemoveChild | liwq/source/Node.cs:116-122 | the child loses its parent; the call throws exactly when the parent never created a list; otherwise the list loses one copy of the child; parents change only by being nulled, only the parent's list changes, and no other field of any node changes |
| Scene.RemoveChildEffects | liwq/source/Node.cs:116-122 | only parent links and the parent's list change, and no other field of any node, the parent and child included; without disposal no other node changes; with disposal, exactly the nodes below the child lose their parent |
| Scene.AddChildOrNull | liwq/source/Node.cs:124-130 | a null child throws a null reference and changes nothing; the call throws exactly when the child is null or already has a parent, and otherwise the child is listed under the parent with the given order |
| Scene.RemoveChildOrNull | liwq/source/Node.cs:116-122 | a null child throws a null reference and changes nothing; the call throws exactly when the child is null or the list was never created, and otherwise the child loses its parent and one copy of it leaves the list |
| Scene.RemoveFromParent | liwq/source/Node.cs:136-139 | a node without a parent throws a null reference; otherwise the call is its parent's `RemoveChild` |
| Scene.AddThenRemove | liwq/source/Node.cs:124-135 | removing a freshly added child restores the parent's list and leaves the child without a parent |
| Scene.RemoveInserted | liwq/source/Node.cs:91-122 | `List.Remove` undoes an insertion of an element not already listed |
| Scene.ReorderChild | liwq/source/Node.cs:150-154 | throws, changing nothing, exactly when the list was never created; otherwise the child is removed and re-inserted at the index for its new order, only its z order and the parent's list change, and every other node is left alone |
| Scene.ReorderPermutes | liwq/source/Node.cs:150-154 | reordering a listed child permutes the list |
| Scene.ReorderKeepsSorted | liwq/source/Node.cs:150-154 | on a sorted list without duplicates, reordering permutes the list and keeps it sorted |
| Scene.RemoveAllChildrenAsWritten | liwq/source/Node.cs:141-148 | as written, a non-empty list loses only its first child, whose parent is nulled, before the enumerator throws; only parent links and the list change |
| Scene.RemoveAllChildrenCounterexample | liwq/source/Node.cs:141-148 | as written, a parent with children `[x, y]` throws and is left with `[y]` |
| Scene.RemoveAllChildren | liwq/source/Node.cs:141-148 | corrected: the list ends empty and every former child has no parent; parents change only by being nulled, no other field and no other list changes, and without disposal every node outside the list and the parent is left alone |
| Scene.RemoveEach | liwq/source/Node.cs:145-146 | removing children one after another takes each out of the list's multiset and nulls its parent; only parent links and the parent's list change, and without disposal every other node is left alone |
| Sprites.NewSprite | liwq/source/Sprite.cs:24-40 | throws exactly when both the texture and the rect are null; otherwise the rect defaults to the whole texture, and the crop size and position default to zero |
| Sprites.FromTexture | liwq/source/Sprite.cs:36-40 | the texture-only constructor succeeds exactly for a non-null texture and shows all of it |
| Sprites.Clone | liwq/source/Sprite.cs:53-56 | a clone shares the texture and copies the rect, rotation and crop, but not the flips |
| Sprites.CloneFacts | liwq/source/Sprite.cs:53-56 | cloning never throws, cloning a clone gives the clone, and a sprite equals its clone exactly when it is not flipped |
| Drawing.SpriteCall | liwq/source/Sprite.cs:62-75 | a textured sprite issues one call that places the cropped image so the uncropped one starts at the node's position, turns a rotated image back by 90 degrees, and passes on the anchor, scale, flips and z order |
| Drawing.DrawAsWrittenEvents | liwq/source/Node.cs:160-169 | as written, a draw issues exactly the calls of the textured sprites it visits, hidden ones included |
| Drawing.DrawEvents | liwq/source/Node.cs:160-169 | corrected: a draw issues exactly the calls of the visible textured sprites reachable through visible nodes |
| Drawing.OwnCallLast | liwq/source/Sprite.cs:58-62 | a textured sprite draws itself after everything below it |
| Drawing.HiddenSpriteCounterexample | liwq/source/Sprite.cs:58-62 | as written, a hidden textured sprite without children still issues its call; the corrected draw issues none |
| Textures.Add | liwq/source/TextureFactory.cs:12-15 | fails with a duplicate key exactly when the name is present; otherwise stores the texture |
| Textures.RemoveEntry | liwq/source/TextureFactory.cs:17-28 | a present name is dropped and its texture disposed; a null texture throws after the entry is gone |
| Textures.Remove | liwq/source/TextureFactory.cs:17-28 | afterwards the name is absent; the result is true exactly when it was present, and then its texture has been disposed |
| Textures.Get | liwq/source/TextureFactory.cs:31-34 | the indexer returns the stored texture, possibly null, and throws for an absent name |
| Textures.AddThenRemove | liwq/source/TextureFactory.cs:12-34 | adding under a fresh name and removing again restores the cache and disposes the texture |
| Dictionaries.Add | liwq/source/TextureFactory.cs:14 | `Dictionary.Add` fails exactly on a present key; otherwise only that key is added |
| Dictionaries.Remove | liwq/source/TextureFactory.cs:22 | `Dictionary.Remove` reports whether the key was present and drops only it |
| Dictionaries.Get | liwq/source/TextureFactory.cs:33 | the indexer returns the stored value and throws for an absent key |
| Dictionaries.AddRemoveRoundTrip | liwq/source/TextureFactory.cs:12-34 | adding under a fresh key, reading and removing it gives the value back and the map as it was |
| SpriteFactories.Store | liwq/source/SpriteFactory.cs:17-27 | an existing name without overwrite throws an argument error; otherwise the name maps to the new value and the others are kept |
| SpriteFactories.AddTexture | liwq/source/SpriteFactory.cs:17-27 | fails exactly for an existing name without overwrite, and otherwise changes only that texture entry |
| SpriteFactories.AddSprite | liwq/source/SpriteFactory.cs:43-53 | fails exactly for an existing name without overwrite, and otherwise changes only that sprite entry |
| SpriteFactories.StoreOverwrite | liwq/source/SpriteFactory.cs:17-27 | with overwrite the second store wins; without it a second store fails |
| SpriteFactories.RemoveTexture | liwq/source/SpriteFactory.cs:29-41 | the name ends absent and the sprites are untouched; the result is true exactly for a present name, whose texture is then disposed; a null texture throws |
| SpriteFactories.RemoveSprite | liwq/source/SpriteFactory.cs:55-66 | the sprite entry is dropped, never disposed, and the result says whether it was there |
| SpriteFactories.CloneSprite | liwq/source/SpriteFactory.cs:73 | a clone of a cached sprite is a new, unattached, visible node |
| SpriteFactories.CreateSprite | liwq/source/SpriteFactory.cs:69-85 | a cached sprite is cloned first; failing that, a texture makes a new sprite, which throws for a null texture; an unknown name gives null |
| SpriteFactories.TextureLifecycle | liwq/source/SpriteFactory.cs:17-85 | a texture added under a new name makes full-texture sprites until removed; removal disposes it and restores the factory; a sprite of the same name shadows the texture |
| SpriteFactories.DisposeEach | liwq/source/SpriteFactory.cs:89-90 | the loop disposes every texture in enumeration order, or throws at the first null one having disposed exactly those before it |
| SpriteFactories.Dispose | liwq/source/SpriteFactory.cs:87-94 | completes exactly when no cached texture is null, then disposes them all and empties both caches; otherwise it throws with both caches untouched |
| SpriteFactories.DisposeReleasesAll | liwq/source/SpriteFactory.cs:87-94 | after a completed `Dispose`, every texture that was cached has been disposed |
| Attributes.SafeReadString | liwq/source/Utility.cs:19-24 | a missing attribute reads as the empty string; a present one reads as its value |
| Attributes.SafeReadInt | liwq/source/Utility.cs:25-30 | a missing attribute reads as 0; a present one is parsed, and parse errors pass through |
| Attributes.ReadersAgree | liwq/source/Utility.cs:19-30 | a non-empty string read comes from a present attribute; the integer reader parses what the string reader returns; a missing and an empty attribute differ for the integer reader only |
| Actions.AsInterval | liwq/cocos2d-xna/actions/action_grid/CCAccelDeccelAmplitude.cs:16 | the `as CCActionInterval` cast keeps exactly the non-null non-instant actions |
| Actions.BaseReverse | liwq/cocos2d-xna/actions/action/CCFiniteTimeAction.cs:8-12 | the default `Reverse` returns null |
| Animate.InitWithAnimation | liwq/cocos2d-xna/actions/action_intervals/CCAnimate.cs:60-74 | the duration is one delay per frame; the animation and restore flag are kept |
| Animate.ActionWithAnimation | liwq/cocos2d-xna/actions/action_intervals/CCAnimate.cs:37-50 | the one-argument factory turns restoring on |
| Animate.InitWithDuration | liwq/cocos2d-xna/actions/action_intervals/CCAnimate.cs:84-98 | the explicit duration is kept as given |
| Animate.InitsAgree | liwq/cocos2d-xna/actions/action_intervals/CCAnimate.cs:60-98 | the two initialisers agree exactly when the explicit duration is one delay per frame |
| Animate.FrameIndex | liwq/cocos2d-xna/actions/action_intervals/CCAnimate.cs:155-160 | the index never passes the last frame, and below it is the product of time and frame count cast to `int` |
| Animate.ProductFrameInRange | liwq/cocos2d-xna/actions/action_intervals/CCAnimate.cs:155-160 | a product in [0, n] picks a valid index: the last one at n, and below n the one whose unit slot contains the product |
| Animate.FrameIndexInRange | liwq/cocos2d-xna/actions/action_intervals/CCAnimate.cs:155-160 | for an animation of 1 to `int.MaxValue` frames (a list's count) and a time in [0, 1] the index is valid, is the last frame at time 1, and otherwise is the frame whose slot contains the time |
| Animate.Update | liwq/cocos2d-xna/actions/action_intervals/CCAnimate.cs:150-167 | a negative index throws an out-of-range error, then a null target throws; otherwise the target shows the frame at the index |
| Animate.UpdateOverflowThrows | liwq/cocos2d-xna/actions/action_intervals/CCAnimate.cs:155-163 | a product of time and frame count of 2^31 or more casts to `int.MinValue`, and the update throws an out-of-range error |
| Animate.UpdateShowsFrame | liwq/cocos2d-xna/actions/action_intervals/CCAnimate.cs:150-167 | for a non-empty animation, an update in [0, 1] succeeds, shows exactly the frame of that time, and repeating it changes nothing |
| Animate.StartWithTarget | liwq/cocos2d-xna/actions/action_intervals/CCAnimate.cs:126-137 | with restoring on, a null target throws and otherwise its frame is saved; with restoring off nothing changes |
| Animate.Stop | liwq/cocos2d-xna/actions/action_intervals/CCAnimate.cs:139-148 | with restoring on, a non-null target gets the saved frame back; otherwise the target is untouched |
| Animate.StartStopRestores | liwq/cocos2d-xna/actions/action_intervals/CCAnimate.cs:126-148 | with restoring on, stop after start restores the original frame whatever happened in between |
| Animate.ReverseFrames | liwq/cocos2d-xna/actions/action_intervals/CCAnimate.cs:174-187 | the reversed list is never longer than the frames, and is non-empty when the last frame is not null |
| Animate.ReverseFramesSpec | liwq/cocos2d-xna/actions/action_intervals/CCAnimate.cs:174-187 | entry i is the copy of the i-th frame from the end, and the scan stops early only at a null frame |
| Animate.Reverse | liwq/cocos2d-xna/actions/action_intervals/CCAnimate.cs:169-193 | the reverse has the same duration, delay and restore flag, over the reversed frames |
| Animate.ReverseFramesInvolution | liwq/cocos2d-xna/actions/action_intervals/CCAnimate.cs:174-187 | without null frames, and with frames copied as themselves, reversing twice gives the frames back |
| Animate.ReverseTwice | liwq/cocos2d-xna/actions/action_intervals/CCAnimate.cs:169-193 | reversing an animate twice gives it back, bar the saved frame |
| Animate.Copy | liwq/cocos2d-xna/actions/action_intervals/CCAnimate.cs:100-120 | a copy has the same duration, animation and restore flag and no saved frame |
| Animate.CopyUpdatesAlike | liwq/cocos2d-xna/actions/action_intervals/CCAnimate.cs:100-167 | a copy updates and reverses exactly like the original |
| Ease.BackInOutAsWritten | liwq/cocos2d-xna/actions/action_ease/CCEaseBackInOut.cs:34-48 | as written the curve is 0 at 0 and 1 at 1, but jumps to `k + 1.5` at one half |
| Ease.BackInOut | liwq/cocos2d-xna/actions/action_ease/CCEaseBackInOut.cs:34-48 | corrected: 0 at 0, one half at one half, 1 at 1 |
| Ease.BackInOutSymmetric | liwq/cocos2d-xna/actions/action_ease/CCEaseBackInOut.cs:38-47 | the corrected curve is point-symmetric about (0.5, 0.5): its second half is its first half turned round |
| Ease.BackInOutDiscrepancy | liwq/cocos2d-xna/actions/action_ease/CCEaseBackInOut.cs:43-47 | the code agrees with the corrected curve before one half and at 1, and lies strictly above it on [0.5, 1) |
| Ease.UpdateBackInOut | liwq/cocos2d-xna/actions/action_ease/CCEaseBackInOut.cs:34-48 | one `Update` on the inner action with the eased time as written; a null inner action throws |
| Ease.UpdateBackInOutCorrected | liwq/cocos2d-xna/actions/action_ease/CCEaseBackInOut.cs:34-48 | the corrected update forwards the intended curve and agrees with the code on the first half |
| Ease.CopyBackInOut | liwq/cocos2d-xna/actions/action_ease/CCEaseBackInOut.cs:50-68 | the copy wraps the copy of the inner action, and throws for a null one |
| Ease.BounceInMirror | liwq/cocos2d-xna/actions/action_ease/CCEaseBounceIn.cs:34-38 | reflecting time and value turns bounce-in back into the bounce curve, and bounce-in keeps the end points and the range [0, 1] of that curve |
| Ease.UpdateBounceIn | liwq/cocos2d-xna/actions/action_ease/CCEaseBounceIn.cs:34-38 | one `Update` on the inner action at a time whose reflection is the bounce of the reflected time |
| Ease.ReverseBounceIn | liwq/cocos2d-xna/actions/action_ease/CCEaseBounceIn.cs:40-43 | a null inner action throws a null reference; an instant action as the inner reverse fails the hard `(CCActionInterval)` cast and throws an invalid cast; otherwise the reverse is a bounce-out around the inner reverse, null included, which is always an interval action |
| Ease.CopyBounceIn | liwq/cocos2d-xna/actions/action_ease/CCEaseBounceIn.cs:45-64 | the copy wraps the copy of the inner action |
| AccelDeccel.InitWithAction | liwq/cocos2d-xna/actions/action_grid/CCAccelDeccelAmplitude.cs:10-21 | the rate starts at 1 and the inner action is kept exactly when it is an interval action |
| AccelDeccel.RampShape | liwq/cocos2d-xna/actions/action_grid/CCAccelDeccelAmplitude.cs:31-34 | the ramp is the tent `1 - |2t - 1|`: symmetric, 0 at both ends, 1 in the middle, within [0, 1] |
| AccelDeccel.Update | liwq/cocos2d-xna/actions/action_grid/CCAccelDeccelAmplitude.cs:29-40 | an inner action of another class fails the cast and a null one throws; otherwise its amplitude rate becomes the ramp to the power `rate` |
| AccelDeccel.UpdateAtRateOne | liwq/cocos2d-xna/actions/action_grid/CCAccelDeccelAmplitude.cs:29-40 | at rate 1 the inner rate follows the tent, reaches 1 in the middle, and is symmetric in time |
| AccelDeccel.StartWithTarget | liwq/cocos2d-xna/actions/action_grid/CCAccelDeccelAmplitude.cs:23-27 | the inner action is started on the same target; a null one throws |
| AccelDeccel.Reverse | liwq/cocos2d-xna/actions/action_grid/CCAccelDeccelAmplitude.cs:42-45 | same duration, rate back to 1, around the interval cast of the inner reverse |
| AccelDeccel.SetRate | liwq/cocos2d-xna/actions/action_grid/CCAccelDeccelAmplitude.cs:62-71 | the setter changes the rate only |
| AccelDeccel.ReverseForgetsRate | liwq/cocos2d-xna/actions/action_grid/CCAccelDeccelAmplitude.cs:42-71 | reversing forgets a rate that was set, and reversing twice gives the action back at rate 1 |
| AccelDeccel.ReverseOfBaseDefault | liwq/cocos2d-xna/actions/action_grid/CCAccelDeccelAmplitude.cs:42-45 | around an inner action with the default `Reverse`, the reverse has no inner action and every later update or start throws |
| Follow.Collapse | liwq/cocos2d-xna/actions/action/CCFollow.cs:31-42 | bounds always end ordered: an inverted pair collapses to its midpoint, an ordered pair is kept |
| Follow.CollapseIdempotent | liwq/cocos2d-xna/actions/action/CCFollow.cs:31-42 | collapsing is idempotent and leaves exactly the ordered bounds alone |
| Follow.Screen | liwq/cocos2d-xna/actions/action/CCFollow.cs:22-24 | the full screen is the design size and the half screen is half of it |
| Follow.BoundedAsWritten | liwq/cocos2d-xna/actions/action/CCFollow.cs:14-48 | as written, the x bounds come from the world's y and x origins and the top stays 0 |
| Follow.Bounded | liwq/cocos2d-xna/actions/action/CCFollow.cs:14-48 | corrected: for a world at least as large as the screen, the bounds let the screen scroll until its edges meet the world's |
| Follow.Unbounded | liwq/cocos2d-xna/actions/action/CCFollow.cs:50-61 | no boundaries, not covered, half and full screen from the design size |
| Follow.Step | liwq/cocos2d-xna/actions/action/CCFollow.cs:83-101 | a covered world does nothing; a null target throws; otherwise only the target moves, to the centring position, clamped when bounded |
| Follow.UnboundedStepCentres | liwq/cocos2d-xna/actions/action/CCFollow.cs:95-100 | without bounds, the target and the followed positions add up to half the screen |
| Follow.BoundedStepWithin | liwq/cocos2d-xna/actions/action/CCFollow.cs:87-94 | with bounds and a clamp into an ordered range, the target always lands within the bounds, and with the point clamp it is the clamp of the centring position |
| Follow.ScreenInsideWorld | liwq/cocos2d-xna/actions/action/CCFollow.cs:26-29 | corrected bounds keep the screen inside a world at least as large as the screen |
| Follow.BoundsCounterexample | liwq/cocos2d-xna/actions/action/CCFollow.cs:26-29 | as written, a 200 x 200 world at (0, 50) on a 100 x 100 screen allows a position showing space outside the world past its low-y edge, and the same world at the origin cannot scroll horizontally |
| Follow.IsDone | liwq/cocos2d-xna/actions/action/CCFollow.cs:103-106 | the action is done exactly when the followed node is not running |
| Follow.Stop | liwq/cocos2d-xna/actions/action/CCFollow.cs:108-112 | stopping clears the target and nothing else |
| Follow.StepAfterStop | liwq/cocos2d-xna/actions/action/CCFollow.cs:83-112 | after `Stop` a step throws unless the world is fully covered |
| ToggleVisibility.Action | liwq/cocos2d-xna/actions/action_instants/CCToggleVisibility.cs:17-22 | a new toggle is bound to no node |
| ToggleVisibility.StartWithTarget | liwq/cocos2d-xna/actions/action_instants/CCToggleVisibility.cs:24-28 | the target is bound; a null one throws; otherwise its visibility flips and nothing else changes |
| ToggleVisibility.ToggleTwice | liwq/cocos2d-xna/actions/action_instants/CCToggleVisibility.cs:24-28 | toggling the same node twice gives the arena back |
| Application.NewApp | liwq/source/Application.cs:16-21 | a new application has no scenes, is animating and has scale factor 1 |
| Application.PushScene | liwq/source/Application.cs:155-159 | the scene goes on top of the stack and becomes the running one |
| Application.PopScene | liwq/source/Application.cs:161-171 | the top scene is dropped if there is one; the running scene is not changed |
| Application.RunWithScene | liwq/source/Application.cs:173-178 | the scene replaces the top one, or is pushed onto an empty stack, and becomes the running one |
| Application.PopLeavesRunningScene | liwq/source/Application.cs:155-171 | push then pop restores the stack, but the running scene stays the one pushed |
| Application.Update | liwq/source/Application.cs:50-61 | the running scene, if any, is updated |
| Application.StopAnimation | liwq/source/Application.cs:142 | sets the stopped flag only |
| Application.StartAnimation | liwq/source/Application.cs:143 | clears the stopped flag only |
| Application.Draw | liwq/source/Application.cs:63-73 | nothing is drawn while stopped or without a running scene; otherwise the running scene is drawn |
| Application.StopStartDraw | liwq/source/Application.cs:63-73 | stopping silences drawing, and starting again issues exactly the calls of the textured nodes the scene reaches |
| Application.DisplaySize | liwq/source/Application.cs:134-137 | the display size is the design size times the scale factor |
| Application.NewAppDisplaySize | liwq/source/Application.cs:134-137 | a new application displays at the design size |
| Application.SetOrientation | liwq/source/Application.cs:94-123 | the back buffer keeps the viewport's two sides; landscape puts the longer side across and supports that landscape; any other orientation puts it upright and supports portrait |
| Application.OrientationIgnoresRotation | liwq/cocos2d-xna/_liwq/Application.cs:102-131 | the setting depends on the two sides, not on which way round they are; the two landscapes differ only in the supported orientation |
| Touches.Step | liwq/cocos2d-xna/_liwq/Application.cs:180-216 | an invalid state throws; a press inside the viewport allocates a touch, appends it to the list, maps its id and adds it to the began batch; a move of a tracked id updates that touch; a release of a tracked id unlinks and unmaps it; anything else changes nothing |
| Touches.StepValid | liwq/cocos2d-xna/_liwq/Application.cs:180-216 | every step keeps the list free of duplicates, every mapped id leading to a listed touch with that id, and the batches allocated |
| Touches.Fold | liwq/cocos2d-xna/_liwq/Application.cs:180-217 | the loop throws an out-of-range error exactly when some entry of the panel's state is invalid |
| Touches.FoldValid | liwq/cocos2d-xna/_liwq/Application.cs:180-217 | the loop keeps the bookkeeping valid, whether it finishes or throws |
| Touches.Values | liwq/cocos2d-xna/_liwq/Application.cs:189-208 | a batch hands the delegate the touch objects of its handles, in order |
| Touches.Callbacks | liwq/cocos2d-xna/_liwq/Application.cs:219-221 | one delegate call per non-empty batch, in the order began, moved, ended, and none for an empty one |
| Touches.ProcessTouch | liwq/cocos2d-xna/_liwq/Application.cs:167-223 | without a delegate nothing happens; otherwise it throws exactly when the state holds an invalid entry, and keeps the bookkeeping valid |
| Touches.PressThenRelease | liwq/cocos2d-xna/_liwq/Application.cs:184-212 | a press under a new id followed by its release restores the list and the id map, and reports the same touch as began and ended |
| Touches.ClearTouches | liwq/cocos2d-xna/_liwq/Application.cs:159-163 | the list and the map are emptied and validity is kept |
| Touches.ClearedIgnoresMoves | liwq/cocos2d-xna/_liwq/Application.cs:193-212 | after clearing, moves and releases are ignored |
| Touches.Update | liwq/cocos2d-xna/_liwq/Application.cs:69-77 | touches are processed first; the scheduler ticks exactly when not paused, and not at all after a throw |

## Left out

- Point operations that need square roots or trigonometry: `Length`, `Normalize`, `Distance`, `AngleSigned`, `RotateByAngle`, `ForAngle`, `ToAngle`, `Project`, `Diagonal`. Reals in Dafny have no square root or trigonometric functions.
- `InvertY`, `IsZero`, `ComputationOperation`, `Random`, `GetHashCode`, `ToString` and the Vector2/Vector3 conversions. They depend on XNA types, randomness or formatting.
- `CCOrbitCamera`, `CCActionCamera` and `CCTwirl`. These are trigonometry-based camera and grid effects.
- Base.CastToInt: NaN and the infinities are not modelled, and neither is the saturating cast of .NET Core 3.0 and later; the model follows the .NET Framework on x86 and x64.
- IEEE float behaviour: rounding, infinities and NaN. A zero divisor is excluded by `requires` on `Points.Div` and `Sizes.Div`.
- Touches.Step: a position is taken as the panel's coordinate. The source subtracts `viewport.Left / ScreenScaleFactor`, which is 0 for a non-zero factor. That property is never assigned in liwq/cocos2d-xna/_liwq/Application.cs, so it would be 0, and the float division would give NaN.
- Touches.Callbacks: the delegate's second argument (always null) is not modelled.
- `LinkedList.Remove` throwing on a foreign node is not modelled. The validity invariant rules it out.
- Scene: cyclic child graphs are not modelled. Only `Dispose` and `Draw` recurse, without end, on them, but every scene operation asks for a ranked arena, so a cycle is excluded even from calls that do not recurse, such as `RemoveChild` without disposal.
- Scene: the action and scheduler stubs of `Node` (`StopAllActions`, `unscheduleAllSelectors` and the action forwards) are not modelled. They are empty or forward to code that is not part of this model. `Node.Update` does nothing.
- Scene.ReorderChild: a null child is not modelled. On an existing list the source inserts a null entry and then throws at `node.ZOrder`, leaving the null in the list; the model's child lists hold only nodes.
- Textures, Dictionaries, SpriteFactories: a null name or key is not modelled; names are plain strings. In the source such a key reaches `Dictionary<string, ...>`, which throws `ArgumentNullException`.
- Follow: a null followed node is not modelled; the followed node is a plain reference. The source checks it only with `Debug.Assert`, which release builds omit, so `Step` and `IsDone` would then throw a null reference.
- Scene: finalizers and `GC.SuppressFinalize` are not modelled.
- `UserData`, `Rotation`, `AnchorPoint` and `ContentSize` are stored on the node but only read by drawing.
- Sprites: the constructors from raw bytes and from an asset name load through the graphics device and content manager. They are not modelled.
- Textures: a texture's disposal is recorded in a set of disposed textures. `Texture2D` itself is not part of this model.
- SpriteFactories.Dispose: the dictionary's enumeration order is a parameter. The finalizer is left out.
- SpriteFactories: the sprite cache keeps only a sprite's texture state, which is all `Clone` copies.
- Animate.Update: the cast of the target to `CCSprite` is not modelled; the target is a sprite.
- Animate.Update: `isFrameDisplayed` and `setDisplayFrame` are modelled by a parameter and by replacing the displayed frame.
- Animate.InitWithAnimation: the unseen `initWithDuration` of the base class is taken to succeed.
- Animate.Copy, Ease.CopyBackInOut and Ease.CopyBounceIn: only the path without a zone is modelled. The zone path depends on unseen base classes.
- Animate.Reverse: the animation is rebuilt directly. `CCAnimation.animationWithFrames` is not part of this model.
- `CCLog` logging and the log line of the default `Reverse` are not modelled.
- Base classes of the actions (`CCActionInterval`, `CCActionEase`, `CCAction`): only the target binding of `StartWithTarget` and its clearing in `Stop` are modelled, and only for `CCFollow` and `CCToggleVisibility`, whose modelled state holds the target. `CCAnimate`, `CCAccelDeccelAmplitude` and the eases keep no target in the model; it is passed to each call.
- Drawing: `SourceRectangle` is passed to `SpriteBatch.Draw` as a `Rect` of reals; the implicit conversion to XNA's integer `Rectangle` is not modelled. The rotation is kept in degrees. The source's conversion to radians is a constant factor and is not modelled. `SpriteBatch.Begin`/`End` are not modelled.
- Application: the graphics device, `ApplyChanges`, the game's activation events, `AnimationInterval` and content loading are not modelled.
- Application.SetOrientation: only the four plain orientations are modelled. A combination of flags takes the same default branch as `Portrait`.
- Touches.Update: the scheduler's `tick` and the director's main loop are not part of this model. The update reports whether it would tick.

## Findings

| source | as written | input that shows it | evidently intended | confidence | as-written member | corrected member |
|---|---|---|---|---|---|---|
| liwq/source/sturcts/Rect.cs:40 | `Center` is `(MidX, MinY)`, on the low-y edge | the 2 x 2 square at the origin gives (1, 0) | `(MidX, MidY)`, giving (1, 1) | high, not executed | Rects.CenterDiscrepancy | Rects.Center |
| liwq/source/sturcts/Rect.cs:72-73 | the high edge stays 0 when the argument's high edge equals the receiver's | the unit square at (1, 1) intersected with itself gives size (-1, -1) | the smaller of the two high edges | high, not executed | Rects.IntersectionSelfCounterexample | Rects.IntersectionContainsCommonPoints |
| liwq/source/Node.cs:145-146 | `RemoveChild` inside a `foreach` over the same list, so the enumerator throws after the first removal | children `[x, y]`: an exception, and `[y]` is left | every child removed | high, not executed | Scene.RemoveAllChildrenCounterexample | Scene.RemoveAllChildren |
| liwq/cocos2d-xna/actions/action_ease/CCEaseBackInOut.cs:46 | the bracket lacks the factor `time`: `(k + 1) + k` | t = 0.5 gives `k + 1.5`, about 4.09 | `(k + 1) * time + k`, giving 0.5 and a point-symmetric curve | high, not executed | Ease.BackInOutDiscrepancy | Ease.BackInOutSymmetric |
| liwq/cocos2d-xna/actions/action/CCFollow.cs:26-29 | the left bound is assigned twice, the second time from the y origin, and the top is never assigned | a 200 x 200 world at (0, 50) on a 100 x 100 screen allows position (0, 0), showing space outside the world past its low-y edge | left from the world's right edge, top from its y origin | high, not executed | Follow.BoundsCounterexample | Follow.ScreenInsideWorld |
| liwq/source/Sprite.cs:58-62 | a sprite draws its own texture after `base.Draw`, whose visibility test covers only the children | a hidden textured sprite without children issues one draw call | a hidden sprite draws nothing | medium, not executed | Drawing.HiddenSpriteCounterexample | Drawing.DrawEvents |

=== FILE: accel_deccel.dfy ===
/** `CCAccelDeccelAmplitude`
    (liwq/cocos2d-xna/actions/action_grid/CCAccelDeccelAmplitude.cs): an
    interval action that drives the amplitude rate of an inner action up
    and back down over its duration, the rate being a tent-shaped ramp of
    the normalised time raised to a power. `Math.Pow` is not part of this
    model and is a parameter. */
module AccelDeccel {
  import opened Base
  import opened Scene
  import opened Actions

  /** The state of the action: its duration, the exponent applied to the
      ramp, and the inner action (null when the one supplied was not an
      interval action). */
  datatype AccelDeccelAmplitude = AccelDeccelAmplitude(duration: real, rate: real, inner: Option<ActionRef>)

  /** `initWithAction(action, duration)` and `actionWithAction`: the rate
      starts at 1 and the inner action is kept only if it is an interval
      action. */
  function InitWithAction(action: Option<ActionRef>, duration: real): (a: AccelDeccelAmplitude)
    ensures a.duration == duration && a.rate == 1.0
    ensures a.inner.Some? <==> action.Some? && action.value.kind != Instant
    ensures a.inner.Some? ==> a.inner == action
  {
    AccelDeccelAmplitude(duration, 1.0, AsInterval(action))
  }

  /** The ramp of `Update`: twice the time, folded back down once it
      passes 1. */
  function Ramp(t: real): real
  {
    var f := t * 2.0;
    if f > 1.0 then 1.0 - (f - 1.0) else f
  }

  /** The ramp is the tent `1 - |2t - 1|`: symmetric about the middle of
      the action, 0 at both ends, 1 in the middle, and within [0, 1] over
      the action's time. */
  lemma {:induction false} RampShape(t: real)
    ensures Ramp(t) == 1.0 - Abs(t * 2.0 - 1.0)
    ensures Ramp(t) == Ramp(1.0 - t)
    ensures 0.0 <= t <= 1.0 ==> 0.0 <= Ramp(t) <= 1.0
    ensures Ramp(0.0) == 0.0 && Ramp(0.5) == 1.0 && Ramp(1.0) == 0.0
  {
  }

  /** `Update(time)`: the inner action, cast to this very class, gets the
      amplitude rate `Ramp(time)` to the power `rate`. A non-null inner
      action of another class fails the cast; a null one throws at the
      call. */
  function Update(a: AccelDeccelAmplitude, time: real, pow: (real, real) -> real): (r: Result<Call>)
    ensures r.Err? <==> a.inner.None? || a.inner.value.kind != AccelDeccelClass
    ensures r.Err? && a.inner.Some? ==> r.error == InvalidCast
    ensures r.Err? && a.inner.None? ==> r.error == NullReference
    ensures r.Ok? ==> r.value == SetAmplitudeRateCall(a.inner.value, pow(Ramp(time), a.rate))
  {
    if a.inner.Some? && a.inner.value.kind != AccelDeccelClass then Err(InvalidCast)
    else if a.inner.None? then Err(NullReference)
    else Ok(SetAmplitudeRateCall(a.inner.value, pow(Ramp(time), a.rate)))
  }

  /** While the rate is 1 and the power is the usual one, the inner rate
      follows the ramp itself: nothing at the ends, full in the middle. */
  lemma {:induction false} UpdateAtRateOne(a: AccelDeccelAmplitude, time: real, pow: (real, real) -> real)
    requires a.rate == 1.0 && a.inner.Some? && a.inner.value.kind == AccelDeccelClass
    requires forall x :: pow(x, 1.0) == x
    ensures Update(a, time, pow) == Ok(SetAmplitudeRateCall(a.inner.value, 1.0 - Abs(time * 2.0 - 1.0)))
    ensures Update(a, 0.5, pow).value.rate == 1.0
    ensures Update(a, time, pow) == Update(a, 1.0 - time, pow)
  {
    RampShape(time);
    RampShape(0.5);
  }

  /** `StartWithTarget(target)`: the inner action is started on the same
      target. This action keeps no target of its own in the model; the
      target is passed to each call. */
  function StartWithTarget(a: AccelDeccelAmplitude, target: Option<Ref>): (r: Result<Call>)
    ensures r.Err? <==> a.inner.None?
    ensures r.Err? ==> r.error == NullReference
    ensures r.Ok? ==> r.value.StartCall? && r.value.action == a.inner.value && r.value.target == target
  {
    if a.inner.None? then Err(NullReference) else Ok(StartCall(a.inner.value, target))
  }

  /** `Reverse()`: a new action of the same duration around whatever the
      inner action's `Reverse` returns; the rate goes back to 1. */
  function Reverse(a: AccelDeccelAmplitude, reverse: ActionRef -> Option<ActionRef>): (r: Result<AccelDeccelAmplitude>)
    ensures r.Err? <==> a.inner.None?
    ensures r.Err? ==> r.error == NullReference
    ensures r.Ok? ==> r.value.duration == a.duration && r.value.rate == 1.0
    ensures r.Ok? ==> r.value.inner == AsInterval(reverse(a.inner.value))
  {
    if a.inner.None? then Err(NullReference) else Ok(InitWithAction(reverse(a.inner.value), a.duration))
  }

  /** The `Rate` setter; the getter is the field. */
  function SetRate(a: AccelDeccelAmplitude, rate: real): (r: AccelDeccelAmplitude)
    ensures r.rate == rate && r.duration == a.duration && r.inner == a.inner
  {
    a.(rate := rate)
  }

  /** Reversing forgets a rate that was set, and reversing twice, with an
      inner `Reverse` that gives back the action itself, yields the action
      with rate 1. */
  lemma {:induction false} ReverseForgetsRate(a: AccelDeccelAmplitude, rate: real, reverse: ActionRef -> Option<ActionRef>)
    requires a.inner.Some? && a.inner.value.kind != Instant
    requires forall x :: reverse(x) == Some(x)
    ensures Reverse(SetRate(a, rate), reverse) == Ok(SetRate(a, 1.0))
    ensures Reverse(Reverse(a, reverse).value, reverse) == Ok(SetRate(a, 1.0))
  {
  }

  /** Around an inner action that keeps the base class's `Reverse`, which
      logs and returns null, the reversed action has no inner action, and
      every later `Update` or `StartWithTarget` on it throws. */
  lemma {:induction false} ReverseOfBaseDefault(a: AccelDeccelAmplitude, time: real, pow: (real, real) -> real, target: Option<Ref>)
    requires a.inner.Some?
    ensures var r := Reverse(a, BaseReverse);
      r.Ok? && r.value.inner.None? &&
      Update(r.value, time, pow) == Err(NullReference) &&
      StartWithTarget(r.value, target) == Err(NullReference)
  {
  }
}

=== FILE: actions.dfy ===
/** What the action kernels need of the actions they wrap: an inner action
    is an opaque reference with the class it was created as, and the only
    effect an action has on another is a call to it. */
module Actions {
  import opened Base
  import opened Scene

  /** The classes the casts in the action code distinguish. */
  datatype ActionKind = Instant | Interval | AccelDeccelClass

  datatype ActionRef = ActionRef(id: nat, kind: ActionKind)

  /** `action as CCActionInterval`: every kind but an instant action. */
  function AsInterval(a: Option<ActionRef>): (r: Option<ActionRef>)
    ensures r.Some? <==> a.Some? && a.value.kind != Instant
    ensures r.Some? ==> r == a
  {
    if a.Some? && a.value.kind != Instant then a else None
  }

  /** A call one action makes on another. */
  datatype Call =
    | UpdateCall(action: ActionRef, time: real)
    | StartCall(action: ActionRef, target: Option<Ref>)
    | SetAmplitudeRateCall(action: ActionRef, rate: real)

  /** `CCFiniteTimeAction.Reverse`, the default every action class starts
      with: it logs a message (not modelled) and returns null. */
  function BaseReverse(a: ActionRef): (r: Option<ActionRef>)
    ensures r.None?
  {
    None
  }
}

=== FILE: animate.dfy ===
/** Frame animation: `CCAnimate`
    (liwq/cocos2d-xna/actions/action_intervals/CCAnimate.cs). The action
    owns an animation (a list of sprite frames, any of which may be null,
    and a delay per frame) and, on each `Update`, shows on its sprite the
    frame for the current normalised time.

    Sprite frames are opaque; the action's target sprite is passed to
    each call, and only the frame it displays is modelled. Whether a
    frame is already displayed and how a frame is copied are unseen
    helpers of the sprite and frame classes, given as parameters. */
module Animate {
  import opened Base

  datatype Frame = Frame(id: nat)

  datatype Animation = Animation(frames: seq<Option<Frame>>, delay: real)

  /** The state of a `CCAnimate`: its duration, its animation, whether it
      restores the original frame on `Stop`, and the frame it saved. */
  datatype Animate = Animate(duration: real, animation: Animation, restore: bool, orig: Option<Frame>)

  /** The part of a target sprite the action reads and writes. */
  datatype FrameSprite = FrameSprite(displayed: Option<Frame>)

  /** `initWithAnimation(animation, restore)`: one delay per frame. */
  function InitWithAnimation(anim: Animation, restore: bool): (a: Animate)
    ensures a.duration == |anim.frames| as real * anim.delay
    ensures a.animation == anim && a.restore == restore && a.orig == None
  {
    Animate(|anim.frames| as real * anim.delay, anim, restore, None)
  }

  /** `actionWithAnimation(animation)`: restoring is on. */
  function ActionWithAnimation(anim: Animation): (a: Animate)
    ensures a.restore && a.animation == anim && a.orig == None
    ensures a.duration == |anim.frames| as real * anim.delay
  {
    InitWithAnimation(anim, true)
  }

  /** `initWithDuration(duration, animation, restore)`: the duration is
      kept whatever the number of frames. */
  function InitWithDuration(duration: real, anim: Animation, restore: bool): (a: Animate)
    ensures a.duration == duration && a.animation == anim && a.restore == restore && a.orig == None
  {
    Animate(duration, anim, restore, None)
  }

  /** The two initialisers agree exactly when the explicit duration is one
      delay per frame. */
  lemma {:induction false} InitsAgree(anim: Animation, restore: bool, duration: real)
    ensures InitWithDuration(duration, anim, restore) == InitWithAnimation(anim, restore)
      <==> duration == |anim.frames| as real * anim.delay
  {
  }

  // ---------------------------------------------------------------------
  // Update

  /** The frame index `Update` picks: the product of the time and the
      frame count cast to `int`, pulled back to the last frame when it
      reaches the count. A product too large for 32 bits casts to
      `int.MinValue`, and the negative index makes `Update` throw. */
  function FrameIndex(time: real, n: nat): (idx: int)
    ensures idx <= n - 1
    ensures idx < n - 1 ==> idx == CastToInt(time * n as real)
  {
    ProductFrame(time * n as real, n)
  }

  /** The index for a given product `x` of time and frame count. */
  function ProductFrame(x: real, n: nat): (idx: int)
    ensures idx <= n - 1
    ensures idx < n - 1 ==> idx == CastToInt(x)
  {
    var idx := CastToInt(x);
    if idx >= n then n - 1 else idx
  }

  /** For a non-empty animation and a time in [0, 1] the index is a valid
      one; time 1 picks the last frame, and before that the index is the
      frame whose slot `[idx/n, (idx+1)/n)` contains the time. */
  lemma {:induction false} FrameIndexInRange(time: real, n: nat)
    requires 1 <= n <= Int32Max && 0.0 <= time <= 1.0
    ensures 0 <= FrameIndex(time, n) <= n - 1
    ensures time == 1.0 ==> FrameIndex(time, n) == n - 1
    ensures time < 1.0 ==>
      FrameIndex(time, n) as real <= time * n as real < FrameIndex(time, n) as real + 1.0
  {
    var m := n as real;
    var x := time * m;
    ScaleAtMost(time, m, x);
    if time < 1.0 {
      StrictScale(time, m, x);
    }
    ProductFrameInRange(x, n);
    assert FrameIndex(time, n) == ProductFrame(x, n);
  }

  /** `ProductFrame` for a product `x` in `[0, n]`: a valid index, the
      last one when `x` is `n`, and below that the truncation of `x`. */
  lemma {:induction false} ProductFrameInRange(x: real, n: nat)
    requires 1 <= n <= Int32Max && 0.0 <= x <= n as real
    ensures 0 <= ProductFrame(x, n) <= n - 1
    ensures x == n as real ==> ProductFrame(x, n) == n - 1
    ensures x < n as real ==> ProductFrame(x, n) as real <= x < ProductFrame(x, n) as real + 1.0
  {
    CastToIntRange(x);
  }

  /** `ScaleAtMost` and `StrictScale`: a factor in [0, 1] does not
      enlarge a non-negative value, and one below 1 shrinks a positive
      one. */
  lemma {:induction false} ScaleAtMost(t: real, m: real, x: real)
    requires 0.0 <= t <= 1.0 && m >= 0.0 && x == t * m
    ensures 0.0 <= x <= m
  {
  }

  lemma {:induction false} StrictScale(t: real, m: real, x: real)
    requires t < 1.0 && m > 0.0 && x == t * m
    ensures x < m
  {
    assert m - x == (1.0 - t) * m;
  }

  /** A time whose product with the frame count does not fit in 32 bits
      casts to `int.MinValue`, and the update throws on the negative
      index. */
  lemma {:induction false} UpdateOverflowThrows(a: Animate, time: real, target: Option<FrameSprite>,
                                                isDisplayed: (FrameSprite, Option<Frame>) -> bool)
    requires time * |a.animation.frames| as real >= 2147483648.0
    ensures FrameIndex(time, |a.animation.frames|) == Int32Min
    ensures Update(a, time, target, isDisplayed) == Err(ArgumentOutOfRange)
  {
    CastToIntRange(time * |a.animation.frames| as real);
  }

  /** `Update(time)`: the frame at `FrameIndex` is looked up first (so an
      index outside the list throws before anything else, as it does for
      an empty animation), then the target is asked whether it already
      shows it, and only if not is it set. */
  function Update(a: Animate, time: real, target: Option<FrameSprite>,
                  isDisplayed: (FrameSprite, Option<Frame>) -> bool): (r: Result<FrameSprite>)
    ensures var fs := a.animation.frames; var idx := FrameIndex(time, |fs|);
      (r == Err(ArgumentOutOfRange) <==> idx < 0) &&
      (r == Err(NullReference) <==> 0 <= idx && target.None?) &&
      (r.Ok? ==>
         0 <= idx < |fs| && target.Some? &&
         r.value == (if isDisplayed(target.value, fs[idx]) then target.value
                     else target.value.(displayed := fs[idx])))
  {
    var fs := a.animation.frames;
    var idx := FrameIndex(time, |fs|);
    if idx < 0 then Err(ArgumentOutOfRange)
    else if target.None? then Err(NullReference)
    else if isDisplayed(target.value, fs[idx]) then Ok(target.value)
    else Ok(target.value.(displayed := fs[idx]))
  }

  /** With `isDisplayed` the plain comparison of frames, an update in
      [0, 1] on a non-empty animation succeeds and leaves the target
      showing exactly the frame of that time; updating again at the same
      time changes nothing. */
  lemma {:induction false} UpdateShowsFrame(a: Animate, time: real, s: FrameSprite,
                                            isDisplayed: (FrameSprite, Option<Frame>) -> bool)
    requires 1 <= |a.animation.frames| <= Int32Max && 0.0 <= time <= 1.0
    requires forall t, f :: isDisplayed(t, f) <==> t.displayed == f
    ensures var r := Update(a, time, Some(s), isDisplayed);
      r.Ok? &&
      r.value.displayed == a.animation.frames[FrameIndex(time, |a.animation.frames|)] &&
      Update(a, time, Some(r.value), isDisplayed) == r
  {
    FrameIndexInRange(time, |a.animation.frames|);
  }

  // ---------------------------------------------------------------------
  // Start and stop

  /** `StartWithTarget(target)`: with restoring on, the frame the target
      shows is saved, which throws for a null target. This action keeps no
      target of its own in the model; the target is passed to each call. */
  function StartWithTarget(a: Animate, target: Option<FrameSprite>): (r: Result<Animate>)
    ensures r.Err? <==> a.restore && target.None?
    ensures r.Err? ==> r.error == NullReference
    ensures r.Ok? && a.restore ==> r.value == a.(orig := target.value.displayed)
    ensures r.Ok? && !a.restore ==> r.value == a
  {
    if !a.restore then Ok(a)
    else if target.None? then Err(NullReference)
    else Ok(a.(orig := target.value.displayed))
  }

  /** `Stop()`: with restoring on, a non-null target gets the saved frame
      back; otherwise the target is left as it is. */
  function Stop(a: Animate, target: Option<FrameSprite>): (r: Option<FrameSprite>)
    ensures r.Some? <==> target.Some?
    ensures r.Some? && a.restore ==> r.value.displayed == a.orig
    ensures !a.restore ==> r == target
  {
    if a.restore && target.Some? then Some(target.value.(displayed := a.orig)) else target
  }

  /** With restoring on, starting on a sprite and stopping after any
      number of updates gives the sprite back its original frame; with it
      off, stopping leaves whatever the updates showed. */
  lemma {:induction false} StartStopRestores(a: Animate, s: FrameSprite, later: FrameSprite)
    ensures var started := StartWithTarget(a, Some(s));
      started.Ok? &&
      Stop(started.value, Some(later)) == Some(if a.restore then s else later)
  {
  }

  // ---------------------------------------------------------------------
  // Reverse and copy

  /** The frame list `Reverse` builds: copies of the frames from the last
      one backwards, stopping at the first null it meets. */
  function ReverseFrames(fs: seq<Option<Frame>>, copy: Frame -> Frame): (r: seq<Option<Frame>>)
    ensures |r| <= |fs|
    ensures |fs| > 0 && fs[|fs| - 1].Some? ==> |r| > 0
    decreases |fs|
  {
    if fs == [] then []
    else
      match fs[|fs| - 1]
      case None => []
      case Some(f) => [Some(copy(f))] + ReverseFrames(fs[..|fs| - 1], copy)
  }

  /** Entry `i` of `r` is the copy of the non-null frame `i` places from
      the end of `fs`. */
  predicate CopiedFrom(fs: seq<Option<Frame>>, r: seq<Option<Frame>>, copy: Frame -> Frame, i: int)
    requires 0 <= i < |r| <= |fs|
  {
    fs[|fs| - 1 - i].Some? && r[i] == Some(copy(fs[|fs| - 1 - i].value))
  }

  /** Every entry of the reversed list is the copy of its mirror frame,
      and the scan stopped early only at a null frame. */
  lemma {:induction false} ReverseFramesSpec(fs: seq<Option<Frame>>, copy: Frame -> Frame)
    ensures var r := ReverseFrames(fs, copy);
      (forall i :: 0 <= i < |r| ==> CopiedFrom(fs, r, copy, i)) &&
      (|r| < |fs| ==> fs[|fs| - 1 - |r|].None?)
    decreases |fs|
  {
    if fs != [] && fs[|fs| - 1].Some? {
      var init := fs[..|fs| - 1];
      var rest := ReverseFrames(init, copy);
      var r := ReverseFrames(fs, copy);
      ReverseFramesSpec(init, copy);
      assert r == [Some(copy(fs[|fs| - 1].value))] + rest;
      forall i | 0 <= i < |r|
        ensures CopiedFrom(fs, r, copy, i)
      {
        if i > 0 {
          assert CopiedFrom(init, rest, copy, i - 1);
          assert r[i] == rest[i - 1];
          assert init[|init| - 1 - (i - 1)] == fs[|fs| - 1 - i];
        }
      }
      if |r| < |fs| {
        assert init[|init| - 1 - |rest|] == fs[|fs| - 1 - |r|];
      }
    }
  }

  /** `Reverse()`: an animate over the reversed frames with the same delay,
      duration and restore flag, built by `actionWithDuration`. */
  function Reverse(a: Animate, copy: Frame -> Frame): (r: Animate)
    ensures r.duration == a.duration && r.restore == a.restore && r.orig == None
    ensures r.animation.delay == a.animation.delay
    ensures r.animation.frames == ReverseFrames(a.animation.frames, copy)
  {
    InitWithDuration(a.duration, Animation(ReverseFrames(a.animation.frames, copy), a.animation.delay), a.restore)
  }

  /** With frames copied as themselves, reversing a list without null
      frames twice gives it back. */
  lemma {:induction false} ReverseFramesInvolution(fs: seq<Option<Frame>>, copy: Frame -> Frame)
    requires forall i :: 0 <= i < |fs| ==> fs[i].Some?
    ensures (forall f :: copy(f) == f) ==> ReverseFrames(ReverseFrames(fs, copy), copy) == fs
  {
    var r := ReverseFrames(fs, copy);
    ReverseFramesSpec(fs, copy);
    ReverseFramesFull(fs, copy);
    if forall f :: copy(f) == f {
      var rr := ReverseFrames(r, copy);
      ReverseFramesSpec(r, copy);
      forall i | 0 <= i < |r|
        ensures r[i].Some?
      {
        assert CopiedFrom(fs, r, copy, i);
      }
      ReverseFramesFull(r, copy);
      forall i | 0 <= i < |fs|
        ensures rr[i] == fs[i]
      {
        assert CopiedFrom(r, rr, copy, i);
        assert CopiedFrom(fs, r, copy, |r| - 1 - i);
      }
    }
  }

  /** Without null frames the scan runs to the first frame. */
  lemma {:induction false} ReverseFramesFull(fs: seq<Option<Frame>>, copy: Frame -> Frame)
    requires forall i :: 0 <= i < |fs| ==> fs[i].Some?
    ensures |ReverseFrames(fs, copy)| == |fs|
    decreases |fs|
  {
    if fs != [] {
      ReverseFramesFull(fs[..|fs| - 1], copy);
    }
  }

  /** `Reverse` on an animate whose frames are all non-null, twice over
      with identity copies, gives the same animate back but for the saved
      frame. */
  lemma {:induction false} ReverseTwice(a: Animate, copy: Frame -> Frame)
    requires forall i :: 0 <= i < |a.animation.frames| ==> a.animation.frames[i].Some?
    requires forall f :: copy(f) == f
    ensures Reverse(Reverse(a, copy), copy) == a.(orig := None)
  {
    ReverseFramesInvolution(a.animation.frames, copy);
  }

  /** `copyWithZone` without a zone: a fresh animate with the same
      duration, animation and restore flag. */
  function Copy(a: Animate): (r: Animate)
    ensures r.duration == a.duration && r.animation == a.animation && r.restore == a.restore
    ensures r.orig == None
  {
    InitWithDuration(a.duration, a.animation, a.restore)
  }

  /** A copy updates its target exactly as the original does. */
  lemma {:induction false} CopyUpdatesAlike(a: Animate, time: real, target: Option<FrameSprite>,
                                            isDisplayed: (FrameSprite, Option<Frame>) -> bool)
    ensures Update(Copy(a), time, target, isDisplayed) == Update(a, time, target, isDisplayed)
    ensures Reverse(Copy(a), (f: Frame) => f) == Reverse(a, (f: Frame) => f)
  {
  }
}

=== FILE: app.dfy ===
/** The application object of liwq/source/Application.cs: a scene stack
    with a running scene, an animation-stopped flag gating drawing, the
    screen scale factor, and the back-buffer size chosen for an
    orientation. The orientation setter of
    liwq/cocos2d-xna/_liwq/Application.cs is the same code and is modelled
    by the same function.

    The graphics device is not part of this model: its viewport size is
    a parameter, and the back-buffer settings are returned instead of
    applied. */
module Application {
  import opened Base
  import opened Geometry
  import opened Scene
  import Drawing

  /** The scene-manager and drawing state. Scenes are nodes of the arena,
      and a pushed scene may be null. */
  datatype App = App(stack: seq<Option<Ref>>, running: Option<Ref>, stopped: bool, scaleFactor: real)

  /** A new application: no scenes, animation running, scale factor 1. */
  function NewApp(): (app: App)
    ensures app.stack == [] && app.running == None && !app.stopped && app.scaleFactor == 1.0
  {
    App([], None, false, 1.0)
  }

  // ---------------------------------------------------------------------
  // Scene stack

  /** `PushScene(scene)`: the scene goes on top and becomes the running
      scene. */
  function PushScene(app: App, scene: Option<Ref>): (r: App)
    ensures r.stack == app.stack + [scene] && r.running == scene
    ensures r.stopped == app.stopped && r.scaleFactor == app.scaleFactor
  {
    app.(stack := app.stack + [scene], running := scene)
  }

  /** `PopScene()`: the top scene is dropped if there is one. The running
      scene is not changed, so it may stay a scene that is no longer on
      the stack. */
  function PopScene(app: App): (r: App)
    ensures |app.stack| > 0 ==> r.stack == app.stack[..|app.stack| - 1]
    ensures |app.stack| == 0 ==> r == app
    ensures r.running == app.running && r.stopped == app.stopped && r.scaleFactor == app.scaleFactor
  {
    if |app.stack| > 0 then app.(stack := app.stack[..|app.stack| - 1]) else app
  }

  /** `RunWithScene(scene)`: replaces the top scene, or pushes onto an
      empty stack; either way the scene becomes the running one. */
  function RunWithScene(app: App, scene: Option<Ref>): (r: App)
    ensures |r.stack| == (if |app.stack| > 0 then |app.stack| else 1)
    ensures r.stack[|r.stack| - 1] == scene && r.running == scene
    ensures |app.stack| > 0 ==> r.stack[..|r.stack| - 1] == app.stack[..|app.stack| - 1]
    ensures r.stopped == app.stopped && r.scaleFactor == app.scaleFactor
  {
    if |app.stack| > 0 then PushScene(PopScene(app), scene) else PushScene(app, scene)
  }

  /** Pushing then popping restores the stack, but the running scene stays
      the one pushed: after pushing `s1` and `s2` and popping, `s1` is on
      top while `s2` is still the running scene. */
  lemma {:induction false} PopLeavesRunningScene(app: App, s1: Ref, s2: Ref)
    requires s1 != s2
    ensures PopScene(PushScene(app, Some(s1))).stack == app.stack
    ensures PopScene(PushScene(app, Some(s1))).running == Some(s1)
    ensures var r := PopScene(PushScene(PushScene(app, Some(s1)), Some(s2)));
      r.stack[|r.stack| - 1] == Some(s1) && r.running == Some(s2)
  {
    assert (app.stack + [Some(s1)])[..|app.stack|] == app.stack;
    var twice := app.stack + [Some(s1)] + [Some(s2)];
    assert twice[..|twice| - 1] == app.stack + [Some(s1)];
  }

  // ---------------------------------------------------------------------
  // Update and draw

  /** `Update(gameTime)`: the scene whose `Update` is called, if any. */
  function Update(app: App): (r: Option<Ref>)
    ensures r.Some? <==> app.running.Some?
    ensures r.Some? ==> r == app.running
  {
    if app.running.Some? then app.running else None
  }

  /** `StopAnimation()` and `StartAnimation()`. */
  function StopAnimation(app: App): (r: App)
    ensures r.stopped && r.stack == app.stack && r.running == app.running && r.scaleFactor == app.scaleFactor
  {
    app.(stopped := true)
  }

  function StartAnimation(app: App): (r: App)
    ensures !r.stopped && r.stack == app.stack && r.running == app.running && r.scaleFactor == app.scaleFactor
  {
    app.(stopped := false)
  }

  /** `Draw(gameTime)`: the running scene's draw calls while the animation
      is not stopped, nothing otherwise. */
  function Draw(app: App, a: Arena, ghost rank: map<Ref, nat>): (r: seq<Drawing.Event>)
    requires Ranked(a, rank)
    requires app.running.Some? ==> app.running.value in a
    ensures app.stopped || app.running.None? ==> r == []
    ensures !app.stopped && app.running.Some? ==> r == Drawing.DrawAsWritten(a, app.running.value, rank)
  {
    if !app.stopped && app.running.Some? then Drawing.DrawAsWritten(a, app.running.value, rank) else []
  }

  /** Stopping the animation silences drawing and starting it again brings
      back the scene's draw calls, which are exactly those of the textured
      nodes the scene reaches. */
  lemma {:induction false} StopStartDraw(app: App, a: Arena, rank: map<Ref, nat>, s: Ref)
    requires Ranked(a, rank) && s in a && app.running == Some(s)
    ensures Draw(StopAnimation(app), a, rank) == []
    ensures forall e :: e in Draw(StartAnimation(StopAnimation(app)), a, rank) <==>
      e.node in Drawing.Visited(a, s, rank) && Drawing.Issues(a, e)
  {
    Drawing.DrawAsWrittenEvents(a, s, rank);
  }

  // ---------------------------------------------------------------------
  // Sizes

  /** `DisplaySize`: the design size (the viewport) scaled by the screen
      scale factor. */
  function DisplaySize(app: App, design: Size): (r: Size)
    ensures r.width == design.width * app.scaleFactor && r.height == design.height * app.scaleFactor
  {
    Size(design.width * app.scaleFactor, design.height * app.scaleFactor)
  }

  /** A new application displays at the design size. */
  lemma {:induction false} NewAppDisplaySize(design: Size)
    ensures DisplaySize(NewApp(), design) == design
  {
  }

  // ---------------------------------------------------------------------
  // Orientation

  /** XNA's display orientations; a combination of flags falls to the
      setter's default case like `Portrait` and `Default` do, and is
      modelled by those. */
  datatype Orientation = Default | LandscapeLeft | LandscapeRight | Portrait

  /** The back-buffer settings the orientation setter applies. */
  datatype BackBuffer = BackBuffer(width: int, height: int, supported: Orientation)

  /** The `Orientation` setter, for a viewport of `w` by `h` pixels: the
      back buffer keeps the two sides; the landscape orientations get the
      larger side as width, every other orientation the larger side as
      height and portrait support. */
  function SetOrientation(w: int, h: int, o: Orientation): (r: BackBuffer)
    ensures multiset{r.width, r.height} == multiset{w, h}
    ensures o == LandscapeLeft || o == LandscapeRight ==> r.width >= r.height && r.supported == o
    ensures o != LandscapeLeft && o != LandscapeRight ==> r.width <= r.height && r.supported == Portrait
  {
    var (short, long) := if w > h then (h, w) else (w, h);
    match o
    case LandscapeLeft => BackBuffer(long, short, LandscapeLeft)
    case LandscapeRight => BackBuffer(long, short, LandscapeRight)
    case _ => BackBuffer(short, long, Portrait)
  }

  /** The choice depends on the viewport only through its two sides, not
      on which way round it currently is; two landscape settings differ
      only in the orientation they support. */
  lemma {:induction false} OrientationIgnoresRotation(w: int, h: int, o: Orientation)
    ensures SetOrientation(w, h, o) == SetOrientation(h, w, o)
    ensures SetOrientation(w, h, LandscapeLeft) == SetOrientation(w, h, LandscapeRight).(supported := LandscapeLeft)
    ensures SetOrientation(w, h, Default) == SetOrientation(w, h, Portrait)
  {
  }
}

=== FILE: attributes.dfy ===
/** The XML attribute readers of liwq/source/Utility.cs. An element's
    attributes are a map from name to value. `int.Parse` is not part of
    this model: it is a parameter, returning `Err(Format)` for text it
    rejects. */
module Attributes {
  import opened Base

  type Element = map<string, string>

  /** `SafeReadString(name)`: the value of the attribute, or the empty
      string when the element has none of that name. */
  function SafeReadString(e: Element, name: string): (r: string)
    ensures name !in e ==> r == ""
    ensures name in e ==> r == e[name]
  {
    if name in e then e[name] else ""
  }

  /** `SafeReadInt(name)`: 0 when the attribute is missing, otherwise
      whatever `int.Parse` makes of its value, failure included. */
  function SafeReadInt(e: Element, name: string, parse: string -> Result<int>): (r: Result<int>)
    ensures name !in e ==> r == Ok(0)
    ensures name in e ==> r == parse(e[name])
  {
    if name in e then parse(e[name]) else Ok(0)
  }

  /** A missing attribute and a present empty one read the same as a
      string; as an integer the missing one is 0 while the present one is
      parsed. A non-empty string read always comes from the element. */
  lemma {:induction false} ReadersAgree(e: Element, name: string, parse: string -> Result<int>)
    ensures SafeReadString(e, name) != "" ==> name in e && e[name] == SafeReadString(e, name)
    ensures name in e ==> SafeReadInt(e, name, parse) == parse(SafeReadString(e, name))
    ensures SafeReadString(e[name := ""], name) == SafeReadString(e - {name}, name)
    ensures SafeReadInt(e - {name}, name, parse) == Ok(0)
    ensures SafeReadInt(e[name := ""], name, parse) == parse("")
  {
  }
}

=== FILE: base.dfy ===
/** Shared wrappers: a null-able reference is an `Option`, an operation
    that can throw a .NET exception returns a `Result`. */
module Base {

  /** A reference that may be null. */
  datatype Option<+T> = None | Some(value: T)

  /** The .NET exceptions the modelled code can raise. */
  datatype Error =
    | NullReference       // member access through a null reference
    | DuplicateKey        // Dictionary.Add with a key already present
    | KeyNotFound         // Dictionary indexer with an absent key
    | IndexOutOfRange     // list indexer outside [0, Count)
    | CollectionModified  // List enumerator used after the list changed
    | ArgumentOutOfRange  // explicit `throw new ArgumentOutOfRangeException()`
    | Argument            // explicit `throw new ArgumentException()`
    | InvalidCast         // a reference cast to a class the object is not
    | Format              // int.Parse on a malformed or out-of-range string
    | AlreadyAdded        // Node.AddChild on a node that already has a parent

  datatype Result<+T> = Ok(value: T) | Err(error: Error)

  /** The end of a call that may throw after it has already changed some
      state: the state reached, and either the value returned or the
      exception thrown. A `void` call returns `()`. */
  datatype Outcome<+S, +T> = Returned(state: S, value: T) | Threw(state: S, error: Error)

  function Min(a: real, b: real): real { if a <= b then a else b }
  function Max(a: real, b: real): real { if a <= b then b else a }
  function Abs(a: real): real { if a < 0.0 then -a else a }

  /** C#'s `(int)` cast of a float: truncation toward zero. */
  function Trunc(x: real): (r: int)
    ensures x >= 0.0 ==> r as real <= x < r as real + 1.0
    ensures x < 0.0 ==> r as real - 1.0 < x <= r as real
  {
    if x >= 0.0 then x.Floor else -((-x).Floor)
  }

  const Int32Min: int := -0x8000_0000
  const Int32Max: int := 0x7FFF_FFFF

  /** C#'s unchecked `(int)` cast of a float, as the .NET Framework runs it
      on x86 and x64: the truncated value when it fits in 32 bits, and
      otherwise `int.MinValue`, the processor's "integer indefinite"
      result. */
  function CastToInt(x: real): (r: int)
    ensures Int32Min <= r <= Int32Max
  {
    var t := Trunc(x);
    if Int32Min <= t <= Int32Max then t else Int32Min
  }

  /** The cast truncates exactly the floats strictly between
      -2^31 - 1 and 2^31; every float from 2^31 up casts to a negative
      number. */
  lemma {:induction false} CastToIntRange(x: real)
    ensures -2147483649.0 < x < 2147483648.0 <==> CastToInt(x) == Trunc(x)
    ensures x >= 2147483648.0 ==> CastToInt(x) == Int32Min
    ensures 0.0 <= x < 2147483648.0 ==> CastToInt(x) as real <= x < CastToInt(x) as real + 1.0
  {
    var t := Trunc(x);
    if x >= 0.0 {
      assert t as real <= x < t as real + 1.0;
    } else {
      assert t as real - 1.0 < x <= t as real;
    }
  }
}

=== FILE: dictionaries.dfy ===
/** The parts of .NET's `Dictionary<string, V>` the caches use: `Add`,
    `Remove`, `ContainsKey`, `TryGetValue` and the indexer, over a Dafny
    map. Values may be null, so the caches below store `Option`s. */
module Dictionaries {
  import opened Base

  /** `dict.Add(key, value)`: fails on a key that is already present. */
  function Add<V>(m: map<string, V>, key: string, value: V): (r: Result<map<string, V>>)
    ensures key in m <==> r.Err?
    ensures r.Err? ==> r.error == DuplicateKey
    ensures r.Ok? ==> key in r.value && r.value[key] == value
    ensures r.Ok? ==> forall k :: k != key ==> (k in r.value <==> k in m)
    ensures r.Ok? ==> forall k :: k in m ==> r.value[k] == m[k]
  {
    if key in m then Err(DuplicateKey) else Ok(m[key := value])
  }

  /** `dict.Remove(key)`: the map without the key, and whether it was
      there. */
  function Remove<V>(m: map<string, V>, key: string): (r: (map<string, V>, bool))
    ensures r.1 <==> key in m
    ensures key !in r.0
    ensures forall k :: k != key ==> (k in r.0 <==> k in m)
    ensures forall k :: k in r.0 ==> r.0[k] == m[k]
  {
    (m - {key}, key in m)
  }

  /** The indexer `dict[key]`: the stored value, or `KeyNotFound`. */
  function Get<V>(m: map<string, V>, key: string): (r: Result<V>)
    ensures r.Ok? <==> key in m
    ensures r.Ok? ==> r.value == m[key]
    ensures r.Err? ==> r.error == KeyNotFound
  {
    if key in m then Ok(m[key]) else Err(KeyNotFound)
  }

  /** Adding under a fresh key and then removing it gives back the
      original dictionary; lookup after a successful add finds the value. */
  lemma {:induction false} AddRemoveRoundTrip<V>(m: map<string, V>, key: string, value: V)
    requires key !in m
    ensures Add(m, key, value).Ok?
    ensures Get(Add(m, key, value).value, key) == Ok(value)
    ensures Remove(Add(m, key, value).value, key) == (m, true)
  {
    assert Add(m, key, value).value - {key} == m;
  }
}

=== FILE: draw.dfy ===
/** Drawing a scene graph: `Node.Draw` and its override `Sprite.Draw`
    (liwq/source/Node.cs, liwq/source/Sprite.cs). A draw produces the
    sequence of `SpriteBatch.Draw` calls it issues, each tagged with the
    node that issued it; the graphics device itself is not modelled.

    As written, a sprite calls the node part first (which visits the
    children only when the sprite is visible) and then draws its own
    texture whether or not it is visible. `Draw` below is the corrected
    traversal, in which an invisible sprite draws nothing. */
module Drawing {
  import opened Base
  import opened Geometry
  import opened Textures
  import opened Sprites
  import opened Scene

  /** The arguments of one `SpriteBatch.Draw` call. `rotation` is in
      degrees; the source converts it to radians at the call. */
  datatype DrawCall = DrawCall(
    texture: Texture,
    position: Point,
    source: Rect,
    rotation: real,
    origin: Point,
    scale: Point,
    flipX: bool,
    flipY: bool,
    layer: int)

  datatype Event = Event(node: Ref, call: DrawCall)

  /** The call a sprite issues for its own texture; nothing for a plain
      node or a sprite without a texture. The trimmed image is placed so
      that the untrimmed one would start at the node's position, and a
      sprite the packer rotated is turned back by 90 degrees. */
  function SpriteCall(n: NodeRec): (r: Option<DrawCall>)
    ensures r.Some? <==> n.look.sprite.Some? && n.look.sprite.value.texture.Some?
    ensures r.Some? ==>
      var s := n.look.sprite.value;
      r.value.texture == s.texture.value && r.value.source == s.sourceRect &&
      r.value.position.x + s.cropPosition.x == n.look.positionX &&
      r.value.position.y + s.cropPosition.y == n.look.positionY &&
      r.value.rotation == (if s.isRotate then n.look.rotation - 90.0 else n.look.rotation) &&
      r.value.origin == n.look.anchorPoint &&
      r.value.scale == Point(n.look.scaleX, n.look.scaleY) &&
      r.value.flipX == s.flipX && r.value.flipY == s.flipY &&
      r.value.layer == n.zOrder
  {
    match n.look.sprite
    case None => None
    case Some(s) =>
      if s.texture.None? then None
      else
        var at := Point(n.look.positionX - s.cropPosition.x, n.look.positionY - s.cropPosition.y);
        var turn := n.look.rotation + (if s.isRotate then -90.0 else 0.0);
        Some(DrawCall(s.texture.value, at, s.sourceRect, turn, n.look.anchorPoint,
                      Point(n.look.scaleX, n.look.scaleY), s.flipX, s.flipY, n.zOrder))
  }

  /** The event `n` contributes itself, as a list of at most one. */
  function Own(a: Arena, n: Ref): seq<Event>
    requires n in a
  {
    var c := SpriteCall(a[n]);
    if c.Some? then [Event(n, c.value)] else []
  }

  /** `e` is the call its node issues for its own texture. */
  predicate Issues(a: Arena, e: Event)
  {
    e.node in a && SpriteCall(a[e.node]) == Some(e.call)
  }

  // ---------------------------------------------------------------------
  // The traversal as written

  /** `Draw` as written: the children in list order when the node is
      visible, then the node's own texture regardless of visibility. */
  function DrawAsWritten(a: Arena, n: Ref, ghost rank: map<Ref, nat>): seq<Event>
    requires n in a && Ranked(a, rank)
    decreases rank[n], 1, 0
  {
    var below := if a[n].visible then DrawAllAsWritten(a, Kids(a[n]), rank, rank[n]) else [];
    below + Own(a, n)
  }

  /** The `foreach` over the children. */
  function DrawAllAsWritten(a: Arena, cs: seq<Ref>, ghost rank: map<Ref, nat>, ghost bound: nat): seq<Event>
    requires Ranked(a, rank)
    requires forall c :: c in cs ==> c in a && rank[c] < bound
    decreases bound, 0, |cs|
  {
    if cs == [] then [] else DrawAsWritten(a, cs[0], rank) + DrawAllAsWritten(a, cs[1..], rank, bound)
  }

  // ---------------------------------------------------------------------
  // The corrected traversal

  /** `Draw` with the visibility test covering the sprite's own texture as
      well as its children. */
  function Draw(a: Arena, n: Ref, ghost rank: map<Ref, nat>): seq<Event>
    requires n in a && Ranked(a, rank)
    decreases rank[n], 1, 0
  {
    if !a[n].visible then [] else DrawAll(a, Kids(a[n]), rank, rank[n]) + Own(a, n)
  }

  function DrawAll(a: Arena, cs: seq<Ref>, ghost rank: map<Ref, nat>, ghost bound: nat): seq<Event>
    requires Ranked(a, rank)
    requires forall c :: c in cs ==> c in a && rank[c] < bound
    decreases bound, 0, |cs|
  {
    if cs == [] then [] else Draw(a, cs[0], rank) + DrawAll(a, cs[1..], rank, bound)
  }

  // ---------------------------------------------------------------------
  // Which nodes a draw reaches

  /** The nodes a draw of `n` visits: `n` itself and, when `n` is visible,
      everything visited from its children. */
  ghost function Visited(a: Arena, n: Ref, rank: map<Ref, nat>): set<Ref>
    requires n in a && Ranked(a, rank)
    decreases rank[n], 1, 0
  {
    {n} + if a[n].visible then VisitedFrom(a, Kids(a[n]), rank, rank[n]) else {}
  }

  ghost function VisitedFrom(a: Arena, cs: seq<Ref>, rank: map<Ref, nat>, bound: nat): set<Ref>
    requires Ranked(a, rank)
    requires forall c :: c in cs ==> c in a && rank[c] < bound
    decreases bound, 0, |cs|
  {
    if cs == [] then {} else Visited(a, cs[0], rank) + VisitedFrom(a, cs[1..], rank, bound)
  }

  /** As written, a draw issues exactly the calls of the textured sprites
      it visits, visible or not. */
  lemma {:induction false} DrawAsWrittenEvents(a: Arena, n: Ref, rank: map<Ref, nat>)
    requires n in a && Ranked(a, rank)
    ensures forall e :: e in DrawAsWritten(a, n, rank) <==> e.node in Visited(a, n, rank) && Issues(a, e)
    decreases rank[n], 1, 0
  {
    if a[n].visible {
      DrawAllAsWrittenEvents(a, Kids(a[n]), rank, rank[n]);
    }
  }

  lemma {:induction false} DrawAllAsWrittenEvents(a: Arena, cs: seq<Ref>, rank: map<Ref, nat>, bound: nat)
    requires Ranked(a, rank)
    requires forall c :: c in cs ==> c in a && rank[c] < bound
    ensures forall e :: e in DrawAllAsWritten(a, cs, rank, bound) <==>
      e.node in VisitedFrom(a, cs, rank, bound) && Issues(a, e)
    decreases bound, 0, |cs|
  {
    if cs != [] {
      DrawAsWrittenEvents(a, cs[0], rank);
      DrawAllAsWrittenEvents(a, cs[1..], rank, bound);
    }
  }

  /** The corrected draw issues exactly the calls of the visible textured
      sprites it visits. */
  lemma {:induction false} DrawEvents(a: Arena, n: Ref, rank: map<Ref, nat>)
    requires n in a && Ranked(a, rank)
    ensures forall e :: e in Draw(a, n, rank) <==>
      e.node in Visited(a, n, rank) && Issues(a, e) && a[e.node].visible
    decreases rank[n], 1, 0
  {
    if a[n].visible {
      DrawAllEvents(a, Kids(a[n]), rank, rank[n]);
    }
  }

  lemma {:induction false} DrawAllEvents(a: Arena, cs: seq<Ref>, rank: map<Ref, nat>, bound: nat)
    requires Ranked(a, rank)
    requires forall c :: c in cs ==> c in a && rank[c] < bound
    ensures forall e :: e in DrawAll(a, cs, rank, bound) <==>
      e.node in VisitedFrom(a, cs, rank, bound) && Issues(a, e) && a[e.node].visible
    decreases bound, 0, |cs|
  {
    if cs != [] {
      DrawEvents(a, cs[0], rank);
      DrawAllEvents(a, cs[1..], rank, bound);
    }
  }

  /** A textured sprite draws itself after everything below it. */
  lemma {:induction false} OwnCallLast(a: Arena, n: Ref, rank: map<Ref, nat>)
    requires n in a && Ranked(a, rank) && SpriteCall(a[n]).Some?
    ensures var t := DrawAsWritten(a, n, rank);
      |t| > 0 && t[|t| - 1] == Event(n, SpriteCall(a[n]).value)
    ensures a[n].visible ==> var t := Draw(a, n, rank);
      |t| > 0 && t[|t| - 1] == Event(n, SpriteCall(a[n]).value)
  {
  }

  /** A hidden textured sprite with no children is still drawn as written;
      the corrected traversal draws nothing. */
  lemma {:induction false} HiddenSpriteCounterexample(t: Texture, rank: map<Ref, nat>)
    requires 0 in rank
    ensures var props := FromTexture(Some(t)).value;
      var a := map[0 := NewNode(Some(props)).(visible := false)];
      Ranked(a, rank) &&
      |DrawAsWritten(a, 0, rank)| == 1 && DrawAsWritten(a, 0, rank)[0].node == 0 &&
      Draw(a, 0, rank) == []
  {
    var props := FromTexture(Some(t)).value;
    var a := map[0 := NewNode(Some(props)).(visible := false)];
    assert Kids(a[0]) == [];
    assert DrawAllAsWritten(a, [], rank, rank[0]) == [];
  }
}

=== FILE: ease.dfy ===
/** Eased actions: `CCEaseBackInOut`
    (liwq/cocos2d-xna/actions/action_ease/CCEaseBackInOut.cs) and
    `CCEaseBounceIn` (liwq/cocos2d-xna/actions/action_ease/CCEaseBounceIn.cs).
    An ease action remaps the normalised time and passes it to the action
    it wraps; its `Update` has no other effect. The wrapped action is
    null-able, and calling through a null one throws. */
module Ease {
  import opened Base
  import opened Actions

  /** The overshoot of back-in-out, `1.70158 * 1.525` (single-precision
      rounding is not modelled). */
  const Overshoot: real := 1.70158 * 1.525

  // ---------------------------------------------------------------------
  // Back-in-out

  datatype EaseBackInOut = EaseBackInOut(inner: Option<ActionRef>)

  /** The back-in-out curve as written. The first half is the back-in
      cubic on `s = 2t`; in the second half, on `s = 2t - 2`, the factor
      `s` in front of the overshoot term is missing, so the bracket is the
      constant `2k + 1`. */
  function BackInOutAsWritten(t: real): (r: real)
    ensures t == 0.0 ==> r == 0.0
    ensures t == 1.0 ==> r == 1.0
    ensures t == 0.5 ==> r == Overshoot + 1.5
  {
    var s := t * 2.0;
    if s < 1.0 then
      (s * s * ((Overshoot + 1.0) * s - Overshoot)) / 2.0
    else
      var u := s - 2.0;
      (u * u * ((Overshoot + 1.0) + Overshoot)) / 2.0 + 1.0
  }

  /** The back-in-out curve the second branch evidently intends: the
      mirror image of the first half. */
  function BackInOut(t: real): (r: real)
    ensures t == 0.0 ==> r == 0.0
    ensures t == 0.5 ==> r == 0.5
    ensures t == 1.0 ==> r == 1.0
  {
    var s := t * 2.0;
    if s < 1.0 then
      (s * s * ((Overshoot + 1.0) * s - Overshoot)) / 2.0
    else
      var u := s - 2.0;
      (u * u * ((Overshoot + 1.0) * u + Overshoot)) / 2.0 + 1.0
  }

  /** The corrected curve is point-symmetric about (0.5, 0.5): easing out
      mirrors easing in. */
  lemma {:induction false} BackInOutSymmetric(t: real)
    ensures BackInOut(t) + BackInOut(1.0 - t) == 1.0
  {
    var k := Overshoot;
    if t * 2.0 < 1.0 {
      var s := t * 2.0;
      var u := (1.0 - t) * 2.0 - 2.0;
      assert u == -s;
      CubeMirror(s, k);
    } else if t * 2.0 > 1.0 {
      var s := (1.0 - t) * 2.0;
      var u := t * 2.0 - 2.0;
      assert u == -s;
      CubeMirror(s, k);
    }
  }

  /** The two halves of the curve on `s` and `-s`. */
  lemma {:induction false} CubeMirror(s: real, k: real)
    ensures (s * s * ((k + 1.0) * s - k)) / 2.0 +
            ((-s) * (-s) * ((k + 1.0) * (-s) + k)) / 2.0 + 1.0 == 1.0
  {
    var q := s * s;
    assert (-s) * (-s) == q;
    assert q * ((k + 1.0) * (-s) + k) == -(q * ((k + 1.0) * s - k));
  }

  /** The code as written agrees with the intended curve before the
      middle and at the end, and overshoots it everywhere in between: at
      `t = 0.5` it forwards `k + 1.5` instead of `0.5`. */
  lemma {:induction false} BackInOutDiscrepancy(t: real)
    ensures t < 0.5 ==> BackInOutAsWritten(t) == BackInOut(t)
    ensures 0.5 <= t < 1.0 ==> BackInOutAsWritten(t) > BackInOut(t)
    ensures t == 1.0 ==> BackInOutAsWritten(t) == BackInOut(t)
    ensures BackInOutAsWritten(0.5) == Overshoot + 1.5 && BackInOut(0.5) == 0.5
  {
    if 0.5 <= t < 1.0 {
      SecondHalfGap(t);
    }
  }

  /** On `[0.5, 1)` both curves take their second branch, which differ
      only in the bracket. */
  lemma {:induction false} SecondHalfGap(t: real)
    requires 0.5 <= t < 1.0
    ensures BackInOutAsWritten(t) > BackInOut(t)
  {
    var u := t * 2.0 - 2.0;
    var k := Overshoot;
    assert BackInOutAsWritten(t) == (u * u * ((k + 1.0) + k)) / 2.0 + 1.0;
    assert BackInOut(t) == (u * u * ((k + 1.0) * u + k)) / 2.0 + 1.0;
    BranchGap(u, k);
  }

  /** On the second half the bracket as written exceeds the intended one,
      and the square in front of it is positive. */
  lemma {:induction false} BranchGap(u: real, k: real)
    requires -1.0 <= u < 0.0 && k > 0.0
    ensures u * u * ((k + 1.0) + k) > u * u * ((k + 1.0) * u + k)
  {
    BracketGap(u, k);
    SquareTimesMono(u, (k + 1.0) + k, (k + 1.0) * u + k);
  }

  /** Without the factor `u` the bracket is `2k + 1`, which exceeds
      `(k + 1) u + k` whenever `u < 0`. */
  lemma {:induction false} BracketGap(u: real, k: real)
    requires u < 0.0 && k > 0.0
    ensures (k + 1.0) + k > (k + 1.0) * u + k
  {
    assert (k + 1.0) * u < 0.0;
  }

  lemma {:induction false} SquareTimesMono(u: real, x: real, y: real)
    requires u != 0.0 && x > y
    ensures u * u * x > u * u * y
  {
    SquarePositive(u);
    assert u * u * x - u * u * y == u * u * (x - y);
  }

  /** A non-zero number has a positive square. */
  lemma {:induction false} SquarePositive(u: real)
    requires u != 0.0
    ensures u * u > 0.0
  {
    if u < 0.0 {
      assert u * u == (-u) * (-u);
    }
  }

  /** `Update(time)` as written: exactly one `Update` on the inner action,
      with the eased time. */
  function UpdateBackInOut(e: EaseBackInOut, time: real): (r: Result<Call>)
    ensures r.Err? <==> e.inner.None?
    ensures r.Err? ==> r.error == NullReference
    ensures r.Ok? ==> r.value.UpdateCall? && r.value.action == e.inner.value
    ensures r.Ok? ==> r.value.time == BackInOutAsWritten(time)
  {
    if e.inner.None? then Err(NullReference)
    else Ok(UpdateCall(e.inner.value, BackInOutAsWritten(time)))
  }

  /** The corrected `Update`, forwarding the intended curve. */
  function UpdateBackInOutCorrected(e: EaseBackInOut, time: real): (r: Result<Call>)
    ensures r.Err? <==> e.inner.None?
    ensures r.Ok? ==> r.value == UpdateCall(e.inner.value, BackInOut(time))
    ensures r.Ok? && 0.0 <= time < 0.5 ==> r == UpdateBackInOut(e, time)
  {
    BackInOutDiscrepancy(time);
    if e.inner.None? then Err(NullReference)
    else Ok(UpdateCall(e.inner.value, BackInOut(time)))
  }

  /** `copyWithZone` without a zone: a new back-in-out around the copy
      `copy` makes of the inner action. */
  function CopyBackInOut(e: EaseBackInOut, copy: ActionRef -> ActionRef): (r: Result<EaseBackInOut>)
    ensures r.Err? <==> e.inner.None?
    ensures r.Ok? ==> r.value.inner == Some(copy(e.inner.value))
  {
    if e.inner.None? then Err(NullReference) else Ok(EaseBackInOut(Some(copy(e.inner.value))))
  }

  // ---------------------------------------------------------------------
  // Bounce-in

  datatype EaseBounceIn = EaseBounceIn(inner: Option<ActionRef>)
  datatype EaseBounceOut = EaseBounceOut(inner: Option<ActionRef>)

  /** Bounce-in is bounce-out run backwards: `1 - bounceTime(1 - t)`, with
      `bounceTime` the bounce-out curve of the base class. */
  function BounceIn(t: real, bounceTime: real -> real): real
  {
    1.0 - bounceTime(1.0 - t)
  }

  /** Reflecting time and value turns bounce-in back into `bounceTime`, and
      bounce-in inherits its end points and its range. */
  lemma {:induction false} BounceInMirror(t: real, bounceTime: real -> real)
    ensures 1.0 - BounceIn(1.0 - t, bounceTime) == bounceTime(t)
    ensures bounceTime(1.0) == 1.0 ==> BounceIn(0.0, bounceTime) == 0.0
    ensures bounceTime(0.0) == 0.0 ==> BounceIn(1.0, bounceTime) == 1.0
    ensures 0.0 <= bounceTime(1.0 - t) <= 1.0 ==> 0.0 <= BounceIn(t, bounceTime) <= 1.0
  {
    assert 1.0 - (1.0 - t) == t;
  }

  /** `Update(time)`: exactly one `Update` on the inner action. */
  function UpdateBounceIn(e: EaseBounceIn, time: real, bounceTime: real -> real): (r: Result<Call>)
    ensures r.Err? <==> e.inner.None?
    ensures r.Err? ==> r.error == NullReference
    ensures r.Ok? ==> r.value.UpdateCall? && r.value.action == e.inner.value
    ensures r.Ok? ==> 1.0 - r.value.time == bounceTime(1.0 - time)
  {
    if e.inner.None? then Err(NullReference)
    else Ok(UpdateCall(e.inner.value, BounceIn(time, bounceTime)))
  }

  /** `Reverse`: a bounce-out around whatever the inner action's `Reverse`
      returns, null included. The hard `(CCActionInterval)` cast of that
      result throws when it is an instant action. */
  function ReverseBounceIn(e: EaseBounceIn, reverse: ActionRef -> Option<ActionRef>): (r: Result<EaseBounceOut>)
    ensures r.Err? <==>
      e.inner.None? || (reverse(e.inner.value).Some? && reverse(e.inner.value).value.kind == Instant)
    ensures e.inner.None? ==> r == Err(NullReference)
    ensures e.inner.Some? && r.Err? ==> r.error == InvalidCast
    ensures r.Ok? ==> r.value.inner == reverse(e.inner.value) && r.value.inner == AsInterval(r.value.inner)
  {
    if e.inner.None? then Err(NullReference)
    else
      var rv := reverse(e.inner.value);
      if rv.Some? && rv.value.kind == Instant then Err(InvalidCast)
      else Ok(EaseBounceOut(rv))
  }

  /** `copyWithZone` without a zone: a bounce-in around the inner copy. */
  function CopyBounceIn(e: EaseBounceIn, copy: ActionRef -> ActionRef): (r: Result<EaseBounceIn>)
    ensures r.Err? <==> e.inner.None?
    ensures r.Ok? ==> r.value.inner == Some(copy(e.inner.value))
  {
    if e.inner.None? then Err(NullReference) else Ok(EaseBounceIn(Some(copy(e.inner.value))))
  }
}

=== FILE: follow.dfy ===
/** `CCFollow` (liwq/cocos2d-xna/actions/action/CCFollow.cs): an action
    that moves its target (typically a layer) so that a followed node
    stays in the middle of the screen, optionally keeping the screen
    inside a world rectangle.

    As written, the bounded constructor assigns the left boundary twice
    (the second time from the world's y origin) and never assigns the top
    boundary, which keeps its default 0. `Bounded` below is the corrected
    constructor, with left from the world's right edge and top from its y
    origin; `BoundedAsWritten` is the code as it stands.

    The design size of the director and the unseen `clampf` helper are
    parameters; whether the followed node is running is a parameter of
    `IsDone`. */
module Follow {
  import opened Base
  import opened Geometry
  import opened Scene
  import Points

  /** The four world boundaries, in target-position coordinates. */
  datatype Bounds = Bounds(left: real, right: real, top: real, bottom: real)

  datatype Follow = Follow(
    followed: Ref,
    target: Option<Ref>,
    boundarySet: bool,
    covered: bool,
    half: Point,
    full: Point,
    bounds: Bounds)

  /** `left <= right` and `bottom <= top`. */
  predicate Ordered(b: Bounds)
  {
    b.left <= b.right && b.bottom <= b.top
  }

  /** The target positions the bounds allow. */
  predicate Within(b: Bounds, p: Point)
  {
    b.left <= p.x <= b.right && b.bottom <= p.y <= b.top
  }

  /** The boundaries the bounded constructor assigns, as written: `left`
      is assigned from the world's right edge and then overwritten from
      its y origin, and `top` keeps its default. */
  function RawBoundsAsWritten(rect: Rect, full: Point): Bounds
  {
    // The first assignment to `left`, from the world's right edge, is
    // overwritten before it is read.
    Bounds(-rect.origin.y, -rect.origin.x, 0.0, -((rect.origin.y + rect.size.height) - full.y))
  }

  /** The boundaries evidently intended: the screen may scroll until its
      edges meet the world's. */
  function RawBounds(rect: Rect, full: Point): Bounds
  {
    Bounds(-((rect.origin.x + rect.size.width) - full.x), -rect.origin.x,
           -rect.origin.y, -((rect.origin.y + rect.size.height) - full.y))
  }

  /** An inverted pair (a world narrower than the screen) collapses to its
      midpoint, so the result is always ordered. */
  function Collapse(b: Bounds): (r: Bounds)
    ensures Ordered(r)
    ensures b.left <= b.right ==> r.left == b.left && r.right == b.right
    ensures b.right < b.left ==> r.left == r.right == (b.left + b.right) / 2.0
    ensures b.bottom <= b.top ==> r.bottom == b.bottom && r.top == b.top
    ensures b.top < b.bottom ==> r.top == r.bottom == (b.top + b.bottom) / 2.0
  {
    var (l, rt) := if b.right < b.left then ((b.left + b.right) / 2.0, (b.left + b.right) / 2.0) else (b.left, b.right);
    var (t, bt) := if b.top < b.bottom then ((b.top + b.bottom) / 2.0, (b.top + b.bottom) / 2.0) else (b.top, b.bottom);
    Bounds(l, rt, t, bt)
  }

  /** Collapsing is idempotent: ordered bounds are left alone. */
  lemma {:induction false} CollapseIdempotent(b: Bounds)
    ensures Collapse(Collapse(b)) == Collapse(b)
    ensures Ordered(b) <==> Collapse(b) == b
  {
  }

  /** The fully-covered flag: both pairs have collapsed to a point. */
  predicate Covered(b: Bounds)
  {
    b.top == b.bottom && b.left == b.right
  }

  /** The screen size and its half, from the director's design size. */
  function Screen(design: Size): (r: (Point, Point))
    ensures r.0 == Point(design.width, design.height)
    ensures r.1.x * 2.0 == design.width && r.1.y * 2.0 == design.height
  {
    var full := Point(design.width, design.height);
    (full, Points.Scale(full, 0.5))
  }

  /** `new CCFollow(followed, rect)` as written. */
  function BoundedAsWritten(followed: Ref, rect: Rect, design: Size): (f: Follow)
    ensures f.followed == followed && f.target == None && f.boundarySet
    ensures Ordered(f.bounds)
    ensures f.covered <==> Covered(f.bounds)
    ensures -rect.origin.y <= -rect.origin.x ==>
      f.bounds.left == -rect.origin.y && f.bounds.right == -rect.origin.x
    ensures rect.origin.y + rect.size.height >= design.height ==> f.bounds.top == 0.0
  {
    var (full, half) := Screen(design);
    var b := Collapse(RawBoundsAsWritten(rect, full));
    Follow(followed, None, true, Covered(b), half, full, b)
  }

  /** `new CCFollow(followed, rect)` with the boundaries evidently
      intended. */
  function Bounded(followed: Ref, rect: Rect, design: Size): (f: Follow)
    ensures f.followed == followed && f.target == None && f.boundarySet
    ensures Ordered(f.bounds)
    ensures f.covered <==> Covered(f.bounds)
    ensures rect.size.width >= design.width ==>
      f.bounds.left == design.width - (rect.origin.x + rect.size.width) && f.bounds.right == -rect.origin.x
    ensures rect.size.height >= design.height ==>
      f.bounds.top == -rect.origin.y && f.bounds.bottom == design.height - (rect.origin.y + rect.size.height)
  {
    var (full, half) := Screen(design);
    var b := Collapse(RawBounds(rect, full));
    Follow(followed, None, true, Covered(b), half, full, b)
  }

  /** `new CCFollow(followed)`: no boundaries; they keep their defaults. */
  function Unbounded(followed: Ref, design: Size): (f: Follow)
    ensures f.followed == followed && f.target == None
    ensures !f.boundarySet && !f.covered
    ensures f.full == Point(design.width, design.height)
    ensures f.half.x * 2.0 == design.width && f.half.y * 2.0 == design.height
  {
    var (full, half) := Screen(design);
    Follow(followed, None, false, false, half, full, Bounds(0.0, 0.0, 0.0, 0.0))
  }

  /** The position of the target that puts the followed node in the
      middle of the screen. */
  function Centring(f: Follow, a: Arena): Point
    requires f.followed in a
  {
    Points.Sub(f.half, Position(a[f.followed]))
  }

  /** `Step(dt)`: with boundaries, nothing happens once the world is fully
      covered; otherwise the target moves to the centring position,
      clamped into the boundaries when they are set. A null target throws. */
  function Step(f: Follow, a: Arena, clampf: (real, real, real) -> real): (r: Result<Arena>)
    requires f.followed in a
    requires f.target.Some? ==> f.target.value in a
    ensures f.boundarySet && f.covered ==> r == Ok(a)
    ensures r.Err? <==> !(f.boundarySet && f.covered) && f.target.None?
    ensures r.Err? ==> r.error == NullReference
    ensures r.Ok? && !(f.boundarySet && f.covered) ==>
      var t := f.target.value;
      var c := Centring(f, a);
      r.value.Keys == a.Keys &&
      r.value[t] == SetPosition(a[t], Position(r.value[t])) &&
      (forall n :: n in a && n != t ==> r.value[n] == a[n]) &&
      (!f.boundarySet ==> Position(r.value[t]) == c) &&
      (f.boundarySet ==>
         Position(r.value[t]) ==
         Point(clampf(c.x, f.bounds.left, f.bounds.right), clampf(c.y, f.bounds.bottom, f.bounds.top)))
  {
    if f.boundarySet && f.covered then Ok(a)
    else if f.target.None? then Err(NullReference)
    else
      var t := f.target.value;
      var c := Centring(f, a);
      var p := if f.boundarySet
        then Point(clampf(c.x, f.bounds.left, f.bounds.right), clampf(c.y, f.bounds.bottom, f.bounds.top))
        else c;
      Ok(a[t := SetPosition(a[t], p)])
  }

  /** Without boundaries the followed node ends up in the middle of the
      screen: target position plus followed position is half the screen. */
  lemma {:induction false} UnboundedStepCentres(followed: Ref, t: Ref, design: Size, a: Arena, clampf: (real, real, real) -> real)
    requires followed in a && t in a && t != followed
    ensures var f := Unbounded(followed, design).(target := Some(t));
      var r := Step(f, a, clampf);
      r.Ok? &&
      Points.Add(Position(r.value[t]), Position(a[followed])) == f.half &&
      Position(r.value[followed]) == Position(a[followed])
  {
  }

  /** With boundaries not yet covering the world and a `clampf` that
      clamps into an ordered range, the target always lands inside the
      boundaries; with the point
      clamp of liwq/source/sturcts/Point.cs it is that clamp of the
      centring position. */
  lemma {:induction false} BoundedStepWithin(f: Follow, a: Arena, clampf: (real, real, real) -> real)
    requires f.followed in a && f.target.Some? && f.target.value in a
    requires f.boundarySet && !f.covered && Ordered(f.bounds)
    requires forall v, lo, hi :: lo <= hi ==> lo <= clampf(v, lo, hi) <= hi
    ensures var r := Step(f, a, clampf);
      r.Ok? && Within(f.bounds, Position(r.value[f.target.value]))
    ensures (forall v, lo, hi :: clampf(v, lo, hi) == Points.Clamp(v, lo, hi)) ==>
      Position(Step(f, a, clampf).value[f.target.value]) ==
        Points.ClampPoint(Centring(f, a), Point(f.bounds.left, f.bounds.bottom), Point(f.bounds.right, f.bounds.top))
  {
    var c := Centring(f, a);
    assert clampf(c.x, f.bounds.left, f.bounds.right) <= f.bounds.right;
    assert clampf(c.y, f.bounds.bottom, f.bounds.top) <= f.bounds.top;
  }

  /** With the corrected boundaries and a world at least as large as the
      screen, every target position they allow shows only the world: the
      screen rectangle at `-p` lies inside the world rectangle. */
  lemma {:induction false} ScreenInsideWorld(followed: Ref, rect: Rect, design: Size, p: Point)
    requires rect.size.width >= design.width && rect.size.height >= design.height
    requires Within(Bounded(followed, rect, design).bounds, p)
    ensures rect.origin.x <= -p.x && -p.x + design.width <= rect.origin.x + rect.size.width
    ensures rect.origin.y <= -p.y && -p.y + design.height <= rect.origin.y + rect.size.height
  {
  }

  /** As written, a 200 x 200 world at (0, 50) on a 100 x 100 screen allows
      the target position (0, 0), which shows the strip below the world;
      the corrected boundaries rule it out. Horizontally, the same world
      at the origin cannot be scrolled at all as written. */
  lemma {:induction false} BoundsCounterexample(followed: Ref)
    ensures var rect := RectOf(0.0, 50.0, 200.0, 200.0);
      var design := Size(100.0, 100.0);
      Within(BoundedAsWritten(followed, rect, design).bounds, Point(0.0, 0.0)) &&
      !(rect.origin.y <= -0.0) &&
      !Within(Bounded(followed, rect, design).bounds, Point(0.0, 0.0))
    ensures var rect := RectOf(0.0, 0.0, 200.0, 200.0);
      var design := Size(100.0, 100.0);
      var b := BoundedAsWritten(followed, rect, design).bounds;
      b.left == b.right == 0.0 &&
      Bounded(followed, rect, design).bounds.left == -100.0
  {
  }

  /** `IsDone()`: the action ends when the followed node stops running. */
  function IsDone(f: Follow, isRunning: Ref -> bool): (r: bool)
    ensures r <==> !isRunning(f.followed)
  {
    !isRunning(f.followed)
  }

  /** `Stop()`: the target is cleared (the base class's part is not part
      of this model). */
  function Stop(f: Follow): (r: Follow)
    ensures r.target == None
    ensures r.followed == f.followed && r.boundarySet == f.boundarySet && r.covered == f.covered
    ensures r.half == f.half && r.full == f.full && r.bounds == f.bounds
  {
    f.(target := None)
  }

  /** After `Stop`, a step throws unless the world is fully covered. */
  lemma {:induction false} StepAfterStop(f: Follow, a: Arena, clampf: (real, real, real) -> real)
    requires f.followed in a
    ensures Step(Stop(f), a, clampf) == (if f.boundarySet && f.covered then Ok(a) else Err(NullReference))
  {
  }
}

=== FILE: geometry.dfy ===
/** The value types of liwq/source/sturcts: Point, Size and Rect.
    Single-precision floats are modelled as `real`. */
module Geometry {

  datatype Point = Point(x: real, y: real)

  datatype Size = Size(width: real, height: real)

  datatype Rect = Rect(origin: Point, size: Size)

  const ZeroPoint := Point(0.0, 0.0)
  const ZeroSize := Size(0.0, 0.0)
  const ZeroRect := Rect(ZeroPoint, ZeroSize)

  /** `new Rect(x, y, width, height)` */
  function RectOf(x: real, y: real, w: real, h: real): Rect
  {
    Rect(Point(x, y), Size(w, h))
  }
}

=== FILE: points.dfy ===
/** Point arithmetic (liwq/source/sturcts/Point.cs): component-wise
    operators, clamping, interpolation, perpendiculars and the parametric
    line/segment intersection test. */
module Points {
  import opened Base
  import opened Geometry

  // ---------------------------------------------------------------------
  // Operators

  /** `p1 + p2` */
  function Add(p: Point, q: Point): Point { Point(p.x + q.x, p.y + q.y) }

  /** `p1 - p2` (also `Sub`) */
  function Sub(p: Point, q: Point): Point { Point(p.x - q.x, p.y - q.y) }

  /** `p * value` */
  function Scale(p: Point, f: real): Point { Point(p.x * f, p.y * f) }

  /** `p * q`, also `MultiplyComponents` */
  function MulComponents(p: Point, q: Point): Point { Point(p.x * q.x, p.y * q.y) }

  /** `p + size` */
  function AddSize(p: Point, s: Size): Point { Point(p.x + s.width, p.y + s.height) }

  /** `p - size` */
  function SubSize(p: Point, s: Size): Point { Point(p.x - s.width, p.y - s.height) }

  /** Unary `-p`, and the `Reverse` property. */
  function Negate(p: Point): Point { Point(-p.x, -p.y) }

  /** `Offset(dx, dy)` */
  function Offset(p: Point, dx: real, dy: real): Point { Point(p.x + dx, p.y + dy) }

  /** `p / value`; the source divides in IEEE floats, where a zero divisor
      gives infinities, so the model asks for a non-zero divisor. */
  function Div(p: Point, f: real): (r: Point)
    requires f != 0.0
    ensures Scale(r, f) == p
  {
    Point(p.x / f, p.y / f)
  }

  /** `Equal`, `Equals` and `==`: component-wise equality, which is value
      equality of the model's points. */
  function Equal(p: Point, q: Point): (r: bool)
    ensures r <==> p == q
  {
    p.x == q.x && p.y == q.y
  }

  /** `!=` is written separately in the source as a disjunction. */
  function NotEqual(p: Point, q: Point): (r: bool)
    ensures r <==> !Equal(p, q)
  {
    p.x != q.x || p.y != q.y
  }

  lemma {:induction false} AddSubInverse(p: Point, q: Point)
    ensures Sub(Add(p, q), q) == p
    ensures Add(Sub(p, q), q) == p
    ensures Offset(p, q.x, q.y) == Add(p, q)
    ensures Add(p, Negate(q)) == Sub(p, q)
  {
  }

  lemma {:induction false} SizeOperatorsInverse(p: Point, s: Size)
    ensures SubSize(AddSize(p, s), s) == p
    ensures Negate(Negate(p)) == p
  {
  }

  // ---------------------------------------------------------------------
  // Products and perpendiculars

  /** `Dot` and `DotProduct` */
  function Dot(p: Point, q: Point): real { p.x * q.x + p.y * q.y }

  /** `CrossProduct` */
  function Cross(p: Point, q: Point): real { p.x * q.y - p.y * q.x }

  /** `LengthSQ` */
  function LengthSq(p: Point): (r: real)
    ensures r >= 0.0
  {
    Dot(p, p)
  }

  /** `Perp` */
  function Perp(p: Point): Point { Point(-p.y, p.x) }

  /** `PerpendicularCounterClockwise` */
  function PerpCcw(v: Point): (r: Point)
    ensures Cross(v, r) >= 0.0
    ensures Dot(v, r) == 0.0
  {
    Point(-v.y, v.x)
  }

  /** `PerpendicularClockwise` */
  function PerpCw(v: Point): (r: Point)
    ensures Cross(v, r) <= 0.0
    ensures Dot(v, r) == 0.0
  {
    Point(v.y, -v.x)
  }

  /** The two perpendiculars are inverse rotations, `Perp` is the
      counter-clockwise one, and the cross product of a vector with its
      perpendicular is its squared length. */
  lemma {:induction false} PerpendicularFacts(v: Point)
    ensures Perp(v) == PerpCcw(v)
    ensures PerpCw(PerpCcw(v)) == v && PerpCcw(PerpCw(v)) == v
    ensures PerpCcw(v) == Negate(PerpCw(v))
    ensures Cross(v, PerpCcw(v)) == LengthSq(v)
    ensures Cross(v, PerpCw(v)) == -LengthSq(v)
  {
  }

  lemma {:induction false} ProductSymmetries(p: Point, q: Point)
    ensures Dot(p, q) == Dot(q, p)
    ensures Cross(p, q) == -Cross(q, p)
    ensures Cross(p, p) == 0.0
  {
  }

  /** `Rotate`: complex multiplication of the two points. */
  function Rotate(v: Point, u: Point): Point
  {
    Point(v.x * u.x - v.y * u.y, v.x * u.y + v.y * u.x)
  }

  /** `Unrotate`: multiplication by the conjugate of `u`. */
  function Unrotate(v: Point, u: Point): Point
  {
    Point(v.x * u.x + v.y * u.y, v.y * u.x - v.x * u.y)
  }

  /** Unrotating by `u` undoes rotating by `u` up to the factor |u|^2, so
      the two are inverse for a unit vector. */
  lemma {:induction false} UnrotateUndoesRotate(v: Point, u: Point)
    ensures Unrotate(Rotate(v, u), u) == Scale(v, LengthSq(u))
  {
    var r := Rotate(v, u);
    calc {
      r.x * u.x + r.y * u.y;
      (v.x * u.x - v.y * u.y) * u.x + (v.x * u.y + v.y * u.x) * u.y;
      v.x * (u.x * u.x + u.y * u.y);
    }
    calc {
      r.y * u.x - r.x * u.y;
      (v.x * u.y + v.y * u.x) * u.x - (v.x * u.x - v.y * u.y) * u.y;
      v.y * (u.x * u.x + u.y * u.y);
    }
  }

  // ---------------------------------------------------------------------
  // Interpolation, clamping, fuzzy equality

  /** `Lerp`: `a * (1 - alpha) + b * alpha`. */
  function Lerp(a: Point, b: Point, alpha: real): (r: Point)
    ensures alpha == 0.0 ==> r == a
    ensures alpha == 1.0 ==> r == b
    ensures 0.0 <= alpha <= 1.0 ==>
      Min(a.x, b.x) <= r.x <= Max(a.x, b.x) && Min(a.y, b.y) <= r.y <= Max(a.y, b.y)
    ensures r == Add(a, Scale(Sub(b, a), alpha))
  {
    LerpBetween(a.x, b.x, alpha);
    LerpBetween(a.y, b.y, alpha);
    var x := a.x * (1.0 - alpha) + b.x * alpha;
    var y := a.y * (1.0 - alpha) + b.y * alpha;
    Point(x, y)
  }

  /** One coordinate of `Lerp`: it is the start value moved `alpha` of the
      way towards the end value, so it stays between the two. */
  lemma {:induction false} LerpBetween(a: real, b: real, alpha: real)
    ensures a * (1.0 - alpha) + b * alpha == a + (b - a) * alpha
    ensures 0.0 <= alpha <= 1.0 ==> Min(a, b) <= a * (1.0 - alpha) + b * alpha <= Max(a, b)
  {
    var d := b - a;
    var m := alpha * d;
    assert a * (1.0 - alpha) + b * alpha == a + m;
    if 0.0 <= alpha <= 1.0 {
      if d >= 0.0 {
        ScaleDown(d, alpha);
        assert 0.0 <= m <= d;
      } else {
        ScaleDown(-d, alpha);
        assert alpha * (-d) == -m;
      }
    }
  }

  lemma {:induction false} ScaleDown(x: real, k: real)
    requires x >= 0.0 && 0.0 <= k <= 1.0
    ensures 0.0 <= k * x <= x
  {
  }

  /** `Midpoint` */
  function Midpoint(p: Point, q: Point): (r: Point)
    ensures Sub(r, p) == Sub(q, r)
  {
    Point((p.x + q.x) / 2.0, (p.y + q.y) / 2.0)
  }

  /** The midpoint is the interpolation at one half. */
  lemma {:induction false} MidpointIsHalfLerp(p: Point, q: Point)
    ensures Midpoint(p, q) == Lerp(p, q, 0.5)
  {
  }

  /** `FuzzyEqual(a, b, variance)` */
  function FuzzyEqual(a: Point, b: Point, variance: real): (r: bool)
    ensures r <==> Abs(b.x - a.x) <= variance && Abs(b.y - a.y) <= variance
  {
    if a.x - variance <= b.x && b.x <= a.x + variance then
      a.y - variance <= b.y && b.y <= a.y + variance
    else
      false
  }

  /** Fuzzy equality is symmetric and reflexive for a non-negative
      variance, and with variance 0 it is exact equality. */
  lemma {:induction false} FuzzyEqualFacts(a: Point, b: Point, v: real)
    ensures FuzzyEqual(a, b, v) == FuzzyEqual(b, a, v)
    ensures v >= 0.0 ==> FuzzyEqual(a, a, v)
    ensures FuzzyEqual(a, b, 0.0) <==> a == b
  {
  }

  /** The scalar `Clamp(value, min_inclusive, max_inclusive)`: swaps the
      bounds when they are given in the wrong order. */
  function Clamp(value: real, lo: real, hi: real): (r: real)
    ensures Min(lo, hi) <= r <= Max(lo, hi)
    ensures Min(lo, hi) <= value <= Max(lo, hi) ==> r == value
    ensures value < Min(lo, hi) ==> r == Min(lo, hi)
    ensures value > Max(lo, hi) ==> r == Max(lo, hi)
  {
    var lo' := if lo > hi then hi else lo;
    var hi' := if lo > hi then lo else hi;
    if value < lo' then lo' else if value < hi' then value else hi'
  }

  /** The point `Clamp(p, from, to)`: the scalar clamp on each axis. */
  function ClampPoint(p: Point, from: Point, to: Point): (r: Point)
    ensures Min(from.x, to.x) <= r.x <= Max(from.x, to.x)
    ensures Min(from.y, to.y) <= r.y <= Max(from.y, to.y)
    ensures Min(from.x, to.x) <= p.x <= Max(from.x, to.x) ==> r.x == p.x
    ensures Min(from.y, to.y) <= p.y <= Max(from.y, to.y) ==> r.y == p.y
    ensures p.x < Min(from.x, to.x) ==> r.x == Min(from.x, to.x)
    ensures p.x > Max(from.x, to.x) ==> r.x == Max(from.x, to.x)
    ensures p.y < Min(from.y, to.y) ==> r.y == Min(from.y, to.y)
    ensures p.y > Max(from.y, to.y) ==> r.y == Max(from.y, to.y)
  {
    Point(Clamp(p.x, from.x, to.x), Clamp(p.y, from.y, to.y))
  }

  /** Clamping is idempotent and does not depend on the order of the two
      corner points. */
  lemma {:induction false} ClampPointIdempotent(p: Point, from: Point, to: Point)
    ensures ClampPoint(ClampPoint(p, from, to), from, to) == ClampPoint(p, from, to)
    ensures ClampPoint(p, from, to) == ClampPoint(p, to, from)
  {
  }

  // ---------------------------------------------------------------------
  // Line and segment intersection

  /** The result of `LineIntersect`: the returned flag and the final values
      of its two `ref` parameters S and T. */
  datatype LineHit = LineHit(ok: bool, s: real, t: real)

  /** The denominator `DCy * BAx - DCx * BAy` of the parametric solve. */
  function Denominator(a: Point, b: Point, c: Point, d: Point): real
  {
    (d.y - c.y) * (b.x - a.x) - (d.x - c.x) * (b.y - a.y)
  }

  function NumeratorS(a: Point, b: Point, c: Point, d: Point): real
  {
    (d.x - c.x) * (a.y - c.y) - (d.y - c.y) * (a.x - c.x)
  }

  function NumeratorT(a: Point, b: Point, c: Point, d: Point): real
  {
    (b.x - a.x) * (a.y - c.y) - (b.y - a.y) * (a.x - c.x)
  }

  /** `LineIntersect(A, B, C, D, ref S, ref T)`. `s0` and `t0` are the values
      of S and T on entry; they are returned untouched when a line is
      undefined. For parallel lines S and T keep the raw numerators. */
  function LineIntersect(a: Point, b: Point, c: Point, d: Point, s0: real, t0: real): (r: LineHit)
    ensures a == b || c == d ==> r == LineHit(false, s0, t0)
    ensures a != b && c != d && Denominator(a, b, c, d) == 0.0 ==>
      r.s == NumeratorS(a, b, c, d) && r.t == NumeratorT(a, b, c, d) &&
      (r.ok <==> r.s == 0.0 || r.t == 0.0)
    ensures a != b && c != d && Denominator(a, b, c, d) != 0.0 ==>
      r.ok && Lerp(a, b, r.s) == Lerp(c, d, r.t)
  {
    if (a.x == b.x && a.y == b.y) || (c.x == d.x && c.y == d.y) then
      LineHit(false, s0, t0)
    else
      var denom := Denominator(a, b, c, d);
      var s := NumeratorS(a, b, c, d);
      var t := NumeratorT(a, b, c, d);
      if denom == 0.0 then
        LineHit(s == 0.0 || t == 0.0, s, t)
      else
        HitPointIdentity(a, b, c, d);
        LineHit(true, s / denom, t / denom)
  }

  /** With a non-zero denominator the two parameters name the same point on
      both lines: A + S (B - A) = C + T (D - C). */
  lemma {:induction false} HitPointIdentity(a: Point, b: Point, c: Point, d: Point)
    requires Denominator(a, b, c, d) != 0.0
    ensures var den := Denominator(a, b, c, d);
      Lerp(a, b, NumeratorS(a, b, c, d) / den) == Lerp(c, d, NumeratorT(a, b, c, d) / den)
  {
    var den := Denominator(a, b, c, d);
    var bax, bay := b.x - a.x, b.y - a.y;
    var dcx, dcy := d.x - c.x, d.y - c.y;
    var acx, acy := a.x - c.x, a.y - c.y;
    var sn, tn := NumeratorS(a, b, c, d), NumeratorT(a, b, c, d);
    var s, t := sn / den, tn / den;
    assert s * den == sn && t * den == tn;
    // Cramer's rule: acx + s*bax - t*dcx = 0 and acy + s*bay - t*dcy = 0
    assert (acx + s * bax - t * dcx) * den == acx * den + sn * bax - tn * dcx;
    assert acx * den + sn * bax - tn * dcx == 0.0;
    assert (acy + s * bay - t * dcy) * den == acy * den + sn * bay - tn * dcy;
    assert acy * den + sn * bay - tn * dcy == 0.0;
    assert acx + s * bax - t * dcx == 0.0;
    assert acy + s * bay - t * dcy == 0.0;
    assert Lerp(a, b, s) == Point(a.x + bax * s, a.y + bay * s);
    assert Lerp(c, d, t) == Point(c.x + dcx * t, c.y + dcy * t);
  }

  /** Cramer's rule for the 2x2 system s*p - t*q = u, s*r - t*w = v. */
  lemma {:induction false} Cramer(s: real, t: real, p: real, q: real, r: real, w: real, u: real, v: real)
    requires s * p - t * q == u
    requires s * r - t * w == v
    ensures s * (p * w - q * r) == u * w - v * q
    ensures t * (p * w - q * r) == u * r - v * p
  {
    assert (s * p - t * q) * w == u * w;
    assert (s * r - t * w) * q == v * q;
    assert s * (p * w - q * r) == (s * p - t * q) * w - (s * r - t * w) * q;
    assert (s * p - t * q) * r == u * r;
    assert (s * r - t * w) * p == v * p;
    assert t * (p * w - q * r) == (s * p - t * q) * r - (s * r - t * w) * p;
  }

  /** Conversely, with a non-zero denominator any pair of parameters naming
      a common point is the one `LineIntersect` computes. */
  lemma {:induction false} HitParametersUnique(a: Point, b: Point, c: Point, d: Point, s: real, t: real)
    requires Denominator(a, b, c, d) != 0.0
    requires Lerp(a, b, s) == Lerp(c, d, t)
    ensures s == NumeratorS(a, b, c, d) / Denominator(a, b, c, d)
    ensures t == NumeratorT(a, b, c, d) / Denominator(a, b, c, d)
  {
    var p, q := Lerp(a, b, s), Lerp(c, d, t);
    assert p.x == q.x && p.y == q.y;
    CommonPointParameters(a.x, a.y, b.x, b.y, c.x, c.y, d.x, d.y, s, t);
  }

  /** The scalar core of `HitParametersUnique`: two equations of the form
      A + S (B - A) = C + T (D - C), solved by Cramer's rule. */
  lemma {:induction false} CommonPointParameters(ax: real, ay: real, bx: real, bY: real,
                                                 cx: real, cy: real, dx: real, dy: real, s: real, t: real)
    requires ax + (bx - ax) * s == cx + (dx - cx) * t
    requires ay + (bY - ay) * s == cy + (dy - cy) * t
    ensures s * ((dy - cy) * (bx - ax) - (dx - cx) * (bY - ay)) == (dx - cx) * (ay - cy) - (dy - cy) * (ax - cx)
    ensures t * ((dy - cy) * (bx - ax) - (dx - cx) * (bY - ay)) == (bx - ax) * (ay - cy) - (bY - ay) * (ax - cx)
  {
    var p, q, r, w := bx - ax, dx - cx, bY - ay, dy - cy;
    assert s * p - t * q == cx - ax;
    assert s * r - t * w == cy - ay;
    Cramer(s, t, p, q, r, w, cx - ax, cy - ay);
  }

  /** `SegmentIntersect(A, B, C, D)` */
  function SegmentIntersect(a: Point, b: Point, c: Point, d: Point): bool
  {
    var h := LineIntersect(a, b, c, d, 0.0, 0.0);
    h.ok && 0.0 <= h.s <= 1.0 && 0.0 <= h.t <= 1.0
  }

  /** For non-parallel lines, the segments intersect exactly when some
      point lies on both segments. */
  lemma {:induction false} SegmentIntersectMeansCommonPoint(a: Point, b: Point, c: Point, d: Point)
    requires a != b && c != d && Denominator(a, b, c, d) != 0.0
    ensures SegmentIntersect(a, b, c, d) <==>
      exists s: real, t: real {:trigger Lerp(a, b, s), Lerp(c, d, t)} ::
        0.0 <= s <= 1.0 && 0.0 <= t <= 1.0 && Lerp(a, b, s) == Lerp(c, d, t)
  {
    var h := LineIntersect(a, b, c, d, 0.0, 0.0);
    if SegmentIntersect(a, b, c, d) {
      assert Lerp(a, b, h.s) == Lerp(c, d, h.t);
    }
    if exists s: real, t: real {:trigger Lerp(a, b, s), Lerp(c, d, t)} ::
        0.0 <= s <= 1.0 && 0.0 <= t <= 1.0 && Lerp(a, b, s) == Lerp(c, d, t) {
      var s: real, t: real :| 0.0 <= s <= 1.0 && 0.0 <= t <= 1.0 && Lerp(a, b, s) == Lerp(c, d, t);
      HitParametersUnique(a, b, c, d, s, t);
    }
  }

  /** `IntersectPoint(A, B, C, D)`: `Zero` when `LineIntersect` fails,
      otherwise A + S (B - A), the point at parameter S on line AB. */
  function IntersectPoint(a: Point, b: Point, c: Point, d: Point): (r: Point)
    ensures var h := LineIntersect(a, b, c, d, 0.0, 0.0);
      (h.ok ==> r == Lerp(a, b, h.s)) && (!h.ok ==> r == ZeroPoint)
    ensures a != b && c != d && Denominator(a, b, c, d) != 0.0 ==>
      r == Lerp(c, d, LineIntersect(a, b, c, d, 0.0, 0.0).t)
  {
    var h := LineIntersect(a, b, c, d, 0.0, 0.0);
    if h.ok then
      assert Lerp(a, b, h.s) == Point(a.x + h.s * (b.x - a.x), a.y + h.s * (b.y - a.y));
      Point(a.x + h.s * (b.x - a.x), a.y + h.s * (b.y - a.y))
    else
      ZeroPoint
  }

  /** For non-parallel lines, `IntersectPoint` is their one common point:
      it lies on both lines, and every point on both lines is it. */
  lemma {:induction false} IntersectPointIsCommonPoint(a: Point, b: Point, c: Point, d: Point)
    requires a != b && c != d && Denominator(a, b, c, d) != 0.0
    ensures var h := LineIntersect(a, b, c, d, 0.0, 0.0);
      IntersectPoint(a, b, c, d) == Lerp(a, b, h.s) == Lerp(c, d, h.t)
    ensures forall s: real, t: real {:trigger Lerp(a, b, s), Lerp(c, d, t)} ::
      Lerp(a, b, s) == Lerp(c, d, t) ==> Lerp(a, b, s) == IntersectPoint(a, b, c, d)
  {
    var h := LineIntersect(a, b, c, d, 0.0, 0.0);
    forall s: real, t: real | Lerp(a, b, s) == Lerp(c, d, t)
      ensures Lerp(a, b, s) == IntersectPoint(a, b, c, d)
    {
      HitParametersUnique(a, b, c, d, s, t);
      assert s == h.s;
    }
  }

  /** For parallel lines the test succeeds exactly when A lies on line CD,
      so that the two lines are one, and the point is then A itself;
      otherwise it is `Zero`. */
  lemma {:induction false} IntersectPointParallel(a: Point, b: Point, c: Point, d: Point)
    requires a != b && c != d && Denominator(a, b, c, d) == 0.0
    ensures LineIntersect(a, b, c, d, 0.0, 0.0).ok <==> NumeratorS(a, b, c, d) == 0.0
    ensures NumeratorS(a, b, c, d) == 0.0 <==>
      (exists t: real {:trigger Lerp(c, d, t)} :: Lerp(c, d, t) == a)
    ensures NumeratorS(a, b, c, d) == 0.0 ==> IntersectPoint(a, b, c, d) == a
    ensures NumeratorS(a, b, c, d) != 0.0 ==> IntersectPoint(a, b, c, d) == ZeroPoint
  {
    ParallelNumerators(b.x - a.x, b.y - a.y, d.x - c.x, d.y - c.y, a.x - c.x, a.y - c.y);
    OnLineThrough(a, b, c, d);
  }

  /** `NumeratorS` is 0 exactly when A lies on line CD. */
  lemma {:induction false} OnLineThrough(a: Point, b: Point, c: Point, d: Point)
    requires c != d
    ensures NumeratorS(a, b, c, d) == 0.0 <==>
      (exists t: real {:trigger Lerp(c, d, t)} :: Lerp(c, d, t) == a)
  {
    if NumeratorS(a, b, c, d) == 0.0 {
      var t := OnLineWitness(a, b, c, d);
    }
    if exists t: real {:trigger Lerp(c, d, t)} :: Lerp(c, d, t) == a {
      var t: real :| Lerp(c, d, t) == a;
      OnLineNumeratorZero(a, b, c, d, t);
    }
  }

  lemma {:induction false} OnLineWitness(a: Point, b: Point, c: Point, d: Point) returns (t: real)
    requires c != d && NumeratorS(a, b, c, d) == 0.0
    ensures Lerp(c, d, t) == a
  {
    t := OnLineParameter(d.x - c.x, d.y - c.y, a.x - c.x, a.y - c.y);
    LerpOffset(c, d, t);
  }

  lemma {:induction false} OnLineNumeratorZero(a: Point, b: Point, c: Point, d: Point, t: real)
    requires Lerp(c, d, t) == a
    ensures NumeratorS(a, b, c, d) == 0.0
  {
    LerpOffset(c, d, t);
    OnLineNumerator(d.x - c.x, d.y - c.y, a.x - c.x, a.y - c.y, t);
  }

  /** `Lerp(c, d, t)` is `c` moved by `t` times the direction `d - c`. */
  lemma {:induction false} LerpOffset(c: Point, d: Point, t: real)
    ensures Lerp(c, d, t).x - c.x == (d.x - c.x) * t
    ensures Lerp(c, d, t).y - c.y == (d.y - c.y) * t
  {
    assert Lerp(c, d, t) == Add(c, Scale(Sub(d, c), t));
  }

  /** The scalar core of `IntersectPointParallel`: for non-zero directions
      (p, r) and (q, w) with w p - q r = 0, the two cross products of the
      offset (u, v) with them vanish together. */
  lemma {:induction false} ParallelNumerators(p: real, r: real, q: real, w: real, u: real, v: real)
    requires (p != 0.0 || r != 0.0) && (q != 0.0 || w != 0.0)
    requires w * p - q * r == 0.0
    ensures q * v - w * u == 0.0 <==> p * v - r * u == 0.0
  {
    if p != 0.0 {
      assert (q * v - w * u) * p == q * (p * v - r * u) - u * (w * p - q * r);
      assert w == q * r / p;
      assert q != 0.0;
    } else {
      assert q * r == 0.0;
      assert q == 0.0;
      assert w != 0.0;
    }
  }

  /** An offset (u, v) whose cross product with the direction (q, w) is 0
      is a multiple of that direction. */
  lemma {:induction false} OnLineParameter(q: real, w: real, u: real, v: real) returns (t: real)
    requires q != 0.0 || w != 0.0
    requires q * v - w * u == 0.0
    ensures u == q * t && v == w * t
  {
    if q != 0.0 {
      t := u / q;
      assert q * t == u;
      assert q * (v - w * t) == q * v - w * u;
    } else {
      t := v / w;
      assert w * u == 0.0;
    }
  }

  /** Conversely, a multiple of the direction has cross product 0 with it. */
  lemma {:induction false} OnLineNumerator(q: real, w: real, u: real, v: real, t: real)
    requires u == q * t && v == w * t
    ensures q * v - w * u == 0.0
  {
    assert q * (w * t) == w * (q * t);
  }
}

=== FILE: rects.dfy ===
/** Axis-aligned rectangles (liwq/source/sturcts/Rect.cs): edges, union,
    intersection and containment. A rectangle whose size is non-negative
    is called `Proper` below; the source never checks this, so the
    operations are defined for every rectangle and only some properties
    ask for it. */
module Rects {
  import opened Base
  import opened Geometry

  function MinX(r: Rect): real { r.origin.x }
  function MidX(r: Rect): real { r.origin.x + r.size.width / 2.0 }
  function MaxX(r: Rect): real { r.origin.x + r.size.width }
  function MinY(r: Rect): real { r.origin.y }
  function MidY(r: Rect): real { r.origin.y + r.size.height / 2.0 }
  function MaxY(r: Rect): real { r.origin.y + r.size.height }

  predicate Proper(r: Rect) { r.size.width >= 0.0 && r.size.height >= 0.0 }

  /** `new Rect(size)`: a rectangle of that size at the origin. */
  function FromSize(s: Size): (r: Rect)
    ensures r.origin == ZeroPoint && r.size == s
  {
    Rect(ZeroPoint, s)
  }

  /** `InvertedSize`: same origin, width and height swapped. */
  function InvertedSize(r: Rect): (q: Rect)
    ensures q.origin == r.origin
    ensures q.size.width == r.size.height && q.size.height == r.size.width
  {
    RectOf(r.origin.x, r.origin.y, r.size.height, r.size.width)
  }

  lemma {:induction false} InvertedSizeInvolution(r: Rect)
    ensures InvertedSize(InvertedSize(r)) == r
  {
  }

  /** `Equal`, `Equals` and `==`: value equality; `!=` is its negation. */
  function Equal(p: Rect, q: Rect): (b: bool)
    ensures b <==> p == q
  {
    p.origin.x == q.origin.x && p.origin.y == q.origin.y &&
    p.size.width == q.size.width && p.size.height == q.size.height
  }

  function NotEqual(p: Rect, q: Rect): (b: bool)
    ensures b <==> p != q
  {
    !Equal(p, q)
  }

  // ---------------------------------------------------------------------
  // Containment

  /** `ContainsPoint(x, y)`: every edge is inclusive. */
  function ContainsXY(r: Rect, x: real, y: real): bool
  {
    x >= MinX(r) && x <= MaxX(r) && y >= MinY(r) && y <= MaxY(r)
  }

  /** `ContainsPoint(point)`: the same test on the point's coordinates. */
  function ContainsPoint(r: Rect, p: Point): (b: bool)
    ensures b <==> ContainsXY(r, p.x, p.y)
  {
    ContainsXY(r, p.x, p.y)
  }

  /** A proper rectangle contains its four corners and its middle; a
      rectangle with a negative width or height contains nothing. */
  lemma {:induction false} ContainsCorners(r: Rect)
    ensures Proper(r) ==>
      ContainsXY(r, MinX(r), MinY(r)) && ContainsXY(r, MaxX(r), MaxY(r)) &&
      ContainsXY(r, MinX(r), MaxY(r)) && ContainsXY(r, MaxX(r), MinY(r)) &&
      ContainsXY(r, MidX(r), MidY(r))
    ensures !Proper(r) ==> forall p: Point :: !ContainsPoint(r, p)
  {
  }

  // ---------------------------------------------------------------------
  // Center

  /** `Center` as written: the middle of the X range but the low-y edge
      of the Y range (`MinY`), not its middle. */
  function CenterAsWritten(r: Rect): (c: Point)
    ensures c.x == MidX(r) && c.y == MinY(r)
  {
    Point(MidX(r), MinY(r))
  }

  /** The centre a caller expects: halfway between the origin and the
      opposite corner. */
  function Center(r: Rect): (c: Point)
    ensures c.x * 2.0 == MinX(r) + MaxX(r)
    ensures c.y * 2.0 == MinY(r) + MaxY(r)
  {
    Point(MidX(r), MidY(r))
  }

  /** The two agree exactly on rectangles of zero height; the unit square
      at the origin tells them apart. */
  lemma {:induction false} CenterDiscrepancy(r: Rect)
    ensures CenterAsWritten(r) == Center(r) <==> r.size.height == 0.0
    ensures CenterAsWritten(RectOf(0.0, 0.0, 2.0, 2.0)) == Point(1.0, 0.0)
    ensures Center(RectOf(0.0, 0.0, 2.0, 2.0)) == Point(1.0, 1.0)
  {
  }

  // ---------------------------------------------------------------------
  // Union

  /** `Union`: the bounding box of both rectangles. */
  function Union(a: Rect, b: Rect): (r: Rect)
    ensures MinX(r) == Min(MinX(a), MinX(b)) && MinY(r) == Min(MinY(a), MinY(b))
    ensures MaxX(r) == Max(MaxX(a), MaxX(b)) && MaxY(r) == Max(MaxY(a), MaxY(b))
  {
    var minx := Min(MinX(a), MinX(b));
    var miny := Min(MinY(a), MinY(b));
    var maxx := Max(MaxX(a), MaxX(b));
    var maxy := Max(MaxY(a), MaxY(b));
    RectOf(minx, miny, maxx - minx, maxy - miny)
  }

  /** The union contains every point of either rectangle, is symmetric and
      idempotent, and is the smallest rectangle containing both. */
  lemma {:induction false} UnionBounds(a: Rect, b: Rect, p: Point, c: Rect)
    ensures ContainsPoint(a, p) || ContainsPoint(b, p) ==> ContainsPoint(Union(a, b), p)
    ensures Union(a, b) == Union(b, a)
    ensures Union(a, a) == a
    ensures Proper(a) && Proper(b) ==> Proper(Union(a, b))
    ensures (MinX(c) <= Min(MinX(a), MinX(b)) && Max(MaxX(a), MaxX(b)) <= MaxX(c) &&
             MinY(c) <= Min(MinY(a), MinY(b)) && Max(MaxY(a), MaxY(b)) <= MaxY(c) &&
             ContainsPoint(Union(a, b), p)) ==> ContainsPoint(c, p)
  {
  }

  // ---------------------------------------------------------------------
  // Intersection

  /** `IntersectsRect`: no separating gap on either axis; touching edges
      count as intersecting. */
  function IntersectsRect(a: Rect, b: Rect): bool
  {
    !(MaxX(a) < MinX(b) || MaxX(b) < MinX(a) || MaxY(a) < MinY(b) || MaxY(b) < MinY(a))
  }

  /** For proper rectangles the test is symmetric and holds exactly when
      the two share a point. */
  lemma {:induction false} IntersectsMeansCommonPoint(a: Rect, b: Rect)
    requires Proper(a) && Proper(b)
    ensures IntersectsRect(a, b) == IntersectsRect(b, a)
    ensures IntersectsRect(a, b) <==> exists p: Point :: ContainsPoint(a, p) && ContainsPoint(b, p)
  {
    if IntersectsRect(a, b) {
      var p := Point(Max(MinX(a), MinX(b)), Max(MinY(a), MinY(b)));
      assert ContainsPoint(a, p) && ContainsPoint(b, p);
    }
  }

  /** The lower edge chosen by `Intersection` on one axis, as written: the
      receiver's edge when the argument starts before it, the argument's
      when it starts inside, and otherwise the initial 0. */
  function LowEdgeAsWritten(thisMin: real, thisMax: real, otherMin: real): real
  {
    if otherMin < thisMin then thisMin
    else if otherMin < thisMax then otherMin
    else 0.0
  }

  /** The upper edge chosen by `Intersection` on one axis, as written: when
      both rectangles end at the same coordinate neither branch fires and
      the edge stays 0. */
  function HighEdgeAsWritten(thisMax: real, otherMax: real): real
  {
    if otherMax < thisMax then otherMax
    else if otherMax > thisMax then thisMax
    else 0.0
  }

  /** `a.Intersection(b)` as written: `Zero` when the rectangles do not
      intersect, otherwise the rectangle between the edges above. An
      argument lying strictly inside the receiver comes back unchanged. */
  function IntersectionAsWritten(a: Rect, b: Rect): (r: Rect)
    ensures !IntersectsRect(a, b) ==> r == ZeroRect
    ensures (MinX(a) < MinX(b) < MaxX(a) && MinX(a) < MaxX(b) < MaxX(a) &&
             MinY(a) < MinY(b) < MaxY(a) && MinY(a) < MaxY(b) < MaxY(a)) ==> r == b
  {
    if !IntersectsRect(a, b) then ZeroRect
    else
      var minx := LowEdgeAsWritten(MinX(a), MaxX(a), MinX(b));
      var maxx := HighEdgeAsWritten(MaxX(a), MaxX(b));
      var miny := LowEdgeAsWritten(MinY(a), MaxY(a), MinY(b));
      var maxy := HighEdgeAsWritten(MaxY(a), MaxY(b));
      RectOf(minx, miny, maxx - minx, maxy - miny)
  }

  /** The intersection the source's diagram describes: the larger of the
      lower edges and the smaller of the upper edges. */
  function Intersection(a: Rect, b: Rect): (r: Rect)
    ensures !IntersectsRect(a, b) ==> r == ZeroRect
    ensures IntersectsRect(a, b) ==>
      MinX(r) == Max(MinX(a), MinX(b)) && MaxX(r) == Min(MaxX(a), MaxX(b)) &&
      MinY(r) == Max(MinY(a), MinY(b)) && MaxY(r) == Min(MaxY(a), MaxY(b))
  {
    if !IntersectsRect(a, b) then ZeroRect
    else
      var minx := Max(MinX(a), MinX(b));
      var maxx := Min(MaxX(a), MaxX(b));
      var miny := Max(MinY(a), MinY(b));
      var maxy := Min(MaxY(a), MaxY(b));
      RectOf(minx, miny, maxx - minx, maxy - miny)
  }

  /** For intersecting proper rectangles the intersection is proper,
      contains exactly the common points, is symmetric, and a rectangle
      intersected with itself is itself. */
  lemma {:induction false} IntersectionContainsCommonPoints(a: Rect, b: Rect, p: Point)
    requires Proper(a) && Proper(b) && IntersectsRect(a, b)
    ensures Proper(Intersection(a, b))
    ensures ContainsPoint(Intersection(a, b), p) <==> ContainsPoint(a, p) && ContainsPoint(b, p)
    ensures Intersection(a, b) == Intersection(b, a)
    ensures Intersection(a, a) == a
  {
  }

  /** Where no edge of the argument coincides with the receiver's upper
      edge, the code as written computes the intended intersection. */
  lemma {:induction false} IntersectionAgreesAwayFromSharedEdges(a: Rect, b: Rect)
    requires Proper(a) && Proper(b)
    requires MaxX(b) != MaxX(a) && MinX(b) != MaxX(a)
    requires MaxY(b) != MaxY(a) && MinY(b) != MaxY(a)
    ensures IntersectionAsWritten(a, b) == Intersection(a, b)
  {
  }

  /** A rectangle intersected with itself, as written, loses its upper
      edges: the unit square at (1, 1) comes back with size (-1, -1). */
  lemma {:induction false} IntersectionSelfCounterexample()
    ensures var r := RectOf(1.0, 1.0, 1.0, 1.0);
      IntersectionAsWritten(r, r) == RectOf(1.0, 1.0, -1.0, -1.0) &&
      Intersection(r, r) == r
  {
  }
}

=== FILE: scene.dfy ===
/** The scene graph of liwq/source/Node.cs. Nodes live in an arena, a map
    from references to node records; a node's `Children` list is `None`
    until the first child is added. Sprites (liwq/source/Sprite.cs) are
    nodes whose `sprite` field holds their texture state.

    `Dispose` and `Draw` recurse over the child lists. The source places no
    restriction on the child graph (a node can be added to its own
    descendant), and on a cyclic graph both recursions overflow the stack;
    the model asks for a `Ranked` arena, in which every child ranks below
    its parent, so that they terminate. */
module Scene {
  import opened Base
  import opened Geometry
  import opened Sprites

  type Ref = nat

  /** A node's fields: the ones the child-list operations touch, and its
      placement and texture state, which only drawing reads. */
  datatype NodeRec = NodeRec(
    id: int,
    parent: Option<Ref>,
    visible: bool,
    zOrder: int,
    children: Option<seq<Ref>>,
    look: Look)

  datatype Look = Look(
    positionX: real,
    positionY: real,
    scaleX: real,
    scaleY: real,
    rotation: real,
    anchorPoint: Point,
    contentSize: Size,
    sprite: Option<SpriteProps>)

  type Arena = map<Ref, NodeRec>

  /** `new Node()` (and the node part of `new Sprite(...)`): scale 1 on both
      axes, visible, everything else at its default. */
  function NewNode(sprite: Option<SpriteProps>): (n: NodeRec)
    ensures n.look.scaleX == 1.0 && n.look.scaleY == 1.0 && n.visible
    ensures n.parent == None && n.children == None && n.id == 0 && n.zOrder == 0
    ensures n.look.positionX == 0.0 && n.look.positionY == 0.0 && n.look.rotation == 0.0
    ensures n.look.sprite == sprite
  {
    NodeRec(0, None, true, 0, None, Look(0.0, 0.0, 1.0, 1.0, 0.0, ZeroPoint, ZeroSize, sprite))
  }

  /** The children as a list; a list never created reads as empty. */
  function Kids(n: NodeRec): seq<Ref>
  {
    if n.children.Some? then n.children.value else []
  }

  /** Every reference stored in the arena points into it. */
  ghost predicate Closed(a: Arena)
  {
    forall r :: r in a ==>
      (a[r].parent.Some? ==> a[r].parent.value in a) &&
      (forall c :: c in Kids(a[r]) ==> c in a)
  }

  /** `rank` strictly decreases from every node to each of its children. */
  ghost predicate Ranked(a: Arena, rank: map<Ref, nat>)
  {
    forall r :: r in a ==>
      r in rank && forall c :: c in Kids(a[r]) ==> c in a && c in rank && rank[c] < rank[r]
  }

  /** The `ZOrder` of a node, 0 for a reference outside the arena. */
  function Z(a: Arena, r: Ref): int
  {
    if r in a then a[r].zOrder else 0
  }

  /** A child list is ordered by non-decreasing `ZOrder`. */
  ghost predicate Sorted(a: Arena, s: seq<Ref>)
  {
    forall i, j :: 0 <= i < j < |s| ==> Z(a, s[i]) <= Z(a, s[j])
  }

  ghost predicate NoDup(s: seq<Ref>)
  {
    forall i, j :: 0 <= i < j < |s| ==> s[i] != s[j]
  }

  // ---------------------------------------------------------------------
  // Position and scale

  /** The `Position` setter. */
  function SetPosition(n: NodeRec, p: Point): NodeRec
  {
    n.(look := n.look.(positionX := p.x, positionY := p.y))
  }

  /** The `Position` getter. */
  function Position(n: NodeRec): Point { Point(n.look.positionX, n.look.positionY) }

  /** The `Scale` setter: both axes. */
  function SetScale(n: NodeRec, s: real): NodeRec
  {
    n.(look := n.look.(scaleX := s, scaleY := s))
  }

  /** The `Scale` getter reads the X scale only. */
  function Scale(n: NodeRec): real { n.look.scaleX }

  /** Reading back a setter gives the value set, setting what was read
      changes nothing, and the last of two sets wins. */
  lemma {:induction false} AccessorRoundTrips(n: NodeRec, p: Point, q: Point, s: real, t: real)
    ensures Position(SetPosition(n, p)) == p
    ensures SetPosition(n, Position(n)) == n
    ensures SetPosition(SetPosition(n, p), q) == SetPosition(n, q)
    ensures Scale(SetScale(n, s)) == s && SetScale(n, s).look.scaleY == s
    ensures SetScale(SetScale(n, s), t) == SetScale(n, t)
    ensures n.look.scaleX == n.look.scaleY ==> SetScale(n, Scale(n)) == n
  {
  }

  // ---------------------------------------------------------------------
  // Lookup by id

  /** The indexer `this[id]`: the first child, in list order, with that
      `ID`; null when none matches or the list was never created. */
  method ChildById(a: Arena, p: Ref, id: int) returns (r: Option<Ref>)
    requires p in a && Closed(a)
    ensures r.Some? ==>
      exists i :: 0 <= i < |Kids(a[p])| && Kids(a[p])[i] == r.value &&
        a[r.value].id == id && forall j :: 0 <= j < i ==> a[Kids(a[p])[j]].id != id
    ensures r.None? <==> forall c :: c in Kids(a[p]) ==> a[c].id != id
  {
    if a[p].children.None? {
      return None;
    }
    var cs := a[p].children.value;
    var i := 0;
    while i < |cs|
      invariant 0 <= i <= |cs|
      invariant forall j :: 0 <= j < i ==> a[cs[j]].id != id
    {
      if a[cs[i]].id == id {
        return Some(cs[i]);
      }
      i := i + 1;
    }
    return None;
  }

  // ---------------------------------------------------------------------
  // Insertion

  /** The index of the first child whose `ZOrder` exceeds `z`, or the
      length when there is none: the loop in `internalAddChild`. */
  function FirstAbove(a: Arena, s: seq<Ref>, z: int): (k: nat)
    ensures k <= |s|
    ensures forall i :: 0 <= i < k ==> Z(a, s[i]) <= z
    ensures k < |s| ==> Z(a, s[k]) > z
  {
    if |s| == 0 then 0
    else if Z(a, s[0]) > z then 0
    else 1 + FirstAbove(a, s[1..], z)
  }

  /** Where `internalAddChild` puts a child of order `z`: at the end when
      the list is empty or its last child's order is at most `z`,
      otherwise before the first child of higher order. */
  function InsertIndex(a: Arena, s: seq<Ref>, z: int): (k: nat)
    ensures k <= |s|
    ensures forall i :: 0 <= i < k ==> Z(a, s[i]) <= z || !Sorted(a, s)
    ensures Sorted(a, s) ==> forall i :: k <= i < |s| ==> Z(a, s[i]) > z
  {
    if |s| == 0 || Z(a, s[|s| - 1]) <= z then
      |s|
    else
      FirstAbove(a, s, z)
  }

  function Insert(s: seq<Ref>, k: nat, x: Ref): (r: seq<Ref>)
    requires k <= |s|
    ensures |r| == |s| + 1 && r[k] == x
    ensures r[..k] == s[..k] && r[k + 1..] == s[k..]
  {
    s[..k] + [x] + s[k..]
  }

  /** `internalAddChild(node, zOrder)`: creates the list if needed, inserts
      the node at `InsertIndex`, then sets the node's `ZOrder`. */
  function InternalAddChild(a: Arena, p: Ref, c: Ref, z: int): (b: Arena)
    requires p in a && c in a
    ensures b.Keys == a.Keys
    ensures Kids(b[p]) == Insert(Kids(a[p]), InsertIndex(a, Kids(a[p]), z), c)
    ensures b[c].zOrder == z
    ensures forall r :: r in a ==> b[r] == a[r].(children := b[r].children, zOrder := b[r].zOrder)
    ensures forall r :: r in a && r != p ==> b[r].children == a[r].children
    ensures forall r :: r in a && r != c ==> b[r].zOrder == a[r].zOrder
    ensures forall r :: r in a && r != p && r != c ==> b[r] == a[r]
  {
    var s := Kids(a[p]);
    var k := InsertIndex(a, s, z);
    var a1 := a[p := a[p].(children := Some(Insert(s, k, c)))];
    a1[c := a1[c].(zOrder := z)]
  }

  /** The insertion is stable: on a sorted list holding no copy of `c`, the
      new child comes after every child of order at most `z` and before
      every child of higher order, the others keep their relative order,
      and the list stays sorted. */
  lemma {:induction false} InsertKeepsSorted(a: Arena, p: Ref, c: Ref, z: int)
    requires p in a && c in a
    requires Sorted(a, Kids(a[p])) && c !in Kids(a[p])
    ensures var b := InternalAddChild(a, p, c, z);
      var k := InsertIndex(a, Kids(a[p]), z);
      Sorted(b, Kids(b[p])) &&
      (forall i :: 0 <= i < k ==> Z(b, Kids(b[p])[i]) <= z) &&
      (forall i :: k < i < |Kids(b[p])| ==> Z(b, Kids(b[p])[i]) > z) &&
      Kids(b[p])[..k] + Kids(b[p])[k + 1..] == Kids(a[p])
  {
    var b := InternalAddChild(a, p, c, z);
    var s := Kids(a[p]);
    ZKept(a, b, s, c);
    InsertSortedSeq(a, b, s, InsertIndex(a, s, z), c, z);
  }

  /** Orders of listed nodes other than `c` carry over to `b`. */
  lemma {:induction false} ZKept(a: Arena, b: Arena, s: seq<Ref>, c: Ref)
    requires b.Keys == a.Keys && c !in s
    requires forall r :: r in a && r != c ==> b[r].zOrder == a[r].zOrder
    ensures forall i :: 0 <= i < |s| ==> Z(b, s[i]) == Z(a, s[i])
  {
  }

  /** The list part of `InsertKeepsSorted`, for a child of order `z` in
      `b` inserted at a split point of a sorted list. */
  lemma {:induction false} InsertSortedSeq(a: Arena, b: Arena, s: seq<Ref>, k: nat, c: Ref, z: int)
    requires k <= |s| && Sorted(a, s) && Z(b, c) == z
    requires forall i :: 0 <= i < |s| ==> Z(b, s[i]) == Z(a, s[i])
    requires forall i :: 0 <= i < k ==> Z(a, s[i]) <= z
    requires forall i :: k <= i < |s| ==> Z(a, s[i]) > z
    ensures var t := Insert(s, k, c);
      Sorted(b, t) &&
      (forall i :: 0 <= i < k ==> Z(b, t[i]) <= z) &&
      (forall i :: k < i < |t| ==> Z(b, t[i]) > z) &&
      t[..k] + t[k + 1..] == s
  {
    SortedTransfer(a, b, s);
    InsertAtSorted(b, s, k, c);
    assert s[..k] + s[k..] == s;
  }

  /** Sortedness depends only on the orders of the listed nodes. */
  lemma {:induction false} SortedTransfer(a: Arena, b: Arena, s: seq<Ref>)
    requires forall i :: 0 <= i < |s| ==> Z(b, s[i]) == Z(a, s[i])
    ensures Sorted(a, s) ==> Sorted(b, s)
  {
  }

  /** Inserting after every smaller-or-equal order and before every larger
      one keeps a list sorted. */
  lemma {:induction false} InsertAtSorted(b: Arena, s: seq<Ref>, k: nat, c: Ref)
    requires k <= |s| && Sorted(b, s)
    requires forall i :: 0 <= i < k ==> Z(b, s[i]) <= Z(b, c)
    requires forall i :: k <= i < |s| ==> Z(b, s[i]) > Z(b, c)
    ensures Sorted(b, s[..k] + [c] + s[k..])
    ensures forall i :: 0 <= i < k ==> Z(b, (s[..k] + [c] + s[k..])[i]) <= Z(b, c)
    ensures forall i :: k < i <= |s| ==> Z(b, (s[..k] + [c] + s[k..])[i]) > Z(b, c)
  {
    var t := s[..k] + [c] + s[k..];
    assert forall i :: 0 <= i < |t| ==> t[i] == (if i < k then s[i] else if i == k then c else s[i - 1]);
  }

  /** `AddChild(child, zOrder, id)`: throws when the child already has a
      parent, changing nothing; otherwise inserts it, then sets its `ID`
      and makes this node its parent. */
  function AddChild(a: Arena, p: Ref, c: Ref, z: int, id: int): (r: Outcome<Arena, ()>)
    requires p in a && c in a
    ensures a[c].parent.Some? <==> r.Threw?
    ensures r.Threw? ==> r == Threw(a, AlreadyAdded)
    ensures r.Returned? ==> r.state.Keys == a.Keys
    ensures r.Returned? ==>
      var b := r.state;
      b[c].parent == Some(p) && b[c].zOrder == z && b[c].id == id &&
      Kids(b[p]) == Insert(Kids(a[p]), InsertIndex(a, Kids(a[p]), z), c) &&
      multiset(Kids(b[p])) == multiset(Kids(a[p])) + multiset{c}
    ensures r.Returned? ==> forall q :: q in a && q != p && q != c ==> r.state[q] == a[q]
    ensures r.Returned? ==>
      r.state[c] == a[c].(parent := Some(p), zOrder := z, id := id, children := r.state[c].children)
    ensures r.Returned? && p != c ==>
      r.state[c].children == a[c].children && r.state[p] == a[p].(children := r.state[p].children)
  {
    if a[c].parent.Some? then
      Threw(a, AlreadyAdded)
    else
      var a1 := InternalAddChild(a, p, c, z);
      var s := Kids(a[p]);
      InsertMultiset(s, InsertIndex(a, s, z), c);
      var b := a1[c := a1[c].(id := id, parent := Some(p))];
      assert forall q :: q in a && q != p && q != c ==> b[q] == a1[q] == a[q];
      Returned(b, ())
  }

  lemma {:induction false} InsertMultiset(s: seq<Ref>, k: nat, c: Ref)
    requires k <= |s|
    ensures multiset(Insert(s, k, c)) == multiset(s) + multiset{c}
  {
    assert s == s[..k] + s[k..];
  }

  /** Adding keeps the arena closed. */
  lemma {:induction false} AddChildKeepsClosed(a: Arena, p: Ref, c: Ref, z: int, id: int)
    requires p in a && c in a && Closed(a)
    ensures Closed(AddChild(a, p, c, z, id).state)
  {
    if a[c].parent.None? {
      var a1 := InternalAddChild(a, p, c, z);
      var b := a1[c := a1[c].(id := id, parent := Some(p))];
      assert AddChild(a, p, c, z, id).state == b;
      var s := Kids(a[p]);
      var k := InsertIndex(a, s, z);
      forall q | q in b
        ensures b[q].parent.Some? ==> b[q].parent.value in b
        ensures forall x :: x in Kids(b[q]) ==> x in b
      {
        assert Kids(b[q]) == Kids(a1[q]);
        if q == p {
          InsertMembers(s, k, c);
        } else {
          assert Kids(a1[q]) == Kids(a[q]);
        }
        if q != c {
          assert b[q].parent == a[q].parent;
        }
      }
    }
  }

  lemma {:induction false} InsertMembers(s: seq<Ref>, k: nat, c: Ref)
    requires k <= |s|
    ensures forall x :: x in Insert(s, k, c) <==> x in s || x == c
  {
    assert s == s[..k] + s[k..];
  }

  // ---------------------------------------------------------------------
  // Removal

  /** The index of the first occurrence of `x`. */
  function FirstIndex(s: seq<Ref>, x: Ref): (k: nat)
    requires x in s
    ensures k < |s| && s[k] == x
    ensures forall j :: 0 <= j < k ==> s[j] != x
  {
    if s[0] == x then 0 else 1 + FirstIndex(s[1..], x)
  }

  /** `List.Remove(x)`: drops the first occurrence, if any. */
  function RemoveFirst(s: seq<Ref>, x: Ref): (r: seq<Ref>)
    ensures x !in s ==> r == s
    ensures x in s ==> r == s[..FirstIndex(s, x)] + s[FirstIndex(s, x) + 1..]
    ensures multiset(r) == multiset(s) - multiset{x}
    ensures forall y :: y in r ==> y in s
  {
    if x in s then
      var k := FirstIndex(s, x);
      RemoveAtMultiset(s, k);
      assert forall y :: y in s[..k] + s[k + 1..] ==> y in s[..k] || y in s[k + 1..];
      s[..k] + s[k + 1..]
    else
      s
  }

  lemma {:induction false} RemoveAtMultiset(s: seq<Ref>, k: nat)
    requires k < |s|
    ensures multiset(s[..k] + s[k + 1..]) == multiset(s) - multiset{s[k]}
  {
    assert s == s[..k] + [s[k]] + s[k + 1..];
  }

  /** Removing an element keeps a sorted list sorted, and removes the only
      copy from a list without duplicates. */
  lemma {:induction false} RemoveKeepsSorted(a: Arena, s: seq<Ref>, x: Ref)
    requires Sorted(a, s)
    ensures Sorted(a, RemoveFirst(s, x))
    ensures NoDup(s) ==> x !in RemoveFirst(s, x) && NoDup(RemoveFirst(s, x))
  {
    if x in s {
      var k := FirstIndex(s, x);
      RemoveAtKeeps(a, s, k);
      assert RemoveFirst(s, x) == s[..k] + s[k + 1..];
    }
  }

  lemma {:induction false} RemoveAtKeeps(a: Arena, s: seq<Ref>, k: nat)
    requires k < |s|
    ensures Sorted(a, s) ==> Sorted(a, s[..k] + s[k + 1..])
    ensures NoDup(s) ==> s[k] !in s[..k] + s[k + 1..] && NoDup(s[..k] + s[k + 1..])
  {
    var r := s[..k] + s[k + 1..];
    assert forall i :: 0 <= i < |r| ==> r[i] == s[Skip(i, k)];
  }

  /** Where position `i` of a list with position `k` removed came from. */
  function Skip(i: nat, k: nat): nat { if i < k then i else i + 1 }

  /** `Dispose` on node `n`: every node below it gets a null parent. The
      child lists themselves, this node's included, are left as they
      were. */
  function DisposeNode(a: Arena, n: Ref, ghost rank: map<Ref, nat>): (b: Arena)
    requires n in a && Ranked(a, rank)
    ensures b.Keys == a.Keys
    ensures forall r :: r in a ==> b[r] == a[r].(parent := b[r].parent)
    ensures forall r :: r in a ==> b[r].parent == (if r in Desc(a, n, rank) then None else a[r].parent)
    decreases rank[n], 1, 0
  {
    DisposeKids(a, Kids(a[n]), rank, rank[n])
  }

  /** The `foreach` of `Dispose`: for each child in turn, null its parent
      and dispose it. */
  function DisposeKids(a: Arena, cs: seq<Ref>, ghost rank: map<Ref, nat>, ghost bound: nat): (b: Arena)
    requires Ranked(a, rank)
    requires forall c :: c in cs ==> c in a && rank[c] < bound
    ensures b.Keys == a.Keys
    ensures forall r :: r in a ==> b[r] == a[r].(parent := b[r].parent)
    ensures forall r :: r in a ==> b[r].parent == (if r in DescOf(a, cs, rank, bound) then None else a[r].parent)
    decreases bound, 0, |cs|
  {
    if cs == [] then a
    else
      var c := cs[0];
      var a1 := a[c := a[c].(parent := None)];
      RankedAfterParentChange(a, a1, rank);
      DescSameShape(a, a1, c, rank);
      var a2 := DisposeNode(a1, c, rank);
      RankedAfterParentChange(a1, a2, rank);
      DescOfSameShape(a, a2, cs[1..], rank, bound);
      var b := DisposeKids(a2, cs[1..], rank, bound);
      ParentsCompose(a, a1, a2, b, c, Desc(a, c, rank), DescOf(a, cs[1..], rank, bound));
      b
  }

  /** Nulling `c`'s parent, then the parents in `d1`, then those in `d2`,
      nulls the parents in their union and changes nothing else. */
  lemma {:induction false} ParentsCompose(a: Arena, a1: Arena, a2: Arena, b: Arena, c: Ref, d1: set<Ref>, d2: set<Ref>)
    requires c in a && a1 == a[c := a[c].(parent := None)]
    requires a2.Keys == a1.Keys
    requires forall r :: r in a1 ==> a2[r] == a1[r].(parent := a2[r].parent)
    requires forall r :: r in a1 ==> a2[r].parent == (if r in d1 then None else a1[r].parent)
    requires b.Keys == a2.Keys
    requires forall r :: r in a2 ==> b[r] == a2[r].(parent := b[r].parent)
    requires forall r :: r in a2 ==> b[r].parent == (if r in d2 then None else a2[r].parent)
    ensures b.Keys == a.Keys
    ensures forall r :: r in a ==> b[r] == a[r].(parent := b[r].parent)
    ensures forall r :: r in a ==> b[r].parent == (if r in {c} + d1 + d2 then None else a[r].parent)
  {
  }

  /** The nodes strictly below `n`. */
  ghost function Desc(a: Arena, n: Ref, rank: map<Ref, nat>): set<Ref>
    requires n in a && Ranked(a, rank)
    decreases rank[n], 1, 0
  {
    DescOf(a, Kids(a[n]), rank, rank[n])
  }

  /** The nodes in `cs` and below them. */
  ghost function DescOf(a: Arena, cs: seq<Ref>, rank: map<Ref, nat>, bound: nat): set<Ref>
    requires Ranked(a, rank)
    requires forall c :: c in cs ==> c in a && rank[c] < bound
    decreases bound, 0, |cs|
  {
    if cs == [] then {} else {cs[0]} + Desc(a, cs[0], rank) + DescOf(a, cs[1..], rank, bound)
  }

  /** Changing parent fields only keeps the ranking. */
  lemma {:induction false} RankedAfterParentChange(a: Arena, b: Arena, rank: map<Ref, nat>)
    requires Ranked(a, rank)
    requires b.Keys == a.Keys && forall r :: r in a ==> Kids(b[r]) == Kids(a[r])
    ensures Ranked(b, rank)
  {
  }

  /** The nodes below `n` depend only on the child lists. */
  lemma {:induction false} DescSameShape(a: Arena, b: Arena, n: Ref, rank: map<Ref, nat>)
    requires n in a && Ranked(a, rank) && Ranked(b, rank)
    requires b.Keys == a.Keys && forall r :: r in a ==> Kids(b[r]) == Kids(a[r])
    ensures Desc(b, n, rank) == Desc(a, n, rank)
    decreases rank[n], 1, 0
  {
    DescOfSameShape(a, b, Kids(a[n]), rank, rank[n]);
  }

  lemma {:induction false} DescOfSameShape(a: Arena, b: Arena, cs: seq<Ref>, rank: map<Ref, nat>, bound: nat)
    requires Ranked(a, rank) && Ranked(b, rank)
    requires forall c :: c in cs ==> c in a && rank[c] < bound
    requires b.Keys == a.Keys && forall r :: r in a ==> Kids(b[r]) == Kids(a[r])
    ensures DescOf(b, cs, rank, bound) == DescOf(a, cs, rank, bound)
    decreases bound, 0, |cs|
  {
    if cs != [] {
      DescSameShape(a, b, cs[0], rank);
      DescOfSameShape(a, b, cs[1..], rank, bound);
    }
  }

  /** Every node below `n` ranks below it; in particular `n` is not below
      itself. */
  lemma {:induction false} DescRankBelow(a: Arena, n: Ref, rank: map<Ref, nat>)
    requires n in a && Ranked(a, rank)
    ensures forall r :: r in Desc(a, n, rank) ==> r in a && r in rank && rank[r] < rank[n]
    ensures n !in Desc(a, n, rank)
    decreases rank[n], 1, 0
  {
    DescOfRankBelow(a, Kids(a[n]), rank, rank[n]);
  }

  lemma {:induction false} DescOfRankBelow(a: Arena, cs: seq<Ref>, rank: map<Ref, nat>, bound: nat)
    requires Ranked(a, rank)
    requires forall c :: c in cs ==> c in a && rank[c] < bound
    ensures forall r :: r in DescOf(a, cs, rank, bound) ==> r in a && r in rank && rank[r] < bound
    decreases bound, 0, |cs|
  {
    if cs != [] {
      DescRankBelow(a, cs[0], rank);
      DescOfRankBelow(a, cs[1..], rank, bound);
    }
  }

  /** Disposing twice is the same as disposing once, and disposing leaves
      the node's own parent and every child list alone. */
  lemma {:induction false} DisposeIdempotent(a: Arena, n: Ref, rank: map<Ref, nat>)
    requires n in a && Ranked(a, rank)
    ensures var b := DisposeNode(a, n, rank);
      Ranked(b, rank) && DisposeNode(b, n, rank) == b &&
      b[n].parent == a[n].parent &&
      forall r :: r in a ==> b[r].children == a[r].children
  {
    var b := DisposeNode(a, n, rank);
    RankedAfterParentChange(a, b, rank);
    DescSameShape(a, b, n, rank);
    DescRankBelow(a, n, rank);
    var c := DisposeNode(b, n, rank);
    assert forall r :: r in b ==> c[r] == b[r];
  }

  /** `internalRemoveChild(child, dispose)` (also `RemoveChild`): the
      child's parent is nulled, the child is disposed when asked, and then
      its first occurrence leaves the list; a list never created throws
      after the first two steps. */
  function RemoveChild(a: Arena, p: Ref, c: Ref, dispose: bool, ghost rank: map<Ref, nat>): (r: Outcome<Arena, ()>)
    requires p in a && c in a && Ranked(a, rank)
    ensures r.state.Keys == a.Keys
    ensures r.state[c].parent == None
    ensures r.Threw? <==> a[p].children.None?
    ensures r.Threw? ==> r.error == NullReference
    ensures r.Returned? ==> r.state[p].children == Some(RemoveFirst(Kids(a[p]), c))
    ensures forall q :: q in a ==> r.state[q].parent == None || r.state[q].parent == a[q].parent
    ensures forall q :: q in a ==>
      r.state[q] == a[q].(parent := r.state[q].parent,
                          children := if q == p then r.state[q].children else a[q].children)
    ensures Ranked(r.state, rank)
  {
    var a2 := Detach(a, c, dispose, rank);
    if a2[p].children.None? then
      Threw(a2, NullReference)
    else
      RankedAfterDrop(a2, p, c, rank);
      Returned(DropFromList(a2, p, c), ())
  }

  /** The last step of `internalRemoveChild`: `Children.Remove(child)` on a
      list that exists. */
  function DropFromList(a: Arena, p: Ref, c: Ref): (b: Arena)
    requires p in a && a[p].children.Some?
    ensures b.Keys == a.Keys
    ensures b[p].children == Some(RemoveFirst(Kids(a[p]), c))
    ensures forall q :: q in a ==> b[q].parent == a[q].parent && b[q].zOrder == a[q].zOrder
    ensures forall q :: q in a && q != p ==> b[q] == a[q]
    ensures b[p] == a[p].(children := b[p].children)
  {
    a[p := a[p].(children := Some(RemoveFirst(Kids(a[p]), c)))]
  }

  lemma {:induction false} RankedAfterDrop(a: Arena, p: Ref, c: Ref, rank: map<Ref, nat>)
    requires p in a && a[p].children.Some? && Ranked(a, rank)
    ensures Ranked(DropFromList(a, p, c), rank)
  {
    RankedAfterShrink(a, DropFromList(a, p, c), p, RemoveFirst(Kids(a[p]), c), rank);
  }

  /** What `RemoveChild` does to the other nodes: without disposal nothing;
      with disposal, the nodes below the child lose their parent. Either
      way only parent links change outside the parent's record. */
  lemma {:induction false} RemoveChildEffects(a: Arena, p: Ref, c: Ref, dispose: bool, rank: map<Ref, nat>)
    requires p in a && c in a && Ranked(a, rank)
    ensures var r := RemoveChild(a, p, c, dispose, rank);
      forall q :: q in a ==>
        r.state[q] == a[q].(parent := r.state[q].parent,
                            children := if q == p then r.state[q].children else a[q].children)
    ensures var r := RemoveChild(a, p, c, dispose, rank);
      !dispose ==> forall q :: q in a && q != p && q != c ==> r.state[q] == a[q]
    ensures var r := RemoveChild(a, p, c, dispose, rank);
      dispose ==> forall q :: q in a && q != c ==>
        r.state[q].parent == (if q in Desc(a, c, rank) then None else a[q].parent)
  {
  }

  /** Dropping entries from one child list keeps the ranking. */
  lemma {:induction false} RankedAfterShrink(a: Arena, b: Arena, p: Ref, t: seq<Ref>, rank: map<Ref, nat>)
    requires p in a && Ranked(a, rank)
    requires b == a[p := a[p].(children := Some(t))]
    requires forall x :: x in t ==> x in Kids(a[p])
    ensures Ranked(b, rank)
  {
    assert Kids(b[p]) == t;
  }

  /** The first two steps of `internalRemoveChild`: null the child's parent,
      then dispose the child if asked. */
  function Detach(a: Arena, c: Ref, dispose: bool, ghost rank: map<Ref, nat>): (b: Arena)
    requires c in a && Ranked(a, rank)
    ensures b.Keys == a.Keys && Ranked(b, rank)
    ensures forall q :: q in a ==> b[q] == a[q].(parent := b[q].parent)
    ensures b[c].parent == None
    ensures forall q :: q in a ==> b[q].parent == None || b[q].parent == a[q].parent
    ensures !dispose ==> forall q :: q in a && q != c ==> b[q] == a[q]
    ensures dispose ==> forall q :: q in a && q != c ==>
      b[q].parent == (if q in Desc(a, c, rank) then None else a[q].parent)
  {
    var a1 := a[c := a[c].(parent := None)];
    RankedAfterParentChange(a, a1, rank);
    if dispose then
      DetachDisposed(a, c, rank);
      DetachDisposedParents(a, c, rank);
      DisposeNode(a1, c, rank)
    else
      a1
  }

  /** The disposing branch of `Detach`: after the child's parent is
      nulled, disposing it changes parents only and keeps the ranking. */
  lemma {:induction false} DetachDisposed(a: Arena, c: Ref, rank: map<Ref, nat>)
    requires c in a && Ranked(a, rank)
    ensures var a1 := a[c := a[c].(parent := None)];
      Ranked(a1, rank) &&
      var b := DisposeNode(a1, c, rank);
      b.Keys == a.Keys && Ranked(b, rank) &&
      (forall q :: q in a ==> b[q] == a[q].(parent := b[q].parent))
  {
    var a1 := a[c := a[c].(parent := None)];
    RankedAfterParentChange(a, a1, rank);
    var b := DisposeNode(a1, c, rank);
    RankedAfterParentChange(a1, b, rank);
  }

  /** The disposing branch of `Detach` nulls the parents of the child and
      of exactly the nodes below it. */
  lemma {:induction false} DetachDisposedParents(a: Arena, c: Ref, rank: map<Ref, nat>)
    requires c in a && Ranked(a, rank)
    ensures var a1 := a[c := a[c].(parent := None)];
      Ranked(a1, rank) &&
      var b := DisposeNode(a1, c, rank);
      b[c].parent == None &&
      (forall q :: q in a && q != c ==> b[q].parent == (if q in Desc(a, c, rank) then None else a[q].parent))
  {
    var a1 := a[c := a[c].(parent := None)];
    RankedAfterParentChange(a, a1, rank);
    DescSameShape(a, a1, c, rank);
    DescRankBelow(a1, c, rank);
  }

  /** `AddChild` and `RemoveChild` called with a child that may be null:
      the first thing either does is touch `child.Parent`, so a null child
      throws a null reference before anything changes. */
  function AddChildOrNull(a: Arena, p: Ref, c: Option<Ref>, z: int, id: int): (r: Outcome<Arena, ()>)
    requires p in a && (c.Some? ==> c.value in a)
    ensures c.None? <==> r == Threw(a, NullReference)
    ensures r.Threw? <==> c.None? || a[c.value].parent.Some?
    ensures r.state.Keys == a.Keys
    ensures r.Returned? ==>
      c.Some? && r.state[c.value].parent == Some(p) && r.state[c.value].zOrder == z &&
      c.value in Kids(r.state[p])
  {
    if c.None? then Threw(a, NullReference)
    else
      var r := AddChild(a, p, c.value, z, id);
      assert r.Returned? ==> Kids(r.state[p]) == Insert(Kids(a[p]), InsertIndex(a, Kids(a[p]), z), c.value);
      r
  }

  function RemoveChildOrNull(a: Arena, p: Ref, c: Option<Ref>, dispose: bool, ghost rank: map<Ref, nat>): (r: Outcome<Arena, ()>)
    requires p in a && (c.Some? ==> c.value in a) && Ranked(a, rank)
    ensures c.None? ==> r == Threw(a, NullReference)
    ensures r.Threw? <==> c.None? || a[p].children.None?
    ensures r.Threw? ==> r.error == NullReference
    ensures r.state.Keys == a.Keys
    ensures r.Returned? ==>
      c.Some? && r.state[c.value].parent == None &&
      r.state[p].children == Some(RemoveFirst(Kids(a[p]), c.value))
  {
    if c.None? then Threw(a, NullReference)
    else RemoveChild(a, p, c.value, dispose, rank)
  }

  /** `RemoveFromParent(dispose)`: a node without a parent throws. */
  function RemoveFromParent(a: Arena, n: Ref, dispose: bool, ghost rank: map<Ref, nat>): (r: Outcome<Arena, ()>)
    requires n in a && Closed(a) && Ranked(a, rank)
    ensures a[n].parent.None? ==> r == Threw(a, NullReference)
    ensures a[n].parent.Some? ==> r == RemoveChild(a, a[n].parent.value, n, dispose, rank)
  {
    if a[n].parent.None? then Threw(a, NullReference)
    else RemoveChild(a, a[n].parent.value, n, dispose, rank)
  }

  /** Removing a freshly added child undoes the addition on the parent's
      list and leaves the child without a parent. */
  lemma {:induction false} AddThenRemove(a: Arena, p: Ref, c: Ref, z: int, id: int, rank: map<Ref, nat>)
    requires p in a && c in a && Ranked(a, rank) && a[c].parent.None?
    requires c !in Kids(a[p])
    ensures var b := AddChild(a, p, c, z, id).state;
      Ranked(b, rank) ==>
        var r := RemoveChild(b, p, c, false, rank);
        r.Returned? && Kids(r.state[p]) == Kids(a[p]) && r.state[c].parent == None
  {
    var b := AddChild(a, p, c, z, id).state;
    if Ranked(b, rank) {
      var s := Kids(a[p]);
      RemoveInserted(s, InsertIndex(a, s, z), c);
    }
  }

  /** `List.Remove` undoes an insertion of an element not already listed. */
  lemma {:induction false} RemoveInserted(s: seq<Ref>, k: nat, c: Ref)
    requires k <= |s| && c !in s
    ensures RemoveFirst(Insert(s, k, c), c) == s
  {
    var t := Insert(s, k, c);
    assert t == s[..k] + [c] + s[k..];
    assert forall j :: 0 <= j < k ==> t[j] == s[j];
    var f := FirstIndex(t, c);
    assert f == k;
    assert t[..k] + t[k + 1..] == s[..k] + s[k..];
    assert s[..k] + s[k..] == s;
  }

  /** `ReorderChild(child, zOrder)`: `List.Remove` (throwing on a list never
      created), then `internalAddChild`. A child that was not in the list
      is added all the same. */
  function ReorderChild(a: Arena, p: Ref, c: Ref, z: int): (r: Outcome<Arena, ()>)
    requires p in a && c in a
    ensures r.Threw? <==> a[p].children.None?
    ensures r.Threw? ==> r == Threw(a, NullReference)
    ensures r.state.Keys == a.Keys
    ensures r.Returned? ==>
      var rest := RemoveFirst(Kids(a[p]), c);
      r.state[c].zOrder == z &&
      Kids(r.state[p]) == Insert(rest, InsertIndex(a, rest, z), c)
    ensures r.Returned? ==> forall q :: q in a && q != p && q != c ==> r.state[q] == a[q]
    ensures r.Returned? ==> r.state[c] == a[c].(zOrder := z, children := r.state[c].children)
    ensures r.Returned? && p != c ==>
      r.state[c].children == a[c].children && r.state[p] == a[p].(children := r.state[p].children)
  {
    if a[p].children.None? then Threw(a, NullReference)
    else
      var s := a[p].children.value;
      var rest := RemoveFirst(s, c);
      var a1 := DropFromList(a, p, c);
      assert forall r :: Z(a1, r) == Z(a, r);
      InsertIndexSameZ(a, a1, rest, z);
      var b := InternalAddChild(a1, p, c, z);
      assert forall q :: q in a && q != p && q != c ==> b[q] == a1[q];
      Returned(b, ())
  }

  /** Reordering a listed child permutes the list: the child is taken out
      once and put back once. */
  lemma {:induction false} ReorderPermutes(a: Arena, p: Ref, c: Ref, z: int)
    requires p in a && c in a && a[p].children.Some? && c in Kids(a[p])
    ensures var b := ReorderChild(a, p, c, z).state;
      multiset(Kids(b[p])) == multiset(Kids(a[p]))
  {
    var rest := RemoveFirst(Kids(a[p]), c);
    InsertMultiset(rest, InsertIndex(a, rest, z), c);
  }

  /** The insertion point depends only on the orders of the listed nodes. */
  lemma {:induction false} InsertIndexSameZ(a: Arena, b: Arena, s: seq<Ref>, z: int)
    requires forall r :: Z(b, r) == Z(a, r)
    ensures InsertIndex(b, s, z) == InsertIndex(a, s, z)
  {
    FirstAboveSameZ(a, b, s, z);
  }

  lemma {:induction false} FirstAboveSameZ(a: Arena, b: Arena, s: seq<Ref>, z: int)
    requires forall r :: Z(b, r) == Z(a, r)
    ensures FirstAbove(b, s, z) == FirstAbove(a, s, z)
  {
    if |s| > 0 {
      FirstAboveSameZ(a, b, s[1..], z);
    }
  }

  /** On a sorted list without duplicates that holds the child, reordering
      permutes the list, puts the child at its stable position for the new
      order, and keeps the list sorted. */
  lemma {:induction false} ReorderKeepsSorted(a: Arena, p: Ref, c: Ref, z: int)
    requires p in a && c in a
    requires a[p].children.Some? && Sorted(a, Kids(a[p])) && NoDup(Kids(a[p])) && c in Kids(a[p])
    ensures var b := ReorderChild(a, p, c, z).state;
      multiset(Kids(b[p])) == multiset(Kids(a[p])) && Sorted(b, Kids(b[p]))
  {
    var s := a[p].children.value;
    var rest := RemoveFirst(s, c);
    RemoveKeepsSorted(a, s, c);
    var a1 := DropFromList(a, p, c);
    assert forall i :: 0 <= i < |rest| ==> Z(a1, rest[i]) == Z(a, rest[i]);
    SortedTransfer(a, a1, rest);
    InsertKeepsSorted(a1, p, c, z);
    ReorderPermutes(a, p, c, z);
  }

  // ---------------------------------------------------------------------
  // Removing every child

  /** `RemoveAllChildren(dispose)` as written: a `foreach` over the list
      that removes from the same list. The first child is removed, then the
      enumerator sees the list changed and throws. */
  function RemoveAllChildrenAsWritten(a: Arena, p: Ref, dispose: bool, ghost rank: map<Ref, nat>): (r: Outcome<Arena, ()>)
    requires p in a && Ranked(a, rank)
    ensures r.state.Keys == a.Keys
    ensures |Kids(a[p])| == 0 ==> r == Returned(a, ())
    ensures |Kids(a[p])| > 0 ==> r.Threw? && r.error == CollectionModified
    ensures |Kids(a[p])| > 0 ==> Kids(r.state[p]) == Kids(a[p])[1..]
    ensures |Kids(a[p])| > 0 ==> r.state[Kids(a[p])[0]].parent == None
    ensures forall q :: q in a ==>
      r.state[q] == a[q].(parent := r.state[q].parent,
                          children := if q == p then r.state[q].children else a[q].children)
    ensures forall q :: q in a ==> r.state[q].parent == None || r.state[q].parent == a[q].parent
  {
    var s := Kids(a[p]);
    if |s| == 0 then Returned(a, ())
    else
      var first := RemoveChild(a, p, s[0], dispose, rank);
      Threw(first.state, CollectionModified)
  }

  /** A list of two children is left holding the second one. */
  lemma {:induction false} RemoveAllChildrenCounterexample(a: Arena, p: Ref, x: Ref, y: Ref, rank: map<Ref, nat>)
    requires p in a && x in a && y in a && Ranked(a, rank) && a[p].children == Some([x, y])
    ensures var r := RemoveAllChildrenAsWritten(a, p, false, rank);
      r.Threw? && Kids(r.state[p]) == [y]
  {
  }

  /** The evident intent of `RemoveAllChildren`: remove each child of the
      list as it was on entry, in order. */
  function RemoveAllChildren(a: Arena, p: Ref, dispose: bool, ghost rank: map<Ref, nat>): (r: Arena)
    requires p in a && Ranked(a, rank)
    ensures r.Keys == a.Keys && Ranked(r, rank)
    ensures a[p].children.None? ==> r == a
    ensures a[p].children.Some? ==> r[p].children == Some([])
    ensures forall c :: c in Kids(a[p]) ==> r[c].parent == None
    ensures forall q :: q in a ==>
      r[q] == a[q].(parent := r[q].parent, children := if q == p then r[q].children else a[q].children)
    ensures forall q :: q in a ==> r[q].parent == None || r[q].parent == a[q].parent
    ensures !dispose ==> forall q :: q in a && q != p && q !in Kids(a[p]) ==> r[q] == a[q]
  {
    if a[p].children.None? then a
    else
      var s := a[p].children.value;
      RemoveEach(a, p, s, dispose, rank)
  }

  /** Removes the children `cs` one after another from a list that holds
      them; when `cs` is the whole list, the list ends empty. */
  function RemoveEach(a: Arena, p: Ref, cs: seq<Ref>, dispose: bool, ghost rank: map<Ref, nat>): (r: Arena)
    requires p in a && Ranked(a, rank) && a[p].children.Some?
    requires forall c :: c in cs ==> c in a
    requires multiset(cs) <= multiset(Kids(a[p]))
    ensures r.Keys == a.Keys && Ranked(r, rank) && r[p].children.Some?
    ensures multiset(Kids(r[p])) == multiset(Kids(a[p])) - multiset(cs)
    ensures forall c :: c in cs ==> r[c].parent == None
    ensures forall q :: q in a && a[q].parent == None ==> r[q].parent == None
    ensures forall q :: q in a ==>
      r[q] == a[q].(parent := r[q].parent, children := if q == p then r[q].children else a[q].children)
    ensures forall q :: q in a ==> r[q].parent == None || r[q].parent == a[q].parent
    ensures !dispose ==> forall q :: q in a && q != p && q !in cs ==> r[q] == a[q]
    decreases |cs|
  {
    if cs == [] then a
    else
      var c := cs[0];
      var b := RemoveChild(a, p, c, dispose, rank).state;
      RemoveChildEffects(a, p, c, dispose, rank);
      MultisetStep(cs, Kids(a[p]), Kids(b[p]));
      RemoveEach(b, p, cs[1..], dispose, rank)
  }

  /** Taking the first element off both sides keeps the sub-multiset
      relation. */
  lemma {:induction false} MultisetStep(cs: seq<Ref>, s: seq<Ref>, t: seq<Ref>)
    requires cs != [] && multiset(cs) <= multiset(s)
    requires multiset(t) == multiset(s) - multiset{cs[0]}
    ensures multiset(cs[1..]) <= multiset(t)
    ensures multiset(t) - multiset(cs[1..]) == multiset(s) - multiset(cs)
  {
    assert cs == [cs[0]] + cs[1..];
    assert multiset(cs) == multiset{cs[0]} + multiset(cs[1..]);
  }
}

=== FILE: sizes.dfy ===
/** Size arithmetic (liwq/source/sturcts/Size.cs). */
module Sizes {
  import opened Base
  import opened Geometry

  /** `Clamp(max)`: each dimension is cut down to the corresponding
      dimension of `max`, never raised. */
  function Clamp(s: Size, max: Size): (r: Size)
    ensures r.width == Min(s.width, max.width)
    ensures r.height == Min(s.height, max.height)
  {
    Size(if s.width > max.width then max.width else s.width,
         if s.height > max.height then max.height else s.height)
  }

  /** Clamping is idempotent, never grows a dimension, and leaves a size
      that already fits unchanged. */
  lemma {:induction false} ClampFacts(s: Size, max: Size)
    ensures Clamp(Clamp(s, max), max) == Clamp(s, max)
    ensures Clamp(s, max).width <= s.width && Clamp(s, max).height <= s.height
    ensures Clamp(s, max).width <= max.width && Clamp(s, max).height <= max.height
    ensures s.width <= max.width && s.height <= max.height ==> Clamp(s, max) == s
  {
  }

  /** `Inverted`: width and height swapped. */
  function Inverted(s: Size): (r: Size)
    ensures r.width == s.height && r.height == s.width
  {
    Size(s.height, s.width)
  }

  lemma {:induction false} InvertedInvolution(s: Size)
    ensures Inverted(Inverted(s)) == s
    ensures Inverted(s) == s <==> s.width == s.height
  {
  }

  /** `Equal`, `Equals` and `==`: value equality. */
  function Equal(p: Size, q: Size): (r: bool)
    ensures r <==> p == q
  {
    p.width == q.width && p.height == q.height
  }

  /** `!=` is the negation of `Equals`. */
  function NotEqual(p: Size, q: Size): (r: bool)
    ensures r <==> p != q
  {
    !Equal(p, q)
  }

  /** `Center`: the point halfway along each dimension. */
  function Center(s: Size): (r: Point)
    ensures r.x * 2.0 == s.width && r.y * 2.0 == s.height
  {
    Point(s.width / 2.0, s.height / 2.0)
  }

  /** `AsRect`: a rectangle of this size at the origin. */
  function AsRect(s: Size): (r: Rect)
    ensures r.origin == ZeroPoint && r.size == s
  {
    RectOf(0.0, 0.0, s.width, s.height)
  }

  /** `size * f` */
  function Scale(s: Size, f: real): Size { Size(s.width * f, s.height * f) }

  /** `size / f`; a zero divisor gives IEEE infinities in the source, so the
      model asks for a non-zero divisor. */
  function Div(s: Size, f: real): (r: Size)
    requires f != 0.0
    ensures Scale(r, f) == s
  {
    Size(s.width / f, s.height / f)
  }

  /** `size + f` */
  function AddScalar(s: Size, f: real): Size { Size(s.width + f, s.height + f) }

  /** `size - f` */
  function SubScalar(s: Size, f: real): Size { Size(s.width - f, s.height - f) }

  /** `size + size` */
  function Add(p: Size, q: Size): Size { Size(p.width + q.width, p.height + q.height) }

  /** The scalar operators undo one another, the size sum is commutative,
      and adding a scalar equals adding the square size of that scalar. */
  lemma {:induction false} OperatorsInverse(s: Size, q: Size, f: real)
    ensures SubScalar(AddScalar(s, f), f) == s
    ensures AddScalar(SubScalar(s, f), f) == s
    ensures Add(s, q) == Add(q, s)
    ensures AddScalar(s, f) == Add(s, Size(f, f))
    ensures f != 0.0 ==> Div(Scale(s, f), f) == s
  {
    if f != 0.0 {
      var r := Div(Scale(s, f), f);
      assert Scale(r, f) == Scale(s, f);
      ScaleCancel(r.width, s.width, f);
      ScaleCancel(r.height, s.height, f);
    }
  }

  lemma {:induction false} ScaleCancel(a: real, b: real, f: real)
    requires f != 0.0 && a * f == b * f
    ensures a == b
  {
    assert (a - b) * f == 0.0;
  }

  /** The explicit conversion from a point. */
  function FromPoint(p: Point): (r: Size)
    ensures r.width == p.x && r.height == p.y
  {
    Size(p.x, p.y)
  }
}

=== FILE: sprite_factory.dfy ===
/** The shared sprite factory of liwq/source/SpriteFactory.cs: one cache of
    textures and one of template sprites, both keyed by name, from which
    new sprites are made. Only the texture state of a cached sprite is
    kept, since that is all `CreateSprite` reads from it. */
module SpriteFactories {
  import opened Base
  import opened Geometry
  import opened Textures
  import opened Sprites
  import opened Scene
  import Dictionaries

  type SpriteCache = map<string, Option<SpriteProps>>

  datatype SpriteFactory = SpriteFactory(textures: Cache, sprites: SpriteCache, disposed: set<Texture>)

  /** The store step shared by `AddTexture` and `AddSprite`: a name already
      present is an `ArgumentException` unless `overwrite` is set, in which
      case the old entry is removed (not disposed) before the add. */
  function Store<V>(m: map<string, V>, name: string, v: V, overwrite: bool): (r: Result<map<string, V>>)
    ensures r.Err? <==> name in m && !overwrite
    ensures r.Err? ==> r.error == Argument
    ensures r.Ok? ==> name in r.value && r.value[name] == v
    ensures r.Ok? ==> forall k :: k != name ==> (k in r.value <==> k in m)
    ensures r.Ok? ==> forall k :: k in r.value && k != name ==> r.value[k] == m[k]
  {
    if name in m && !overwrite then Err(Argument)
    else
      var (rest, _) := Dictionaries.Remove(m, name);
      var added := Dictionaries.Add(rest, name, v);
      assert added.Ok?;
      Ok(added.value)
  }

  /** `AddTexture(name, texture, overwrite)`. */
  function AddTexture(f: SpriteFactory, name: string, t: Option<Texture>, overwrite: bool): (r: Result<SpriteFactory>)
    ensures r.Err? <==> name in f.textures && !overwrite
    ensures r.Ok? ==> r.value == f.(textures := f.textures[name := t])
  {
    var m := Store(f.textures, name, t, overwrite);
    if m.Err? then Err(m.error)
    else
      assert m.value == f.textures[name := t];
      Ok(f.(textures := m.value))
  }

  /** `AddSprite(name, sprite, overwrite)`. */
  function AddSprite(f: SpriteFactory, name: string, s: Option<SpriteProps>, overwrite: bool): (r: Result<SpriteFactory>)
    ensures r.Err? <==> name in f.sprites && !overwrite
    ensures r.Ok? ==> r.value == f.(sprites := f.sprites[name := s])
  {
    var m := Store(f.sprites, name, s, overwrite);
    if m.Err? then Err(m.error)
    else
      assert m.value == f.sprites[name := s];
      Ok(f.(sprites := m.value))
  }

  /** `RemoveTexture(name)`: the same steps as the texture factory's
      `Remove`, on the texture cache; the sprite cache is not touched. */
  function RemoveTexture(f: SpriteFactory, name: string): (r: Outcome<SpriteFactory, bool>)
    ensures name !in r.state.textures && r.state.sprites == f.sprites
    ensures name !in f.textures ==> r == Returned(f, false)
    ensures r.Returned? ==> (r.value <==> name in f.textures)
    ensures r.Returned? && r.value ==>
      name in f.textures && f.textures[name].Some? &&
      r.state.textures == f.textures - {name} && r.state.disposed == f.disposed + {f.textures[name].value}
    ensures r.Threw? ==> name in f.textures && f.textures[name].None? && r.error == NullReference
  {
    match RemoveEntry(f.textures, f.disposed, name)
    case Returned((c, d), b) => Returned(f.(textures := c, disposed := d), b)
    case Threw((c, d), e) => Threw(f.(textures := c, disposed := d), e)
  }

  /** `RemoveSprite(name)`: a cached sprite is dropped, never disposed. */
  function RemoveSprite(f: SpriteFactory, name: string): (r: (SpriteFactory, bool))
    ensures r.1 <==> name in f.sprites
    ensures r.0 == f.(sprites := f.sprites - {name})
  {
    var (m, found) := Dictionaries.Remove(f.sprites, name);
    (f.(sprites := m), found)
  }

  /** `Sprite.Clone` on a cached sprite: a new, unattached node whose
      texture state is the clone of the template's. */
  function CloneSprite(p: SpriteProps): (n: NodeRec)
    ensures n.look.sprite == Some(Clone(p))
    ensures n.parent == None && n.children == None && n.visible
  {
    NewNode(Some(Clone(p)))
  }

  /** `CreateSprite(name)` and the indexer `this[name]`: a clone of the
      cached sprite of that name if there is one, otherwise a new sprite
      over the cached texture of that name, otherwise null. A null cache
      entry on the chosen path is a `NullReferenceException`. */
  function CreateSprite(f: SpriteFactory, name: string): (r: Result<Option<NodeRec>>)
    ensures name in f.sprites ==>
      (if f.sprites[name].Some? then r == Ok(Some(CloneSprite(f.sprites[name].value)))
       else r == Err(NullReference))
    ensures name !in f.sprites && name in f.textures ==>
      (r.Ok? <==> f.textures[name].Some?)
    ensures name !in f.sprites && name in f.textures && r.Ok? ==>
      r.value.Some? && r.value.value.look.sprite == Some(FromTexture(f.textures[name]).value)
    ensures name !in f.sprites && name !in f.textures ==> r == Ok(None)
    ensures r.Err? ==> r.error == NullReference
    ensures r.Ok? && r.value.Some? ==>
      var n := r.value.value;
      n.parent == None && n.children == None && n.look.sprite.Some? &&
      !n.look.sprite.value.flipX && !n.look.sprite.value.flipY
  {
    if name in f.sprites then
      match f.sprites[name]
      case None => Err(NullReference)
      case Some(p) => Ok(Some(CloneSprite(p)))
    else if name in f.textures then
      match FromTexture(f.textures[name])
      case Err(e) => Err(e)
      case Ok(p) => Ok(Some(NewNode(Some(p))))
    else Ok(None)
  }

  /** A texture added under a new name can be turned into sprites until it
      is removed; removing it disposes it and leaves the factory as it
      was. A sprite template shadows a texture of the same name. */
  lemma {:induction false} TextureLifecycle(f: SpriteFactory, name: string, t: Texture, p: SpriteProps)
    requires name !in f.textures && name !in f.sprites
    ensures var g := AddTexture(f, name, Some(t), false);
      g.Ok? &&
      CreateSprite(g.value, name).Ok? &&
      CreateSprite(g.value, name).value.value.look.sprite.value.sourceRect == FullRect(t) &&
      RemoveTexture(g.value, name) == Returned(f.(disposed := f.disposed + {t}), true)
    ensures var g := AddTexture(f, name, Some(t), false).value;
      var h := AddSprite(g, name, Some(p), false);
      h.Ok? && CreateSprite(h.value, name) == Ok(Some(CloneSprite(p)))
  {
    var g := AddTexture(f, name, Some(t), false).value;
    assert g.textures - {name} == f.textures;
  }

  /** Storing twice under the same name with `overwrite` keeps the second
      value only; storing without it never replaces. */
  lemma {:induction false} StoreOverwrite<V>(m: map<string, V>, name: string, v: V, w: V)
    ensures Store(m, name, v, true).Ok?
    ensures Store(Store(m, name, v, true).value, name, w, true) == Store(m, name, w, true)
    ensures Store(Store(m, name, v, true).value, name, w, false).Err?
  {
    var once := Store(m, name, v, true).value;
    assert once - {name} == m - {name};
  }

  // ---------------------------------------------------------------------
  // Dispose

  /** The non-null textures stored under the names `ks`. */
  ghost function Released(c: Cache, ks: seq<string>): set<Texture>
  {
    set i | 0 <= i < |ks| && ks[i] in c && c[ks[i]].Some? :: c[ks[i]].value
  }

  /** The `foreach` of `Dispose`: disposes the textures in enumeration
      order and throws at the first null one. */
  function DisposeEach(c: Cache, order: seq<string>, disposed: set<Texture>): (r: Outcome<set<Texture>, ()>)
    requires forall i :: 0 <= i < |order| ==> order[i] in c
    ensures r.Returned? <==> forall i :: 0 <= i < |order| ==> c[order[i]].Some?
    ensures r.Returned? ==> r.state == disposed + Released(c, order)
    ensures r.Threw? ==>
      r.error == NullReference &&
      exists i :: 0 <= i < |order| && c[order[i]].None? &&
        (forall j :: 0 <= j < i ==> c[order[j]].Some?) &&
        r.state == disposed + Released(c, order[..i])
    decreases |order|
  {
    if order == [] then Returned(disposed, ())
    else
      match c[order[0]]
      case None =>
        assert order[..0] == [];
        Threw(disposed, NullReference)
      case Some(t) =>
        var r := DisposeEach(c, order[1..], disposed + {t});
        ReleasedCons(c, order);
        assert r.Threw? ==>
          exists i :: 0 <= i < |order| && c[order[i]].None? &&
            (forall j :: 0 <= j < i ==> c[order[j]].Some?) &&
            r.state == disposed + Released(c, order[..i]) by {
          if r.Threw? {
            var i :| 0 <= i < |order[1..]| && c[order[1..][i]].None? &&
              (forall j :: 0 <= j < i ==> c[order[1..][j]].Some?) &&
              r.state == disposed + {t} + Released(c, order[1..][..i]);
            ThrowShifts(c, order, disposed, r.state, i);
          }
        }
        r
  }

  /** A throw at position `i` of the rest of the names is a throw at
      position `i + 1` of all of them, after releasing the first. */
  lemma {:induction false} ThrowShifts(c: Cache, order: seq<string>, disposed: set<Texture>, st: set<Texture>, i: nat)
    requires forall k :: 0 <= k < |order| ==> order[k] in c
    requires |order| > 0 && c[order[0]].Some?
    requires i < |order| - 1 && c[order[1..][i]].None?
    requires forall j :: 0 <= j < i ==> c[order[1..][j]].Some?
    requires st == disposed + {c[order[0]].value} + Released(c, order[1..][..i])
    ensures exists k :: (0 <= k < |order| && c[order[k]].None? &&
      (forall j :: 0 <= j < k ==> c[order[j]].Some?) &&
      st == disposed + Released(c, order[..k]))
  {
    ReleasedCons(c, order[..i + 1]);
    assert order[..i + 1][1..] == order[1..][..i];
    assert c[order[i + 1]].None?;
    forall j | 0 <= j < i + 1
      ensures c[order[j]].Some?
    {
      if j > 0 {
        assert order[j] == order[1..][j - 1];
      }
    }
  }

  /** Releasing the first name, then the rest, releases them all. */
  lemma {:induction false} ReleasedCons(c: Cache, ks: seq<string>)
    requires |ks| > 0 && ks[0] in c && c[ks[0]].Some?
    ensures Released(c, ks) == {c[ks[0]].value} + Released(c, ks[1..])
  {
    var tail := ks[1..];
    forall x | x in Released(c, ks) ensures x in {c[ks[0]].value} + Released(c, tail) {
      var i :| 0 <= i < |ks| && ks[i] in c && c[ks[i]].Some? && c[ks[i]].value == x;
      if i > 0 {
        assert tail[i - 1] == ks[i];
      }
    }
    forall x | x in Released(c, tail) ensures x in Released(c, ks) {
      var i :| 0 <= i < |tail| && tail[i] in c && c[tail[i]].Some? && c[tail[i]].value == x;
      assert ks[i + 1] == tail[i];
    }
  }

  /** `Dispose()`: disposes every cached texture, in the dictionary's
      enumeration order `order`, then clears both caches. A null texture
      stops it with both caches untouched and only the textures before it
      disposed. */
  function Dispose(f: SpriteFactory, order: seq<string>): (r: Outcome<SpriteFactory, ()>)
    requires forall k :: k in order <==> k in f.textures
    ensures r.Returned? <==> forall k :: k in f.textures ==> f.textures[k].Some?
    ensures r.Returned? ==>
      r.state.textures == map[] && r.state.sprites == map[] &&
      r.state.disposed == f.disposed + Released(f.textures, order)
    ensures r.Threw? ==>
      r.error == NullReference && r.state.textures == f.textures && r.state.sprites == f.sprites
  {
    match DisposeEach(f.textures, order, f.disposed)
    case Threw(d, e) => Threw(f.(disposed := d), e)
    case Returned(d, _) => Returned(SpriteFactory(map[], map[], d), ())
  }

  /** After a successful `Dispose`, every texture that was cached has been
      disposed. */
  lemma {:induction false} DisposeReleasesAll(f: SpriteFactory, order: seq<string>, k: string)
    requires forall k :: k in order <==> k in f.textures
    requires Dispose(f, order).Returned? && k in f.textures
    ensures f.textures[k].value in Dispose(f, order).state.disposed
  {
    var i :| 0 <= i < |order| && order[i] == k;
    assert f.textures[order[i]].value in Released(f.textures, order);
  }
}

=== FILE: sprites.dfy ===
/** The texture-related state of a sprite (liwq/source/Sprite.cs): which
    texture, which part of it, whether the packer rotated it, and the crop
    data. The node part of a sprite (position, scale, children, ...) is in
    the scene module. */
module Sprites {
  import opened Base
  import opened Geometry
  import opened Textures

  datatype SpriteProps = SpriteProps(
    texture: Option<Texture>,
    sourceRect: Rect,
    isRotate: bool,
    unCropSize: Size,
    cropPosition: Point,
    flipX: bool,
    flipY: bool)

  /** The full texture as a rectangle at the origin. */
  function FullRect(t: Texture): Rect
  {
    RectOf(0.0, 0.0, t.width as real, t.height as real)
  }

  /** `new Sprite(texture2d, rect, isRotated, unCropSize, cropPosition)`:
      the constructor followed by `setTextureProperty`. Without a rect the
      texture's own size is read, which throws on a null texture. Crop data
      not supplied keeps its zero default, and both flips start false. */
  function NewSprite(texture: Option<Texture>, rect: Option<Rect>, isRotated: bool,
                     unCropSize: Option<Size>, cropPosition: Option<Point>): (r: Result<SpriteProps>)
    ensures r.Err? <==> rect.None? && texture.None?
    ensures r.Err? ==> r.error == NullReference
    ensures r.Ok? ==> r.value.texture == texture && r.value.isRotate == isRotated
    ensures r.Ok? && rect.Some? ==> r.value.sourceRect == rect.value
    ensures r.Ok? && rect.None? ==>
      r.value.sourceRect.origin == ZeroPoint &&
      r.value.sourceRect.size == Size(texture.value.width as real, texture.value.height as real)
    ensures r.Ok? ==> r.value.unCropSize == (if unCropSize.Some? then unCropSize.value else ZeroSize)
    ensures r.Ok? ==> r.value.cropPosition == (if cropPosition.Some? then cropPosition.value else ZeroPoint)
    ensures r.Ok? ==> !r.value.flipX && !r.value.flipY
  {
    if rect.None? && texture.None? then Err(NullReference)
    else
      var source := if rect.None? then FullRect(texture.value) else rect.value;
      var unCrop := if unCropSize.Some? then unCropSize.value else ZeroSize;
      var crop := if cropPosition.Some? then cropPosition.value else ZeroPoint;
      Ok(SpriteProps(texture, source, isRotated, unCrop, crop, false, false))
  }

  /** The texture-only constructor `new Sprite(texture2d)`. */
  function FromTexture(t: Option<Texture>): (r: Result<SpriteProps>)
    ensures r.Ok? <==> t.Some?
    ensures r.Ok? ==>
      r.value.sourceRect == FullRect(t.value) && !r.value.isRotate &&
      r.value.unCropSize == ZeroSize && r.value.cropPosition == ZeroPoint
  {
    NewSprite(t, None, false, None, None)
  }

  /** `Clone`: a new sprite sharing the texture and copying the source rect,
      rotation flag and crop data; the flips are not copied. */
  function Clone(p: SpriteProps): (r: SpriteProps)
    ensures r.texture == p.texture && r.sourceRect == p.sourceRect && r.isRotate == p.isRotate
    ensures r.unCropSize == p.unCropSize && r.cropPosition == p.cropPosition
    ensures !r.flipX && !r.flipY
  {
    var made := NewSprite(p.texture, Some(p.sourceRect), p.isRotate, Some(p.unCropSize), Some(p.cropPosition));
    made.value
  }

  /** Cloning never fails, a clone of a clone equals the clone, and a clone
      equals its original exactly when the original is not flipped. */
  lemma {:induction false} CloneFacts(p: SpriteProps)
    ensures NewSprite(p.texture, Some(p.sourceRect), p.isRotate, Some(p.unCropSize), Some(p.cropPosition)).Ok?
    ensures Clone(Clone(p)) == Clone(p)
    ensures Clone(p) == p <==> !p.flipX && !p.flipY
  {
  }
}

=== FILE: textures.dfy ===
/** Textures and the name-keyed texture cache of
    liwq/source/TextureFactory.cs. A texture is an opaque handle with the
    two dimensions the rest of the engine reads; releasing it is recorded
    in the set of disposed textures. */
module Textures {
  import opened Base
  import Dictionaries

  datatype Texture = Texture(handle: nat, width: int, height: int)

  /** A texture cache: `Dictionary<string, Texture2D>`, whose values may
      be null. */
  type Cache = map<string, Option<Texture>>

  /** The factory's dictionary and the textures released so far. */
  datatype TextureFactory = TextureFactory(cache: Cache, disposed: set<Texture>)

  /** `Add(name, texture)`: `Dictionary.Add`, so an existing name fails
      and leaves the factory unchanged. */
  function Add(f: TextureFactory, name: string, t: Option<Texture>): (r: Result<TextureFactory>)
    ensures name in f.cache <==> r.Err?
    ensures r.Err? ==> r.error == DuplicateKey
    ensures r.Ok? ==> r.value.cache == f.cache[name := t] && r.value.disposed == f.disposed
  {
    var m := Dictionaries.Add(f.cache, name, t);
    if m.Err? then Err(m.error) else Ok(f.(cache := m.value))
  }

  /** Removes `name` and disposes the texture stored under it. The entry
      is removed before the texture is disposed, so a null texture throws
      with the entry already gone. */
  function RemoveEntry(cache: Cache, disposed: set<Texture>, name: string): (r: Outcome<(Cache, set<Texture>), bool>)
    ensures name !in cache ==> r == Returned((cache, disposed), false)
    ensures name in cache ==> r.state.0 == cache - {name}
    ensures name in cache && cache[name].Some? ==>
      r == Returned((cache - {name}, disposed + {cache[name].value}), true)
    ensures name in cache && cache[name].None? ==> r == Threw((cache - {name}, disposed), NullReference)
  {
    if name !in cache then Returned((cache, disposed), false)
    else
      var (rest, _) := Dictionaries.Remove(cache, name);
      match cache[name]
      case Some(t) => Returned((rest, disposed + {t}), true)
      case None => Threw((rest, disposed), NullReference)
  }

  /** `Remove(name)`: true exactly when the name was present; afterwards it
      is absent and its texture is disposed. */
  function Remove(f: TextureFactory, name: string): (r: Outcome<TextureFactory, bool>)
    ensures name !in r.state.cache
    ensures name !in f.cache ==> r == Returned(f, false)
    ensures r.Returned? ==> (r.value <==> name in f.cache)
    ensures r.Returned? && r.value ==> f.cache[name].Some? && f.cache[name].value in r.state.disposed
    ensures r.Threw? ==> name in f.cache && f.cache[name].None? && r.error == NullReference
  {
    match RemoveEntry(f.cache, f.disposed, name)
    case Returned((c, d), b) => Returned(TextureFactory(c, d), b)
    case Threw((c, d), e) => Threw(TextureFactory(c, d), e)
  }

  /** The indexer `this[name]`: the stored texture (possibly null); an
      absent name is a `KeyNotFoundException`, not a null result. */
  function Get(f: TextureFactory, name: string): (r: Result<Option<Texture>>)
    ensures r.Ok? <==> name in f.cache
    ensures r.Ok? ==> r.value == f.cache[name]
    ensures r.Err? ==> r.error == KeyNotFound
  {
    Dictionaries.Get(f.cache, name)
  }

  /** Adding a texture under a fresh name, then removing it, restores the
      cache, reports the removal, and disposes exactly that texture. */
  lemma {:induction false} AddThenRemove(f: TextureFactory, name: string, t: Texture)
    requires name !in f.cache
    ensures Add(f, name, Some(t)).Ok?
    ensures Get(Add(f, name, Some(t)).value, name) == Ok(Some(t))
    ensures Remove(Add(f, name, Some(t)).value, name) ==
      Returned(TextureFactory(f.cache, f.disposed + {t}), true)
  {
    var g := Add(f, name, Some(t)).value;
    assert g.cache - {name} == f.cache;
  }
}

=== FILE: toggle_visibility.dfy ===
/** `CCToggleVisibility`
    (liwq/cocos2d-xna/actions/action_instants/CCToggleVisibility.cs): an
    instant action that flips the visibility of the node it is started
    on. The action carries no state of its own beyond its target. */
module ToggleVisibility {
  import opened Base
  import opened Scene

  datatype ToggleVisibility = ToggleVisibility(target: Option<Ref>)

  /** `action()`: a new toggle, not yet bound to a node. */
  function Action(): (t: ToggleVisibility)
    ensures t.target == None
  {
    ToggleVisibility(None)
  }

  /** `StartWithTarget(target)`: the base class binds the target, then the
      node's `Visible` is negated; a null target throws at the flip, after
      the binding. */
  function StartWithTarget(t: ToggleVisibility, a: Arena, target: Option<Ref>): (r: Outcome<(ToggleVisibility, Arena), ()>)
    requires target.Some? ==> target.value in a
    ensures r.state.0.target == target
    ensures r.Threw? <==> target.None?
    ensures r.Threw? ==> r.error == NullReference && r.state.1 == a
    ensures r.Returned? ==>
      var n := target.value;
      var b := r.state.1;
      b.Keys == a.Keys &&
      b[n].visible == !a[n].visible &&
      b[n] == a[n].(visible := b[n].visible) &&
      (forall m :: m in a && m != n ==> b[m] == a[m])
  {
    var bound := t.(target := target);
    if target.None? then Threw((bound, a), NullReference)
    else
      var n := target.value;
      Returned((bound, a[n := a[n].(visible := !a[n].visible)]), ())
  }

  /** Starting a toggle twice on the same node gives the arena back. */
  lemma {:induction false} ToggleTwice(t: ToggleVisibility, a: Arena, n: Ref)
    requires n in a
    ensures var once := StartWithTarget(t, a, Some(n));
      once.Returned? &&
      StartWithTarget(once.state.0, once.state.1, Some(n)) == Returned((t.(target := Some(n)), a), ())
  {
    var b := StartWithTarget(t, a, Some(n)).state.1;
    assert b[n := b[n].(visible := !b[n].visible)] == a;
  }
}

=== FILE: touch.dfy ===
/** Touch bookkeeping of liwq/cocos2d-xna/_liwq/Application.cs: the
    application keeps the live touches in a linked list, with a map from
    touch id to the list node, and once per frame turns the touch panel's
    state into three batches (began, moved, ended) for the touch
    delegate.

    Touch objects are mutable and shared between the list, the map and
    the batches, so they live in a heap of handles: the list and the map
    hold handles, and a callback hands the delegate the objects as they
    are when it is called. The touch panel's state and the viewport size
    are parameters. */
module Touches {
  import opened Base
  import Scene

  /** XNA's `TouchLocationState`. */
  datatype TouchState = Invalid | Moved | Pressed | Released

  /** One entry of the touch panel's state. */
  datatype TouchLocation = TouchLocation(id: int, state: TouchState, x: real, y: real)

  /** A `CCTouch`: its id and position. */
  datatype Touch = Touch(id: int, x: real, y: real)

  type Handle = nat

  /** The touch objects allocated so far, the linked list of live touches
      in order, the id map, and the next free handle. */
  datatype Touches = Touches(objs: map<Handle, Touch>, link: seq<Handle>, byId: map<int, Handle>, next: Handle)

  /** The three batches collected while processing, as lists of touches. */
  datatype Batches = Batches(began: seq<Handle>, moved: seq<Handle>, ended: seq<Handle>)

  /** A call on the touch delegate, with the touches it is given. */
  datatype Callback =
    | TouchesBegan(touches: seq<Touch>)
    | TouchesMoved(touches: seq<Touch>)
    | TouchesEnded(touches: seq<Touch>)

  const NoTouches := Touches(map[], [], map[], 0)
  const NoBatches := Batches([], [], [])

  /** Handles are allocated below `next`; the list holds allocated
      handles, each once; every mapped id leads to a listed touch with
      that id. A list node whose id was pressed again may be left with no
      id leading to it. */
  ghost predicate Valid(t: Touches)
  {
    (forall h :: h in t.objs ==> h < t.next) &&
    (forall h :: h in t.link ==> h in t.objs) &&
    Scene.NoDup(t.link) &&
    (forall id :: id in t.byId ==> t.byId[id] in t.link && t.objs[t.byId[id]].id == id)
  }

  /** Every touch in a batch is allocated. */
  ghost predicate BatchesIn(b: Batches, objs: map<Handle, Touch>)
  {
    (forall h :: h in b.began ==> h in objs) &&
    (forall h :: h in b.moved ==> h in objs) &&
    (forall h :: h in b.ended ==> h in objs)
  }

  /** `Rectangle(0, 0, w, h).Contains((int)x, (int)y)`: left and top edges
      inclusive, right and bottom exclusive, after casting the position
      (a coordinate too large for 32 bits casts to a negative number and
      is outside). */
  predicate Inside(x: real, y: real, vw: int, vh: int)
  {
    0 <= CastToInt(x) < vw && 0 <= CastToInt(y) < vh
  }

  /** One iteration of the `foreach` over the touch panel's state. */
  function Step(t: Touches, b: Batches, loc: TouchLocation, vw: int, vh: int): (r: Result<(Touches, Batches)>)
    ensures r.Err? <==> loc.state == Invalid
    ensures r.Err? ==> r.error == ArgumentOutOfRange
    ensures r.Ok? ==> t.objs.Keys <= r.value.0.objs.Keys && t.next <= r.value.0.next
    ensures loc.state == Pressed && Inside(loc.x, loc.y, vw, vh) ==>
      var (u, c) := r.value; var h := t.next;
      u.objs == t.objs[h := Touch(loc.id, loc.x, loc.y)] &&
      u.link == t.link + [h] && u.byId == t.byId[loc.id := h] &&
      c == b.(began := b.began + [h])
    ensures loc.state == Pressed && !Inside(loc.x, loc.y, vw, vh) ==> r == Ok((t, b))
    ensures loc.state == Moved && loc.id in t.byId ==>
      var (u, c) := r.value; var h := t.byId[loc.id];
      u == t.(objs := t.objs[h := Touch(loc.id, loc.x, loc.y)]) &&
      c == b.(moved := b.moved + [h])
    ensures (loc.state == Moved || loc.state == Released) && loc.id !in t.byId ==> r == Ok((t, b))
    ensures loc.state == Released && loc.id in t.byId ==>
      var (u, c) := r.value; var h := t.byId[loc.id];
      u == t.(link := Scene.RemoveFirst(t.link, h), byId := t.byId - {loc.id}) &&
      c == b.(ended := b.ended + [h])
  {
    match loc.state
    case Pressed =>
      if Inside(loc.x, loc.y, vw, vh) then
        var h := t.next;
        var u := Touches(t.objs[h := Touch(loc.id, loc.x, loc.y)], t.link + [h], t.byId[loc.id := h], t.next + 1);
        Ok((u, b.(began := b.began + [h])))
      else Ok((t, b))
    case Moved =>
      if loc.id in t.byId then
        var h := t.byId[loc.id];
        Ok((t.(objs := t.objs[h := Touch(loc.id, loc.x, loc.y)]), b.(moved := b.moved + [h])))
      else Ok((t, b))
    case Released =>
      if loc.id in t.byId then
        var h := t.byId[loc.id];
        Ok((t.(link := Scene.RemoveFirst(t.link, h), byId := t.byId - {loc.id}), b.(ended := b.ended + [h])))
      else Ok((t, b))
    case Invalid => Err(ArgumentOutOfRange)
  }

  /** A step keeps the bookkeeping valid and the batches allocated, and a
      press allocates a handle no touch had. */
  lemma {:induction false} StepValid(t: Touches, b: Batches, loc: TouchLocation, vw: int, vh: int)
    requires Valid(t) && BatchesIn(b, t.objs)
    ensures var r := Step(t, b, loc, vw, vh);
      r.Ok? ==> Valid(r.value.0) && BatchesIn(r.value.1, r.value.0.objs)
    ensures t.next !in t.objs && t.next !in t.link
  {
    var r := Step(t, b, loc, vw, vh);
    if r.Ok? {
      var (u, c) := r.value;
      if loc.state == Pressed && Inside(loc.x, loc.y, vw, vh) {
        var h := t.next;
        assert Scene.NoDup(u.link) by {
          forall i, j | 0 <= i < j < |u.link| ensures u.link[i] != u.link[j] {
            if j == |t.link| {
              assert u.link[i] in t.link;
            }
          }
        }
      } else if loc.state == Released && loc.id in t.byId {
        var h := t.byId[loc.id];
        RemoveDistinct(t.link, h);
        forall id | id in u.byId ensures u.byId[id] in u.link {
          assert t.byId[id] != h;
        }
      }
    }
  }

  /** Removing a handle from a list that holds each once removes its only
      copy and nothing else. */
  lemma {:induction false} RemoveDistinct(s: seq<Handle>, h: Handle)
    requires Scene.NoDup(s)
    ensures Scene.NoDup(Scene.RemoveFirst(s, h)) && h !in Scene.RemoveFirst(s, h)
    ensures forall x :: x in s && x != h ==> x in Scene.RemoveFirst(s, h)
  {
    var r := Scene.RemoveFirst(s, h);
    if h in s {
      Scene.RemoveAtKeeps(map[], s, Scene.FirstIndex(s, h));
    }
    forall x | x in s && x != h ensures x in r {
      assert x in multiset(s);
      assert multiset(r)[x] == multiset(s)[x];
    }
  }

  /** Removing a handle just appended to a list without it gives the list
      back. */
  lemma {:induction false} RemoveAppended(s: seq<Handle>, h: Handle)
    requires h !in s
    ensures Scene.RemoveFirst(s + [h], h) == s
  {
    var l := s + [h];
    var k := Scene.FirstIndex(l, h);
    assert l[k] == h;
    assert k == |s|;
    assert l[..k] == s;
  }

  /** The whole `foreach`: the steps in order, stopping at the first
      invalid entry with the bookkeeping as far as it got. */
  function Fold(t: Touches, b: Batches, ls: seq<TouchLocation>, vw: int, vh: int): (r: Outcome<(Touches, Batches), ()>)
    ensures r.Threw? <==> exists i :: 0 <= i < |ls| && ls[i].state == Invalid
    ensures r.Threw? ==> r.error == ArgumentOutOfRange
    decreases |ls|
  {
    if ls == [] then Returned((t, b), ())
    else
      match Step(t, b, ls[0], vw, vh)
      case Err(e) => Threw((t, b), e)
      case Ok((u, c)) =>
        var r := Fold(u, c, ls[1..], vw, vh);
        assert (exists i :: 0 <= i < |ls| && ls[i].state == Invalid) <==>
               (exists i :: 0 <= i < |ls[1..]| && ls[1..][i].state == Invalid) by {
          if exists i :: 0 <= i < |ls| && ls[i].state == Invalid {
            var i :| 0 <= i < |ls| && ls[i].state == Invalid;
            assert ls[1..][i - 1] == ls[i];
          }
        }
        r
  }

  /** Processing keeps the bookkeeping valid, whether it finishes or
      throws. */
  lemma {:induction false} FoldValid(t: Touches, b: Batches, ls: seq<TouchLocation>, vw: int, vh: int)
    requires Valid(t) && BatchesIn(b, t.objs)
    ensures var r := Fold(t, b, ls, vw, vh);
      Valid(r.state.0) && BatchesIn(r.state.1, r.state.0.objs)
    decreases |ls|
  {
    if ls != [] {
      StepValid(t, b, ls[0], vw, vh);
      var s := Step(t, b, ls[0], vw, vh);
      if s.Ok? {
        FoldValid(s.value.0, s.value.1, ls[1..], vw, vh);
      }
    }
  }

  /** The touches of a batch, as they are when the callback is made. */
  function Values(hs: seq<Handle>, objs: map<Handle, Touch>): (r: seq<Touch>)
    requires forall h :: h in hs ==> h in objs
    ensures |r| == |hs| && forall i :: 0 <= i < |hs| ==> r[i] == objs[hs[i]]
  {
    seq(|hs|, i requires 0 <= i < |hs| => objs[hs[i]])
  }

  /** The delegate calls after the loop: one per non-empty batch, in the
      order began, moved, ended. */
  function Callbacks(b: Batches, objs: map<Handle, Touch>): (r: seq<Callback>)
    requires BatchesIn(b, objs)
    ensures |r| <= 3
    ensures forall i :: 0 <= i < |r| ==> |r[i].touches| > 0
    ensures forall i, j :: 0 <= i < j < |r| ==> Rank(r[i]) < Rank(r[j])
    ensures |b.began| > 0 <==> TouchesBegan(Values(b.began, objs)) in r
    ensures |b.moved| > 0 <==> TouchesMoved(Values(b.moved, objs)) in r
    ensures |b.ended| > 0 <==> TouchesEnded(Values(b.ended, objs)) in r
    ensures forall c :: c in r ==>
      c in [TouchesBegan(Values(b.began, objs)), TouchesMoved(Values(b.moved, objs)), TouchesEnded(Values(b.ended, objs))]
  {
    (if |b.began| > 0 then [TouchesBegan(Values(b.began, objs))] else []) +
    (if |b.moved| > 0 then [TouchesMoved(Values(b.moved, objs))] else []) +
    (if |b.ended| > 0 then [TouchesEnded(Values(b.ended, objs))] else [])
  }

  /** The position of a callback in the fixed order. */
  function Rank(c: Callback): nat
  {
    match c
    case TouchesBegan(_) => 0
    case TouchesMoved(_) => 1
    case TouchesEnded(_) => 2
  }

  /** `ProcessTouch()` as a function: nothing without a delegate;
      otherwise the loop, then the callbacks, unless the loop threw. */
  function Process(t: Touches, hasDelegate: bool, ls: seq<TouchLocation>, vw: int, vh: int): (r: Outcome<Touches, seq<Callback>>)
    requires Valid(t)
  {
    if !hasDelegate then Returned(t, [])
    else
      FoldValid(t, NoBatches, ls, vw, vh);
      match Fold(t, NoBatches, ls, vw, vh)
      case Threw((u, _), e) => Threw(u, e)
      case Returned((u, c), _) => Returned(u, Callbacks(c, u.objs))
  }

  /** `ProcessTouch()`: the loop over the touch panel's state. */
  method ProcessTouch(t: Touches, hasDelegate: bool, ls: seq<TouchLocation>, vw: int, vh: int)
    returns (r: Outcome<Touches, seq<Callback>>)
    requires Valid(t)
    ensures Valid(r.state)
    ensures r == Process(t, hasDelegate, ls, vw, vh)
    ensures !hasDelegate ==> r == Returned(t, [])
    ensures r.Threw? <==> hasDelegate && exists i :: 0 <= i < |ls| && ls[i].state == Invalid
    ensures r.Threw? ==> r.error == ArgumentOutOfRange
  {
    if !hasDelegate {
      return Returned(t, []);
    }
    FoldValid(t, NoBatches, ls, vw, vh);
    var cur := t;
    var bs := NoBatches;
    var i := 0;
    while i < |ls|
      invariant 0 <= i <= |ls|
      invariant Valid(cur) && BatchesIn(bs, cur.objs)
      invariant Fold(t, NoBatches, ls, vw, vh) == Fold(cur, bs, ls[i..], vw, vh)
    {
      StepValid(cur, bs, ls[i], vw, vh);
      assert ls[i..][1..] == ls[i + 1..];
      var s := Step(cur, bs, ls[i], vw, vh);
      if s.Err? {
        return Threw(cur, s.error);
      }
      cur, bs := s.value.0, s.value.1;
      i := i + 1;
    }
    return Returned(cur, Callbacks(bs, cur.objs));
  }

  /** A press inside the viewport under a new id followed by its release
      gives back the list and the id map as they were, and reports the
      same touch as begun and as ended. */
  lemma {:induction false} PressThenRelease(t: Touches, id: int, x: real, y: real, vw: int, vh: int)
    requires Valid(t) && id !in t.byId && Inside(x, y, vw, vh)
    ensures var p := Step(t, NoBatches, TouchLocation(id, Pressed, x, y), vw, vh);
      var q := Step(p.value.0, p.value.1, TouchLocation(id, Released, x, y), vw, vh);
      q.Ok? && q.value.0.link == t.link && q.value.0.byId == t.byId &&
      q.value.1.began == q.value.1.ended == [t.next] && q.value.0.objs[t.next] == Touch(id, x, y)
  {
    var h := t.next;
    var u := Touches(t.objs[h := Touch(id, x, y)], t.link + [h], t.byId[id := h], h + 1);
    Pressing(t, id, x, y, vw, vh);
    assert t.next !in t.link by {
      assert forall k :: k in t.link ==> k < t.next;
    }
    Releasing(t, u, id, x, y, vw, vh);
  }

  lemma {:induction false} Pressing(t: Touches, id: int, x: real, y: real, vw: int, vh: int)
    requires Inside(x, y, vw, vh)
    ensures var h := t.next;
      Step(t, NoBatches, TouchLocation(id, Pressed, x, y), vw, vh) ==
      Ok((Touches(t.objs[h := Touch(id, x, y)], t.link + [h], t.byId[id := h], h + 1), Batches([h], [], [])))
  {
    assert NoBatches.began + [t.next] == [t.next];
  }

  lemma {:induction false} Releasing(t: Touches, u: Touches, id: int, x: real, y: real, vw: int, vh: int)
    requires t.next !in t.link && id !in t.byId
    requires u == Touches(t.objs[t.next := Touch(id, x, y)], t.link + [t.next], t.byId[id := t.next], t.next + 1)
    ensures Step(u, Batches([t.next], [], []), TouchLocation(id, Released, x, y), vw, vh) ==
      Ok((u.(link := t.link, byId := t.byId), Batches([t.next], [], [t.next])))
  {
    var h := t.next;
    var loc := TouchLocation(id, Released, x, y);
    assert id in u.byId && u.byId[id] == h;
    var r := Step(u, Batches([h], [], []), loc, vw, vh);
    assert r.value.0 == u.(link := Scene.RemoveFirst(u.link, h), byId := u.byId - {id});
    assert r.value.1 == Batches([h], [], [] + [h]);
    RemoveAppended(t.link, h);
    UpdateThenRemove(t.byId, id, h);
    assert [] + [h] == [h];
  }

  /** Adding a fresh key and removing it again gives the map back. */
  lemma {:induction false} UpdateThenRemove(m: map<int, Handle>, k: int, v: Handle)
    requires k !in m
    ensures m[k := v] - {k} == m
  {
  }

  /** `ClearTouches()`: the list and the map are emptied. */
  function ClearTouches(t: Touches): (r: Touches)
    ensures r.link == [] && r.byId == map[]
    ensures r.objs == t.objs && r.next == t.next
    ensures Valid(t) ==> Valid(r)
  {
    t.(link := [], byId := map[])
  }

  /** After clearing, no move or release is tracked any more. */
  lemma {:induction false} ClearedIgnoresMoves(t: Touches, b: Batches, loc: TouchLocation, vw: int, vh: int)
    requires loc.state == Moved || loc.state == Released
    ensures Step(ClearTouches(t), b, loc, vw, vh) == Ok((ClearTouches(t), b))
  {
  }

  /** `Update(gameTime)`: the touches are processed, then the scheduler
      ticks unless the director is paused; a throw while processing ends
      the update before the tick. The value returned is the callbacks and
      whether the scheduler ticked. */
  function Update(t: Touches, hasDelegate: bool, ls: seq<TouchLocation>, vw: int, vh: int, paused: bool): (r: Outcome<Touches, (seq<Callback>, bool)>)
    requires Valid(t)
    ensures r.state == Process(t, hasDelegate, ls, vw, vh).state
    ensures r.Threw? <==> Process(t, hasDelegate, ls, vw, vh).Threw?
    ensures r.Returned? ==> r.value.0 == Process(t, hasDelegate, ls, vw, vh).value && (r.value.1 <==> !paused)
  {
    match Process(t, hasDelegate, ls, vw, vh)
    case Threw(u, e) => Threw(u, e)
    case Returned(u, cs) => Returned(u, (cs, !paused))
  }
}
